=== FILE: README.md ===
# rd_syncrr core, modelled in Dafny

rd_syncrr keeps a local database in step with a Real-Debrid account and with
the Radarr and Sonarr media managers. Its one periodic job, `database_update_job`, does two things:

- fetches the account's torrents and stores the new ones with their selected files;
- fetches movie and episode records from the media managers and stores the ones it has not seen.

Two further tasks are exported for separate use, outside that job:

- the symlink pass scans the library's symlinks and stores those that point at a known torrent file;
- the cross-link pass links files to movies and episodes through the symlinks.

It exports the torrent table as JSON, and it can diff that export against another instance's export.
Admin routes are guarded by a memoised secret, and API keys live in a small SQLite table.

This project models that core as pure functions over immutable data:

- **The media store** (`MediaModel`, `MediaDao`). Each table is a sequence in row order. Generated
  primary keys are drawn from a counter. The `update_torrent_file` hook and every create, getter
  and link of the DAO are modelled. `Valid` states the store invariant, and every operation
  preserves it.
- **Torrent sync** (`TorrentsProcess`):
  - the paging loop, both as written and corrected; a sync run (`SyncTorrents`, which the scheduler fires) uses the loop as written, so it never fetches past the second page;
  - the downloaded-torrent filter;
  - the hash diff;
  - the per-torrent insert of the torrent row and its selected files.
- **Provider shaping** (`ArrinfoApi`). The Radarr and Sonarr answers are reshaped into movie and
  episode rows. The model keeps the source's "first raise ends the loop, keep what was gathered"
  behaviour.
- **Media-info sync** (`MediainfoProcess`), **symlink sync** (`SymlinkProcess`) and the
  **cross-link pass** (`InfolinkProcess`).
- **The JSON exports** (`DataProcess`, `JsonfileProcess`) and **the scheduler** (`Scheduler`).
- **The instance diff** (`SyncInstance`), **the API-key table** (`SqliteAccess`) and **the admin
  secret** (`SecuritySecret`).
- **Shared helpers:** `Paths` (POSIX `basename`, `dirname`, `join`, `normpath`, `abspath`), `Seqs`
  (filter, stable descending insertion sort, first match, last-wins maps) and `Wrappers`.

The world outside the program enters as parameters:

- HTTP answers are values, and a raised request is a constructor;
- the clock is `now`;
- the directory walk is the sequence of entries it meets;
- generated uuids are fresh counter keys, or a `generated` string for the secret.

## Model

| member | source | states |
|---|---|---|
| MediaModel.Hook | rd_syncrr/services/media_db/models/media_model.py:236-253 | the hook touches only the file table and leaves every other table and the key counter alone |
| MediaModel.HookMovie | rd_syncrr/services/media_db/models/media_model.py:238-244 | when a movie points at the symlink, a file carries that movie iff it is the symlink's file; episode references are untouched |
| MediaModel.HookEpisode | rd_syncrr/services/media_db/models/media_model.py:245-253 | only when no movie points at the symlink, a file carries the symlink's episode iff it is the symlink's file |
| MediaModel.HookNeither | rd_syncrr/services/media_db/models/media_model.py:236-253 | with neither a movie nor an episode on the symlink, the hook is a no-op |
| MediaModel.HookIdempotent | rd_syncrr/services/media_db/models/media_model.py:236-253 | firing the hook twice has the effect of firing it once |
| MediaModel.HookValid | rd_syncrr/services/media_db/models/media_model.py:194-253 | the hook keeps keys unique and references in range |
| MediaModel.HookOnFreshSymlink | rd_syncrr/services/media_db/models/media_model.py:256-257 | the hook fired by inserting a new symlink changes nothing, since no media row can point at a fresh key |
| MediaModel.Attach | rd_syncrr/services/media_db/models/media_model.py:194-209 | assigning the one-to-one file side: exactly the target file holds the media reference afterwards, other files lose it, and nothing else on any file changes |
| MediaModel.AttachIdempotent | rd_syncrr/services/media_db/models/media_model.py:194-209 | re-assigning the same relationship changes nothing |
| MediaModel.LinkedMedia | rd_syncrr/services/media_db/models/media_model.py:141-173 | the media row of a kind that points at a symlink, or none exists |
| MediaModel.SymlinkFile | rd_syncrr/services/media_db/models/media_model.py:141-173 | the file that points at a symlink, or no file does |
| MediaModel.EmptyStoreValid | rd_syncrr/services/media_db/models/media_model.py:13-34 | the empty database satisfies the store invariant |
| MediaDao.CreateTorrent | rd_syncrr/services/media_db/dao/media_dao.py:67-85 | a new torrent id with no null column appends one row stamped `now`; a null hash, id or filename (NOT NULL) or a duplicate primary key rolls back and leaves the store unchanged |
| MediaDao.CreateTorrentValid | rd_syncrr/services/media_db/dao/media_dao.py:67-85 | creating a torrent keeps the store invariant |
| MediaDao.CreateTorrentThenGet | rd_syncrr/services/media_db/dao/media_dao.py:188-205 | after a committed create, `get_torrent` by that id returns exactly the new row |
| MediaDao.CreateSymlink | rd_syncrr/services/media_db/dao/media_dao.py:87-113 | one symlink row under a fresh key; the named file, if any, points at it; no other table changes; the store stays valid |
| MediaDao.CreateMovie | rd_syncrr/services/media_db/dao/media_dao.py:115-126 | a complete movie is appended under a fresh key; one missing a NOT NULL column is rolled back |
| MediaDao.CreateEpisode | rd_syncrr/services/media_db/dao/media_dao.py:128-139 | a complete episode is appended under a fresh key; one missing a NOT NULL column is rolled back |
| MediaDao.CreateFile | rd_syncrr/services/media_db/dao/media_dao.py:141-159 | a file of a stored torrent with a non-null path and size is appended under a fresh key with no media or symlink reference; for an unknown torrent the `if torrent_model:` test skips the insert silently, and a null path or size is rolled back; either way nothing changes |
| MediaDao.AllTorrents | rd_syncrr/services/media_db/dao/media_dao.py:161-174 | OFFSET/LIMIT paging: the rows from `offset` on, at most `limit` of them, in row order |
| MediaDao.TorrentHashes | rd_syncrr/services/media_db/dao/media_dao.py:176-186 | every stored hash in row order, or None for an empty table |
| MediaDao.TorrentHashesMembership | rd_syncrr/services/media_db/dao/media_dao.py:176-186 | a hash is listed iff some stored torrent has it |
| MediaDao.GetTorrent | rd_syncrr/services/media_db/dao/media_dao.py:188-205 | a stored row that matches every non-empty filter, or None iff no row matches |
| MediaDao.GetTorrentUnfiltered | rd_syncrr/services/media_db/dao/media_dao.py:199-205 | with no truthy filter the first row is returned |
| MediaDao.GetTorrentIsFirst | rd_syncrr/services/media_db/dao/media_dao.py:199-205 | the returned row is the earliest matching one |
| MediaDao.FileById | rd_syncrr/services/media_db/dao/media_dao.py:207-215 | the file with that key, or None iff none has it |
| MediaDao.SymlinkById | rd_syncrr/services/media_db/dao/media_dao.py:278-286 | the symlink with that key, or None iff none has it |
| MediaDao.MovieById | rd_syncrr/services/media_db/dao/media_dao.py:362-373 | the movie with that key, or None iff none has it |
| MediaDao.EpisodeById | rd_syncrr/services/media_db/dao/media_dao.py:375-386 | the episode with that key, or None iff none has it |
| MediaDao.MovieByPath | rd_syncrr/services/media_db/dao/media_dao.py:388-396 | a movie stored at the path, or None iff none is |
| MediaDao.EpisodeByPath | rd_syncrr/services/media_db/dao/media_dao.py:398-406 | an episode stored at the path, or None iff none is |
| MediaDao.UnlinkedFiles | rd_syncrr/services/media_db/dao/media_dao.py:217-228 | exactly the files with a symlink and no media reference, in row order |
| MediaDao.FilesOfTorrent | rd_syncrr/services/media_db/dao/media_dao.py:241-254 | exactly the files owned by the torrent, in row order |
| MediaDao.FilenameDict | rd_syncrr/services/media_db/dao/media_dao.py:256-267 | the keys are exactly the stored files' basenames; None for an empty table |
| MediaDao.FilenameDictLastWins | rd_syncrr/services/media_db/dao/media_dao.py:261-267 | of two files with one basename, the later row's key is kept |
| MediaDao.DestinationFilenameDict | rd_syncrr/services/media_db/dao/media_dao.py:309-323 | the keys are exactly the stored symlinks' destination filenames; None for an empty table |
| MediaDao.EpisodeFileIds | rd_syncrr/services/media_db/dao/media_dao.py:338-348 | every episode's provider file id in row order; None for an empty table |
| MediaDao.MovieFileIds | rd_syncrr/services/media_db/dao/media_dao.py:350-360 | every movie's provider file id in row order; None for an empty table |
| MediaDao.LinkFile | rd_syncrr/services/media_db/dao/media_dao.py:408-438 | when both rows resolve, only that file's reference of that kind is set and its other media reference is kept; otherwise nothing changes |
| MediaDao.LinkFileValid | rd_syncrr/services/media_db/dao/media_dao.py:408-438 | linking keeps the store invariant |
| MediaDao.LinkFileIdempotent | rd_syncrr/services/media_db/dao/media_dao.py:408-438 | linking twice is linking once |
| MediaDao.LinkSymlink | rd_syncrr/services/media_db/dao/media_dao.py:440-470 | when both rows resolve, exactly the named media row of that kind points at the symlink and its other columns are kept; the hook then makes the symlink's file the media's one file, with the other reference kept (for an episode, when no movie points at the symlink); torrents, symlinks and the other media table are unchanged and the store invariant is kept; otherwise nothing changes |
| MediaDao.MoveMovieSymlink | rd_syncrr/services/media_db/dao/media_dao.py:446-454 | exactly the chosen movie points at the symlink afterwards; other movie columns are kept |
| MediaDao.MoveEpisodeSymlink | rd_syncrr/services/media_db/dao/media_dao.py:462-470 | exactly the chosen episode points at the symlink afterwards; other episode columns are kept |
| TorrentsProcess.FetchAsWrittenStopsAtTwo | rd_syncrr/tasks/torrents_process.py:21-38 | as written, full first and second pages end the loop and every later page is lost |
| TorrentsProcess.FetchAsWrittenLosesThirdPage | rd_syncrr/tasks/torrents_process.py:21-38 | with limit 1 and three one-item pages, the third item is never fetched |
| TorrentsProcess.FetchAsWrittenAtMostTwoPages | rd_syncrr/tasks/torrents_process.py:21-38 | as written, with pages no longer than the limit, the result is the first page, followed by the second only when the first is full; no third page is ever requested |
| TorrentsProcess.FetchCorrectedGetsAll | rd_syncrr/tasks/torrents_process.py:21-38 | stopping at the first short page returns every torrent of the account in page order |
| TorrentsProcess.Candidates | rd_syncrr/tasks/torrents_process.py:66-70 | the candidates are exactly the downloaded items (status equal to "downloaded"; a null status is not) projected to filename, id and hash, in response order with duplicates; a null field is carried as None |
| TorrentsProcess.NewCandidates | rd_syncrr/tasks/torrents_process.py:74-77 | exactly the candidates whose hash is not stored, in order; a null hash is never stored, so such a candidate is always new |
| TorrentsProcess.SelectedRows | rd_syncrr/tasks/torrents_process.py:125-130 | the path and size of each file whose `selected` equals 1, in listing order, a null read as None; the rows exist iff the listing is present, every file has the `selected` key, and every selected file has the `path` and `bytes` keys |
| TorrentsProcess.SelectedRowsOnlySelected | rd_syncrr/tasks/torrents_process.py:126-127 | a file not marked `selected == 1` is never stored |
| TorrentsProcess.NullSelectedSkipped | rd_syncrr/tasks/torrents_process.py:126-127 | a file whose `selected` is null is skipped on its own: the rows read from the listing stay as they were |
| TorrentsProcess.CreateFilesAppends | rd_syncrr/tasks/torrents_process.py:131-132 | the files of a stored torrent that have a non-null path and size are appended in order under consecutive fresh keys, and nothing else changes |
| TorrentsProcess.CreateFilesUnknownTorrent | rd_syncrr/tasks/torrents_process.py:131-132 | every file of an unknown torrent is refused |
| TorrentsProcess.AddFilesEffect | rd_syncrr/tasks/torrents_process.py:118-137 | exactly the selected files with a non-null path and size are stored under the torrent's id; a failed listing, a missing key, an unknown torrent or a null id stores none |
| TorrentsProcess.ProcessOne | rd_syncrr/tasks/torrents_process.py:97-116 | afterwards a torrent without a null column is stored; at most its own row was added, none when a column is null; a null id changes nothing at all |
| TorrentsProcess.ProcessOneStoresFiles | rd_syncrr/tasks/torrents_process.py:97-116 | whether or not the torrent row was new, its selected files are appended after the stored ones once a row for its id exists; a torrent whose row was refused for a null column and whose id is unknown changes nothing |
| TorrentsProcess.ProcessNew | rd_syncrr/tasks/torrents_process.py:90-103 | every candidate without a null column is stored afterwards; one failure does not stop the others; old rows keep their place |
| TorrentsProcess.ProcessNewStoresHashes | rd_syncrr/tasks/torrents_process.py:90-103 | the hash of every candidate without a null column is stored afterwards, given that provider ids determine hashes |
| TorrentsProcess.ProcessNewTorrentHash | rd_syncrr/tasks/torrents_process.py:90-103 | every torrent row afterwards is an old row in its old place, or exactly the row of a processed candidate that has no null column |
| TorrentsProcess.UpdateTorrentDb | rd_syncrr/tasks/torrents_process.py:59-87 | a response with a missing key changes nothing; a null status or column does not abandon the run: every downloaded torrent without a null column is stored or had its hash stored already; torrent rows are only appended, and the symlink and media tables are untouched |
| TorrentsProcess.NullStatusSkipped | rd_syncrr/tasks/torrents_process.py:67 | an item with a null status is skipped: it adds no candidate and does not make the response malformed |
| TorrentsProcess.NothingNewIsNoop | rd_syncrr/tasks/torrents_process.py:72-81 | with every candidate hash non-null and already stored, a run changes nothing |
| TorrentsProcess.EmptyCandidatesNoop | rd_syncrr/tasks/torrents_process.py:72-84 | with no downloaded torrent, a run leaves the whole store unchanged |
| TorrentsProcess.UpdateTorrentDbIdempotent | rd_syncrr/tasks/torrents_process.py:59-87 | a second run on an unchanged response leaves the whole store unchanged, null columns included: no torrent row and no file row is added |
| TorrentsProcess.UpdateTorrentDbStoresHash | rd_syncrr/tasks/torrents_process.py:59-87 | after a run, the hash of every candidate without a null column is stored, whether it was stored before or is new |
| TorrentsProcess.UnstorableSettled | rd_syncrr/tasks/torrents_process.py:59-116 | after a run, a candidate with a null column either has its hash stored or its id names no stored torrent, so a later run files nothing under it |
| TorrentsProcess.StoredRowAgrees | rd_syncrr/tasks/torrents_process.py:59-116 | a torrent row after a run that has a candidate's id carries that candidate's hash |
| TorrentsProcess.AllSettledNoop | rd_syncrr/tasks/torrents_process.py:72-103 | a run over a response whose every candidate has its hash stored, or has a null column and an unknown id, leaves the whole store unchanged |
| TorrentsProcess.ProcessNewInert | rd_syncrr/tasks/torrents_process.py:90-137 | processing candidates that have a null column and no stored torrent under their id changes nothing: the torrent row is refused and `create_file_model` skips every file |
| TorrentsProcess.DuplicateSecondPass | rd_syncrr/tasks/torrents_process.py:90-103 | processing a torrent whose row is already stored keeps the torrent table and appends its selected file once more |
| TorrentsProcess.DuplicateInResponseDuplicatesFiles | rd_syncrr/tasks/torrents_process.py:82-103 | a torrent listed twice in one response gets one row but its files twice, because stored hashes are read once per run |
| TorrentsProcess.SyncTorrents | rd_syncrr/tasks/torrents_process.py:140-150 | one run, fetching with the two-page loop as written: the store invariant is kept, torrent rows are only appended, the symlink and media tables are untouched, a response with a missing key changes nothing, and every fetched downloaded torrent without a null column is stored or had its hash stored |
| TorrentsProcess.SyncTorrentsStoresOnlyFirstTwoPages | rd_syncrr/tasks/torrents_process.py:21-87 | with pages no longer than the page size, every torrent row a run adds carries the non-null id and hash of a downloaded item on page one or two, so a torrent listed only on a later page is never stored |
| TorrentsProcess.UpdateTorrentDbNewRows | rd_syncrr/tasks/torrents_process.py:59-87 | every torrent row a run adds carries the non-null id, hash and filename of a downloaded item of the response |
| ArrinfoApi.NewArrInfo | rd_syncrr/tasks/arrinfo_api.py:12-16 | construction succeeds iff both managers have a host and a key; the Radarr pair is checked first, with its own message |
| ArrinfoApi.QualityOf | rd_syncrr/tasks/arrinfo_api.py:25-43 | a missing `quality` reads as an empty object; a null one raises |
| ArrinfoApi.LangNames | rd_syncrr/tasks/arrinfo_api.py:25-43 | the language names in order; a language without a name raises |
| ArrinfoApi.ShapeMovie | rd_syncrr/tasks/arrinfo_api.py:20-43 | a readable movie file gives a "movie" record carrying the movie's and the file's fields; an unreadable one raises |
| ArrinfoApi.RadarrLoop | rd_syncrr/tasks/arrinfo_api.py:104-121 | every record comes from a kept movie; the loop is cut short iff a kept movie's file raises |
| ArrinfoApi.RadarrLoopComplete | rd_syncrr/tasks/arrinfo_api.py:104-121 | without a raise, the result is the kept movies, shaped, in response order |
| ArrinfoApi.RadarrLoopPrefix | rd_syncrr/tasks/arrinfo_api.py:104-121 | a raise on the `k`-th movie, the first kept one whose file cannot be shaped, ends the loop and keeps exactly the kept movies before it, shaped, in response order |
| ArrinfoApi.RadarrSingleObject | rd_syncrr/tasks/arrinfo_api.py:107-108 | a single movie object is handled as a one-element list |
| ArrinfoApi.RadarrDropsFileless | rd_syncrr/tasks/arrinfo_api.py:110-116 | a movie without a file adds nothing, wherever it stands |
| ArrinfoApi.ShapedMovieStorable | rd_syncrr/services/media_db/models/media_model.py:53-72 | a shaped movie can be stored iff it has an id, a title and a path |
| ArrinfoApi.GetRadarrInfo | rd_syncrr/tasks/arrinfo_api.py:76-121 | a failed request yields no movie; every record is the shaped form of a kept movie of the answer; when no kept movie's file raises, the result is every kept movie shaped, in answer order; when one does, it is the kept movies before the first such movie, shaped, in answer order |
| ArrinfoApi.SeriesLoop | rd_syncrr/tasks/arrinfo_api.py:128-145 | the kept series are a subsequence of the answer, each with files; null statistics cut the loop short |
| ArrinfoApi.SeriesLoopFilters | rd_syncrr/tasks/arrinfo_api.py:128-145 | without null statistics, exactly the series with files are kept |
| ArrinfoApi.SeriesLoopPrefix | rd_syncrr/tasks/arrinfo_api.py:133-145 | `null` statistics on the `k`-th series, the first such, end the loop and keep exactly the series with files before it, in response order |
| ArrinfoApi.SeriesInfo | rd_syncrr/tasks/arrinfo_api.py:123-145 | a failed request yields no series; the result is a subsequence of the answer and every series in it has files; without `null` statistics it is exactly the series with files; with them it is exactly the series with files before the first `null` |
| ArrinfoApi.EpisodeFilesOf | rd_syncrr/tasks/arrinfo_api.py:147-160 | a failed request becomes the `[{}]` sentinel |
| ArrinfoApi.EpisodeInfosOf | rd_syncrr/tasks/arrinfo_api.py:180-196 | a failed request becomes `[{}]`; an answer that is neither an object nor a list becomes `[]` |
| ArrinfoApi.UpdateFileDict | rd_syncrr/tasks/arrinfo_api.py:219-232 | an empty info changes nothing; otherwise exactly the three episode fields are copied |
| ArrinfoApi.JoinFile | rd_syncrr/tasks/arrinfo_api.py:240-258 | a file gets the fields of the first info with its file id, and is unchanged without one |
| ArrinfoApi.MatchedInfoNonEmpty | rd_syncrr/tasks/arrinfo_api.py:225-232 | the info matched to a file with an id is never empty, so the emptiness test never blocks the copy |
| ArrinfoApi.JoinFiles | rd_syncrr/tasks/arrinfo_api.py:234-258 | every file is joined, in order |
| ArrinfoApi.JoinKeepsFileFields | rd_syncrr/tasks/arrinfo_api.py:240-258 | the join writes only the episode number, title and id |
| ArrinfoApi.JoinIdempotent | rd_syncrr/tasks/arrinfo_api.py:234-258 | joining twice with the same infos is joining once |
| ArrinfoApi.UpdateSerie | rd_syncrr/tasks/arrinfo_api.py:262-275 | a series gets joined episode files iff it has an id and neither request hit the failure sentinel |
| ArrinfoApi.UpdatedSeries | rd_syncrr/tasks/arrinfo_api.py:260-275 | every series is updated, in order |
| ArrinfoApi.FailedFetchSkipsSerie | rd_syncrr/tasks/arrinfo_api.py:262-275 | a series whose file or info request failed contributes no episode |
| ArrinfoApi.EpisodeLanguages | rd_syncrr/tasks/arrinfo_api.py:50-74 | a missing language is an empty list, a single object a one-element list, and null raises |
| ArrinfoApi.ShapeEpisode | rd_syncrr/tasks/arrinfo_api.py:45-74 | a readable episode file gives a "serie" record carrying the series' and the file's fields; an unreadable one raises |
| ArrinfoApi.SingleLanguageIsList | rd_syncrr/tasks/arrinfo_api.py:50-74 | a single language object yields a one-name list |
| ArrinfoApi.ShapeFiles | rd_syncrr/tasks/arrinfo_api.py:212-214 | the files of a series are shaped in order; the run is cut short iff some file raises |
| ArrinfoApi.ShapeFilesPrefix | rd_syncrr/tasks/arrinfo_api.py:212-214 | a raise on the `k`-th file, the first unreadable one, keeps exactly the `k` files before it, shaped |
| ArrinfoApi.CreateSonarrData | rd_syncrr/tasks/arrinfo_api.py:198-217 | the loop is cut short iff some series' file raises |
| ArrinfoApi.CreateSonarrDataPrefix | rd_syncrr/tasks/arrinfo_api.py:205-217 | a raise in the `k`-th series, the first whose files raise, ends the whole loop and keeps the shaped files of every series before it, then that series' files shaped before the raise |
| ArrinfoApi.CreateSonarrDataConcat | rd_syncrr/tasks/arrinfo_api.py:205-217 | without a raise, the output is each series' shaped files concatenated in series order |
| ArrinfoApi.GetSonarrInfo | rd_syncrr/tasks/arrinfo_api.py:277-312 | every record is an episode; a failed series request yields none; when every joined file is readable, the result is each kept series' shaped files, series after series, in order; when a series' files raise, it is the shaped files of the series before the first such one, then that series' files shaped before the raise |
| ArrinfoApi.SonarrEntriesFromKeptSeries | rd_syncrr/tasks/arrinfo_api.py:260-312 | every reported episode belongs to a kept series |
| MediainfoProcess.NewItems | rd_syncrr/tasks/mediainfo_process.py:43-58 | with nothing stored, everything fetched; otherwise exactly the items with an unstored file id, each as many times as fetched, in order, or None iff there are none |
| MediainfoProcess.AddEpisodes | rd_syncrr/tasks/mediainfo_process.py:13-33 | only the episode table grows; earlier episodes keep their place; the store stays valid |
| MediainfoProcess.AddEpisodesEffect | rd_syncrr/tasks/mediainfo_process.py:23-33 | exactly the complete episodes are stored, in order, under consecutive fresh keys |
| MediainfoProcess.AddEpisodesAllRolledBack | rd_syncrr/tasks/mediainfo_process.py:23-33 | incomplete episodes only: nothing changes |
| MediainfoProcess.AddEpisodesStores | rd_syncrr/tasks/mediainfo_process.py:23-33 | every complete episode handed in is stored afterwards |
| MediainfoProcess.AddMovies | rd_syncrr/tasks/mediainfo_process.py:61-79 | only the movie table grows; earlier movies keep their place; the store stays valid |
| MediainfoProcess.AddMoviesEffect | rd_syncrr/tasks/mediainfo_process.py:71-79 | exactly the complete movies are stored, in order, under consecutive fresh keys |
| MediainfoProcess.AddMoviesAllRolledBack | rd_syncrr/tasks/mediainfo_process.py:71-79 | incomplete movies only: nothing changes |
| MediainfoProcess.AddMoviesStores | rd_syncrr/tasks/mediainfo_process.py:71-79 | every complete movie handed in is stored afterwards |
| MediainfoProcess.EpisodePassCovers | rd_syncrr/tasks/mediainfo_process.py:111-115 | after the episode pass every complete fetched episode is stored |
| MediainfoProcess.MoviePassCovers | rd_syncrr/tasks/mediainfo_process.py:116-120 | after the movie pass every complete fetched movie is stored |
| MediainfoProcess.EpisodePassFixpoint | rd_syncrr/tasks/mediainfo_process.py:43-58 | when every complete fetched episode is stored, the pass changes nothing |
| MediainfoProcess.MoviePassFixpoint | rd_syncrr/tasks/mediainfo_process.py:88-103 | when every complete fetched movie is stored, the pass changes nothing |
| MediainfoProcess.ProcessMediainfo | rd_syncrr/tasks/mediainfo_process.py:106-125 | only the media tables grow, by appending; the store stays valid |
| MediainfoProcess.ProcessMediainfoIdempotent | rd_syncrr/tasks/mediainfo_process.py:106-125 | a second run against the same answers adds nothing |
| MediainfoProcess.EmptyStoreTakesAllEpisodes | rd_syncrr/tasks/mediainfo_process.py:45-47 | with no episode stored, every fetched episode goes to the insert loop |
| MediainfoProcess.StoredEpisodeSkipped | rd_syncrr/tasks/mediainfo_process.py:48-51 | an episode whose file id is stored is never inserted again |
| SymlinkProcess.SymlinkInfo | rd_syncrr/tasks/symlink_process.py:36-58 | the target is the link's directory joined with what it points to, made absolute and normal; the filenames are the basenames; a failed `readlink` gives None |
| SymlinkProcess.AbsoluteTargetIgnoresDirectory | rd_syncrr/tasks/symlink_process.py:47-58 | an absolute link target replaces the link's directory, and the working directory plays no part |
| SymlinkProcess.TargetIsAbsolute | rd_syncrr/tasks/symlink_process.py:47-58 | a link under an absolute directory resolves to an absolute target |
| SymlinkProcess.NormalTargetKept | rd_syncrr/tasks/symlink_process.py:47-58 | a link to a normal absolute path targets exactly that path, and its last component is the target filename |
| SymlinkProcess.ScanLoop | rd_syncrr/tasks/symlink_process.py:22-28 | one resolved entry per readable link, in walk order |
| SymlinkProcess.Scan | rd_syncrr/tasks/symlink_process.py:11-33 | None iff no readable link was met |
| SymlinkProcess.Unstored | rd_syncrr/tasks/symlink_process.py:105-111 | exactly the scanned links whose destination filename is not stored, in order |
| SymlinkProcess.InsertKnown | rd_syncrr/tasks/symlink_process.py:71-92 | only the symlink table grows, by appending; file keys and paths are unchanged; the store stays valid |
| SymlinkProcess.InsertKnownEffect | rd_syncrr/tasks/symlink_process.py:77-92 | exactly the links whose target filename names a stored file are inserted, in scan order, under consecutive fresh keys |
| SymlinkProcess.InsertKnownStores | rd_syncrr/tasks/symlink_process.py:77-92 | every link with a known target has its destination stored afterwards |
| SymlinkProcess.InsertKnownNone | rd_syncrr/tasks/symlink_process.py:77-83 | links with unknown targets only: nothing changes |
| SymlinkProcess.UpdateSymlinkDb | rd_syncrr/tasks/symlink_process.py:61-92 | with no file stored nothing happens; otherwise symlinks are only appended |
| SymlinkProcess.ProcessSymlink | rd_syncrr/tasks/symlink_process.py:95-126 | an empty scan touches nothing; symlinks are only appended; the store stays valid |
| SymlinkProcess.StoredDestinationSkipped | rd_syncrr/tasks/symlink_process.py:105-114 | a link whose destination filename is stored is never inserted again |
| SymlinkProcess.ProcessSymlinkIdempotent | rd_syncrr/tasks/symlink_process.py:99-126 | a second run over the same scan changes nothing |
| InfolinkProcess.Decision | rd_syncrr/tasks/infolink_process.py:16-34 | a file with a resolvable symlink gets the movie at the symlink's destination if there is one, else the episode there, else nothing |
| InfolinkProcess.LinkAll | rd_syncrr/tasks/infolink_process.py:16-34 | the loop changes only the file table, row for row |
| InfolinkProcess.CrossLinkEffect | rd_syncrr/tasks/infolink_process.py:7-34 | each file ends up as the per-file rule says: unlinked files are linked per the decision, all others are untouched |
| InfolinkProcess.CrossLinkOnlyAdds | rd_syncrr/tasks/infolink_process.py:7-34 | every reference a file had, it keeps |
| InfolinkProcess.LinkedFileLeavesUnlinked | rd_syncrr/tasks/infolink_process.py:13-34 | a file leaves the unlinked set iff a movie or episode was found for it |
| InfolinkProcess.OneLinkPerFile | rd_syncrr/tasks/infolink_process.py:24-33 | the pass never sets both a movie and an episode on one file |
| InfolinkProcess.CrossLinkValid | rd_syncrr/tasks/infolink_process.py:7-34 | the pass keeps the store invariant |
| InfolinkProcess.CrossLinkIdempotent | rd_syncrr/tasks/infolink_process.py:7-34 | a second pass changes nothing |
| DataProcess.FileInfo | rd_syncrr/tasks/data_process.py:54-87 | the movie reference is consulted first and alone decides when set; info exists iff the referenced row does |
| DataProcess.FilesInfo | rd_syncrr/tasks/data_process.py:41-97 | one entry per file, in order, carrying the file's path, size, date and media info |
| DataProcess.EntryListsOwnFiles | rd_syncrr/tasks/data_process.py:115-125 | a path is listed under a torrent iff a file of that torrent has it |
| DataProcess.CollectAll | rd_syncrr/tasks/data_process.py:100-134 | paging by 1000 returns one entry per torrent, in row order, or None iff the table is empty |
| DataProcess.ProcessJsonfile | rd_syncrr/tasks/data_process.py:137-158 | nothing is written for an empty table; otherwise one write to the export file holding every torrent exactly once, newest first, torrents with the same date in table order |
| DataProcess.LastWriteWins | rd_syncrr/tasks/data_process.py:26-35 | a whole-file write decides the file's contents, whatever it held before |
| DataProcess.UntouchedFile | rd_syncrr/tasks/data_process.py:26-35 | a file no write names keeps its contents |
| DataProcess.ExportReplacesFile | rd_syncrr/tasks/data_process.py:26-35 | the export replaces the file's contents |
| DataProcess.TorrentsData | rd_syncrr/tasks/data_process.py:161-189 | one page of the export: an entry for each torrent of the page, in row order |
| DataProcess.TorrentsDataPagesConcat | rd_syncrr/tasks/data_process.py:161-189 | two consecutive pages make up the page that spans both |
| DataProcess.RowPagesConcat | rd_syncrr/services/media_db/dao/media_dao.py:161-174 | OFFSET/LIMIT pages of the torrent table split and join without gaps or overlaps |
| JsonfileProcess.JsonEntryOf | rd_syncrr/tasks/jsonfile_process.py:55-89 | a torrent's fields, with one name per owned file |
| JsonfileProcess.JsonEntryNames | rd_syncrr/tasks/jsonfile_process.py:72 | each listed name is the last path component of a file the torrent owns |
| JsonfileProcess.ProcessJsonfile | rd_syncrr/tasks/jsonfile_process.py:92-119 | nothing is written for an empty table; otherwise the latest file is written first, then the all file; the all file holds every torrent once, newest first, torrents with the same date in table order; the latest file is its first min(25, n) entries, none older than the rest |
| JsonfileProcess.ExportedFiles | rd_syncrr/tasks/jsonfile_process.py:27-49 | after both writes the all file holds the full export; the latest file holds the prefix unless both settings name one file |
| Scheduler.InitScheduler | rd_syncrr/scheduler.py:18-37 | stored jobs are kept; the defaults are coalesce, one instance and a 20-second grace time |
| Scheduler.CountNamed | rd_syncrr/scheduler.py:59-67 | no job of that name iff the count is zero |
| Scheduler.CountNamedAppend | rd_syncrr/scheduler.py:59-67 | appending a job adds one to its own name's count only |
| Scheduler.TriggerUpdateJob | rd_syncrr/scheduler.py:50-67 | an existing job of that name blocks the add; otherwise one 15-minute interval job is appended |
| Scheduler.InitJobs | rd_syncrr/scheduler.py:70-82 | a job store that cannot be read adds nothing |
| Scheduler.InitRegistersOnce | rd_syncrr/scheduler.py:70-82 | initialisation keeps every stored job and leaves exactly one update job when there was none |
| Scheduler.InitIdempotent | rd_syncrr/scheduler.py:70-82 | initialising twice stores the job once |
| Scheduler.FreshStoreGetsOneJob | rd_syncrr/scheduler.py:70-82 | from a store without the job, any number of restarts leave exactly one update job |
| Scheduler.DatabaseUpdate | rd_syncrr/scheduler.py:40-47 | a firing runs the torrent pass, then the media pass, which leaves the torrent, file and symlink tables as the torrent pass wrote them |
| Scheduler.FiringMediaPassSettles | rd_syncrr/scheduler.py:40-47 | the media pass of a firing adds nothing when run again on its result |
| SyncInstance.ListWanted | rd_syncrr/tasks/sync_instance.py:50-65 | as written: no local list wants everything synced, and an empty synced list wants nothing |
| SyncInstance.ListWantedMembership | rd_syncrr/tasks/sync_instance.py:61-65 | as written, the diff wants exactly the local items whose id the synced list lacks |
| SyncInstance.ListWantedOrderAndDisjoint | rd_syncrr/tasks/sync_instance.py:61-65 | as written, the wanted items keep local order and share no id with the synced list |
| SyncInstance.ListWantedWrongWayRound | rd_syncrr/tasks/sync_instance.py:61-65 | an item held locally is wanted again and the missing synced item is not |
| SyncInstance.ListWantedCorrected | rd_syncrr/tasks/sync_instance.py:50-65 | the corrected diff keeps the as-written None and empty cases |
| SyncInstance.ListWantedCorrectedMembership | rd_syncrr/tasks/sync_instance.py:61-65 | the corrected diff wants exactly the synced items whose id the local list lacks |
| SyncInstance.ReadLocalAsWritten | rd_syncrr/tasks/sync_instance.py:35-47 | as written, an existing export is never read and a missing one raises |
| SyncInstance.AsWrittenNeverCompares | rd_syncrr/tasks/sync_instance.py:35-65 | as written, a sync either fails or wants every synced item |
| SyncInstance.ReadLocal | rd_syncrr/tasks/sync_instance.py:35-47 | corrected: a missing export means no local list, a readable one is returned, an unparsable one fails |
| SyncInstance.ReadLocalKeepsContents | rd_syncrr/tasks/sync_instance.py:40-44 | the corrected reader passes a readable export's contents on; the as-written reader drops them |
| SyncInstance.Wanted | rd_syncrr/tasks/sync_instance.py:83-89 | corrected composition (the source raises on a missing export and never reads an existing one): an unreadable export stops the run, and a missing one wants every synced item |
| SyncInstance.WantedFromSynced | rd_syncrr/tasks/sync_instance.py:83-89 | a run wants only synced items, in their order, and none the local export already holds |
| SqliteAccess.Lookup | rd_syncrr/services/security_db/_sqlite_access.py:109-124 | a row with the key, or None iff none has it |
| SqliteAccess.UpdateWhere | rd_syncrr/services/security_db/_sqlite_access.py:155-165 | only rows with the key are changed |
| SqliteAccess.UpdateWhereValid | rd_syncrr/services/security_db/_sqlite_access.py:155-165 | an update that keeps keys keeps the primary key intact |
| SqliteAccess.LookupAfterUpdate | rd_syncrr/services/security_db/_sqlite_access.py:155-165 | other keys are found as before, and the key's row is found updated |
| SqliteAccess.CreateKey | rd_syncrr/services/security_db/_sqlite_access.py:76-102 | a new key appends an active, never queried row expiring `days` days later; an existing key violates the primary key |
| SqliteAccess.CreateKeyValid | rd_syncrr/services/security_db/_sqlite_access.py:57-102 | creating keeps the primary key and leaves other keys' rows alone |
| SqliteAccess.RevokeKey | rd_syncrr/services/security_db/_sqlite_access.py:175-194 | only the key's row changes, and it becomes inactive |
| SqliteAccess.RevokeIdempotent | rd_syncrr/services/security_db/_sqlite_access.py:175-194 | revoking twice is revoking once |
| SqliteAccess.RevokedKeyFails | rd_syncrr/services/security_db/_sqlite_access.py:175-229 | a revoked key fails every check |
| SqliteAccess.ParseError | rd_syncrr/services/security_db/_sqlite_access.py:141-153 | an unparsable date is a 422 refusal |
| SqliteAccess.RenewDate | rd_syncrr/services/security_db/_sqlite_access.py:135-153 | no date gives the default expiry; a parsable date is taken as is; otherwise 422 |
| SqliteAccess.RenewKey | rd_syncrr/services/security_db/_sqlite_access.py:104-173 | an unknown key is 404 and a bad date 422, both before any write; otherwise the key is active with the new expiry, and the message starts with the reactivation notice iff it was revoked |
| SqliteAccess.RenewedKeyChecks | rd_syncrr/services/security_db/_sqlite_access.py:104-229 | a renewed key passes checks until its new expiry |
| SqliteAccess.CheckKey | rd_syncrr/services/security_db/_sqlite_access.py:196-243 | a check succeeds iff the key exists, is active, and never expires or has not expired; a refusal writes nothing |
| SqliteAccess.CheckKeyCounts | rd_syncrr/services/security_db/_sqlite_access.py:230-261 | a successful check adds one to the key's count, stamps `now`, and touches no other row |
| SqliteAccess.CreatedKeyChecks | rd_syncrr/services/security_db/_sqlite_access.py:76-229 | a new key passes checks until its expiry, or always if it never expires |
| SqliteAccess.UsageStats | rd_syncrr/services/security_db/_sqlite_access.py:263-285 | every row is reported exactly once |
| SqliteAccess.UsageStatsOrdered | rd_syncrr/services/security_db/_sqlite_access.py:274-283 | most recently queried first, with never-queried keys after all others |
| SecuritySecret.SecretValue | rd_syncrr/utils/security/security_secret.py:31-51 | the configured secret when it is set, otherwise the generated one |
| SecuritySecret.Value | rd_syncrr/utils/security/security_secret.py:22-29 | a memoised secret is returned as is; otherwise it is computed and memoised |
| SecuritySecret.ValueMemoised | rd_syncrr/utils/security/security_secret.py:22-29 | after the first read, every read gives the same secret whatever the settings then say |
| SecuritySecret.SecretBasedSecurity | rd_syncrr/utils/security/security_secret.py:63-93 | a missing header is 403 without reading the secret; otherwise the request passes iff the header equals the secret, and a mismatch is 403 |
| SecuritySecret.ConfiguredSecretAdmits | rd_syncrr/utils/security/security_secret.py:63-93 | with a configured secret, exactly the requests carrying it pass |
| SecuritySecret.AnswerFixedAfterFirstRead | rd_syncrr/utils/security/security_secret.py:22-93 | once memoised, the answer depends on the header alone |
| Paths.BasenameIsLastComponent | rd_syncrr/tasks/jsonfile_process.py:72 | `os.path.basename` is the last component of the split path |
| Seqs.SortDescStable | rd_syncrr/tasks/data_process.py:24 | the descending sort is stable: the elements sharing a key come out in their input order, as `list.sort(reverse=True)` keeps them |
| Seqs.FilterMultiset | rd_syncrr/tasks/mediainfo_process.py:48-54 | a filter keeps every copy of a passing element and no copy of a failing one |

## Left out

- HTTP clients, the Real-Debrid, Radarr, Sonarr and peer-instance APIs, and FastAPI routing. Their answers are parameters; a raised request is a constructor of the answer type.
- File I/O (JSON dumps, `os.walk`, `readlink`). Reads are parameters and whole-file writes are `FileWrite` values; JSON serialisation itself is not modelled.
- `async`/`await`, the session lifecycle and concurrency between scheduled jobs.
- The clock, uuid4 and shortuuid generation. `now` is a parameter, generated keys are fresh counter values, and the admin secret's generated value is a parameter.
- The APScheduler timer itself: firing times, coalescing, misfire handling and the SQLAlchemy job store. Only the registration logic and one firing's effect are modelled.
- SqliteAccess.CheckKey: the usage update runs in a background thread in the source. It is modelled as happening synchronously, so lost updates between concurrent checks are not modelled.
- SqliteAccess.UsageStats: the order among rows with equal query dates is insertion order here; SQLite does not promise any order for ties.
- SqliteAccess.RenewDate: `datetime.fromisoformat` is a `parse` parameter. Times are whole seconds since the epoch, so dates before 1970 and time-zone-aware dates are not modelled.
- SqliteAccess.CheckKey: `now` is truncated to the second. The stored expiry has second precision, but the source compares it with `datetime.utcnow()`, which carries microseconds (_sqlite_access.py:225). So a check made during the expiry's own second, after its first microsecond, is refused by the source and accepted by the model.
- SqliteAccess: the table schema, connection handling and the `except` branches that only log.
- SecuritySecret.Value: requires a non-empty generated secret, which a uuid4 string always is. The `KeyError` branch of `get_secret_value` is not modelled. The constant-time comparison is modelled as equality.
- DataProcess.TorrentsData: negative `limit` and `offset` (which SQLite treats specially) are not modelled; the parameters are `nat`. In the source a failing store read ends the loop and returns the entries gathered so far (data_process.py:174-189); store reads cannot fail in this model, so that branch is not modelled.
- ArrinfoApi: the `[{}]` failure sentinel is `EmptyFile` / `EmptyInfo`, the object with none of the modelled keys; an answer object that lacks every modelled key but carries other keys compares equal to it here, where Python's `== [{}]` would not. A language object whose name is `null` is treated like one without a name. The module-level construction of `ArrInfo` at import time is not modelled.
- MediaDao getters with no caller in this core are not modelled: `get_files_unlinked_symlink`, `get_symlink_by_target`, `get_all_symlinks`, `get_symlink_target_filename_dict`, `get_all_torrents_files`.
- Scheduler.DatabaseUpdate: states the media pass's effect on the tables the torrent pass wrote, not a combined effect on media tables beyond appending.
- TorrentsProcess.UpdateTorrentDbIdempotent: assumes that a provider id always comes with the same hash, a null hash included (`IdsAgree`); the schema does not enforce this. Without it, an item with a null hash and the id of a stored torrent is new on every run and has its files stored again each time.
- TorrentsProcess.UpdateTorrentDbStoresHash: assumes the same (`IdsAgree`), since a torrent whose id is stored under another hash is refused by its primary key and its hash is then not stored.
- TorrentsProcess.ProcessNewStoresHashes: assumes the same (`IdsAgree`), for the same reason.
- TorrentsProcess.UnstorableSettled: assumes the same (`IdsAgree`), for the reason given for the idempotence lemma.
- TorrentsProcess.StoredRowAgrees: assumes the same (`IdsAgree`); it is the step the two lemmas above share.
- TorrentsProcess.RdTorrent: a JSON value of another type than the modelled one (a number for a string, `true` for `selected == 1`) is not modelled.
- The web views, the admin and auth routes, `torrents_action.py` and the peer-instance HTTP client are not part of this model.

## Findings

| source | as written | input that shows it | evidently intended | confidence | as-written member | corrected member |
|---|---|---|---|---|---|---|
| rd_syncrr/tasks/torrents_process.py:21-38 | the page length is compared with `counter`, which grows by `limit` every page, so the second page (never longer than `limit`) always ends the loop | limit 1, three pages of one torrent each: the third torrent is never fetched | stop at the first page shorter than `limit` | high, not executed | TorrentsProcess.FetchAsWrittenLosesThirdPage | TorrentsProcess.FetchCorrectedGetsAll |
| rd_syncrr/tasks/sync_instance.py:40-44 | the export file is opened only when `os.path.exists` is false, so a missing file raises and an existing one is never read | an existing, readable export: the reader returns None and the diff wants every synced torrent | read the file when it exists, and treat a missing one as no local list | high, not executed | SyncInstance.AsWrittenNeverCompares | SyncInstance.ReadLocalKeepsContents |
| rd_syncrr/tasks/sync_instance.py:61-65 | the diff filters the local list by the synced ids, so it wants what is held locally but missing remotely | local `[a]`, synced `[b]`: the diff wants `[a]`, which is already held, and not `b` | filter the synced list by the local ids, so that what is missing locally gets added | medium, not executed | SyncInstance.ListWantedWrongWayRound | SyncInstance.ListWantedCorrectedMembership |

=== FILE: arrinfo_api.dfy ===
/**
  The media managers' answers, reshaped into the movie and episode records
  the store keeps (`ArrInfo` in `tasks/arrinfo_api.py`).

  Provider responses are inputs. A JSON value read with `.get(key, default)`
  is a `Field`: the key may be missing (the default applies), hold `null`
  (the default does not apply, and reading into it raises), or hold a value.
  Each loop in the source sits inside one `try`, so the first raise ends the
  loop and the items accumulated so far are returned: loops here produce a
  `Partial` result that records whether the loop was cut short.
 */
module ArrinfoApi {
  import opened Wrappers
  import opened Seqs
  import opened MediaModel

  /** The items appended before the loop ended, and whether a raise ended it. */
  datatype Partial<+T> = Partial(items: seq<T>, failed: bool)

  /** A response that may be one JSON object or a list of them; a raise is `Failed`. */
  datatype Response<+T> = Failed | One(item: T) | Many(items: seq<T>)

  /** `[x] if isinstance(x, dict) else x`. */
  function AsList<T>(r: Response<T>): seq<T>
    requires !r.Failed?
  {
    match r
    case One(x) => [x]
    case Many(xs) => xs
  }

  // ---------------------------------------------------------------------
  // Construction
  // ---------------------------------------------------------------------

  datatype Clients = Clients(radarrHost: string, radarrKey: string, sonarrHost: string, sonarrKey: string)

  /**
    `ArrInfo.__init__`: both managers need a host and a key; the radarr pair
    is checked first.
   */
  function NewArrInfo(radarrHost: Option<string>, radarrKey: Option<string>,
                      sonarrHost: Option<string>, sonarrKey: Option<string>): (r: Result<Clients, string>)
    ensures r.Ok? <==> radarrHost.Some? && radarrKey.Some? && sonarrHost.Some? && sonarrKey.Some?
    ensures r.Ok? ==> r.value == Clients(radarrHost.value, radarrKey.value, sonarrHost.value, sonarrKey.value)
    ensures (radarrHost.None? || radarrKey.None?) ==> r == Err("Radarr host or api key not set")
    ensures radarrHost.Some? && radarrKey.Some? && (sonarrHost.None? || sonarrKey.None?) ==>
              r == Err("Sonarr host or api key not set")
  {
    if radarrHost.None? || radarrKey.None? then Err("Radarr host or api key not set")
    else if sonarrHost.None? || sonarrKey.None? then Err("Sonarr host or api key not set")
    else Ok(Clients(radarrHost.value, radarrKey.value, sonarrHost.value, sonarrKey.value))
  }

  // ---------------------------------------------------------------------
  // Shared shaping helpers
  // ---------------------------------------------------------------------

  /** The inner `quality` object: its name and resolution. */
  datatype QualityInner = QualityInner(name: Option<string>, resolution: Option<int>)

  /** A file's `quality` object, which nests a second `quality` object. */
  datatype QualityObj = QualityObj(quality: Field<QualityInner>)

  /** A language object; `None` when it has no `name` key. */
  datatype Lang = Lang(name: Option<string>)

  /**
    `file.get("quality", {}).get("quality", {})`: a missing key reads as an
    empty object, a `null` one raises (None).
   */
  function QualityOf(q: Field<QualityObj>): (r: Option<QualityInner>)
    ensures r.Some? <==> q != Null && (q.Present? ==> q.value.quality != Null)
    ensures r.Some? && q.Present? && q.value.quality.Present? ==> r.value == q.value.quality.value
    ensures r.Some? && !(q.Present? && q.value.quality.Present?) ==> r.value == QualityInner(None, None)
  {
    match q
    case Missing => Some(QualityInner(None, None))
    case Null => None
    case Present(o) =>
      match o.quality
      case Missing => Some(QualityInner(None, None))
      case Null => None
      case Present(inner) => Some(inner)
  }

  /** `[lang["name"] for lang in langs]`: raises (None) on a language without a name. */
  function LangNames(langs: seq<Lang>): (r: Option<seq<string>>)
    ensures r.Some? <==> forall i :: 0 <= i < |langs| ==> langs[i].name.Some?
    ensures r.Some? ==> |r.value| == |langs| && forall i :: 0 <= i < |langs| ==> r.value[i] == langs[i].name.value
    decreases |langs|
  {
    if |langs| == 0 then Some([])
    else if langs[0].name.None? then None
    else
      match LangNames(langs[1..])
      case None => None
      case Some(rest) => Some([langs[0].name.value] + rest)
  }

  // ---------------------------------------------------------------------
  // Movies
  // ---------------------------------------------------------------------

  /** A movie file object; a `movieFile` that is `{}` is not one. */
  datatype MovieFile = MovieFile(
    id: Option<int>,
    releaseGroup: Option<string>,
    quality: Field<QualityObj>,
    languages: Field<seq<Lang>>,
    originalFilePath: Option<string>,
    relativePath: Option<string>,
    path: Option<string>)

  /**
    A radarr movie object. `movieFile` is `None` when the key is missing,
    `null` or `{}`, the three cases the source treats alike.
   */
  datatype RadarrMovie = RadarrMovie(
    id: Option<int>,
    title: Option<string>,
    originalTitle: Option<string>,
    year: Option<int>,
    imdbId: Option<string>,
    tmdbId: Option<int>,
    genres: Option<seq<string>>,
    hasFile: Option<bool>,
    movieFile: Option<MovieFile>)

  /** `movie_file.get("languages", [])` turned into names. */
  function MovieLanguages(f: Field<seq<Lang>>): (r: Option<seq<string>>)
    ensures r.Some? <==> f != Null && (f.Present? ==> LangNames(f.value).Some?)
    ensures f.Missing? ==> r == Some([])
  {
    match f
    case Missing => Some([])
    case Null => None
    case Present(ls) => LangNames(ls)
  }

  /** A movie file the shaping can read without raising. */
  predicate MovieFileReadable(f: MovieFile) {
    QualityOf(f.quality).Some? && MovieLanguages(f.languages).Some?
  }

  /** `_create_movie_data`: None when reading the file raises. */
  function ShapeMovie(m: RadarrMovie, f: MovieFile): (r: Option<MovieData>)
    ensures r.Some? <==> MovieFileReadable(f)
    ensures r.Some? ==>
      && r.value.mediaType == "movie"
      && r.value.movieId == m.id && r.value.title == m.title
      && r.value.fileId == f.id && r.value.path == f.path
      && r.value.quality == QualityOf(f.quality).value.name
      && r.value.resolution == QualityOf(f.quality).value.resolution
      && r.value.languages == MovieLanguages(f.languages).value
  {
    match QualityOf(f.quality)
    case None => None
    case Some(q) =>
      match MovieLanguages(f.languages)
      case None => None
      case Some(langs) =>
        Some(MovieData("movie", m.id, m.title, m.originalTitle, m.year, f.releaseGroup, m.imdbId, m.tmdbId,
                       m.genres, q.name, q.resolution, langs, f.originalFilePath, f.relativePath, f.path, f.id))
  }

  /** The movies the loop shapes: not `hasFile is False`, and with a file. */
  predicate MovieKept(m: RadarrMovie) {
    m.hasFile != Some(false) && m.movieFile.Some?
  }

  /** The body of the loop in `get_radarr_info`, up to the first raise. */
  function RadarrLoop(ms: seq<RadarrMovie>): (r: Partial<MovieData>)
    ensures forall d :: d in r.items ==> exists m :: m in ms && MovieKept(m) && ShapeMovie(m, m.movieFile.value) == Some(d)
    ensures r.failed <==> exists m :: m in ms && MovieKept(m) && !MovieFileReadable(m.movieFile.value)
    decreases |ms|
  {
    if |ms| == 0 then Partial([], false)
    else
      var m := ms[0];
      var rest := RadarrLoop(ms[1..]);
      assert forall x :: x in ms[1..] ==> x in ms;
      assert forall x :: x in ms ==> x == m || x in ms[1..];
      if !MovieKept(m) then rest
      else
        match ShapeMovie(m, m.movieFile.value)
        case None => Partial([], true)
        case Some(d) => Partial([d] + rest.items, rest.failed)
  }

  /** Shapes a kept movie whose file is readable. */
  function ShapeKept(m: RadarrMovie): MovieData
    requires MovieKept(m) && MovieFileReadable(m.movieFile.value)
  {
    ShapeMovie(m, m.movieFile.value).value
  }

  /**
    When no kept movie raises, the result is the kept movies, in response
    order, each shaped.
   */
  lemma {:induction false} RadarrLoopComplete(ms: seq<RadarrMovie>)
    requires AllKeptReadable(ms)
    ensures !RadarrLoop(ms).failed
    ensures RadarrLoop(ms).items == Map(Filter(ms, MovieKept), ShapeKeptTotal)
    decreases |ms|
  {
    if |ms| > 0 {
      RadarrLoopComplete(ms[1..]);
      if MovieKept(ms[0]) {
        assert Filter(ms, MovieKept) == [ms[0]] + Filter(ms[1..], MovieKept);
        assert Map(Filter(ms, MovieKept), ShapeKeptTotal)
            == [ShapeKeptTotal(ms[0])] + Map(Filter(ms[1..], MovieKept), ShapeKeptTotal);
      }
    }
  }

  /** The `k`-th movie is the first kept one whose file raises. */
  predicate RadarrRaisesFirstAt(ms: seq<RadarrMovie>, k: int) {
    && 0 <= k < |ms|
    && MovieKept(ms[k]) && !MovieFileReadable(ms[k].movieFile.value)
    && AllKeptReadable(ms[..k])
  }

  /**
    A raise ends the loop but keeps what was gathered: the result is the
    kept movies before the first raising one, shaped, in response order.
   */
  lemma {:induction false} RadarrLoopPrefix(ms: seq<RadarrMovie>, k: int)
    requires RadarrRaisesFirstAt(ms, k)
    ensures RadarrLoop(ms).failed
    ensures RadarrLoop(ms).items == Map(Filter(ms[..k], MovieKept), ShapeKeptTotal)
    decreases k
  {
    if k == 0 {
      assert ms[..0] == [];
    } else {
      var tl := ms[1..];
      RadarrRaisesInTail(ms, k);
      RadarrLoopPrefix(tl, k - 1);
      RadarrLoopStep(ms);
      TakeCons(ms, k);
      KeptShapedCons(ms[0], tl[..k - 1]);
    }
  }

  /** Past a first movie that does not raise, the first raise is one place earlier. */
  lemma {:induction false} RadarrRaisesInTail(ms: seq<RadarrMovie>, k: int)
    requires RadarrRaisesFirstAt(ms, k) && k > 0
    ensures RadarrRaisesFirstAt(ms[1..], k - 1)
    ensures MovieKept(ms[0]) ==> MovieFileReadable(ms[0].movieFile.value)
  {
    assert ms[..k][0] == ms[0];
    assert ms[1..][..k - 1] == ms[..k][1..];
  }

  /** One step of the loop over a first movie that does not raise. */
  lemma {:induction false} RadarrLoopStep(ms: seq<RadarrMovie>)
    requires |ms| > 0
    requires MovieKept(ms[0]) ==> MovieFileReadable(ms[0].movieFile.value)
    ensures RadarrLoop(ms).failed == RadarrLoop(ms[1..]).failed
    ensures RadarrLoop(ms).items
         == (if MovieKept(ms[0]) then [ShapeKeptTotal(ms[0])] else []) + RadarrLoop(ms[1..]).items
  {
    if !MovieKept(ms[0]) {
      assert [] + RadarrLoop(ms[1..]).items == RadarrLoop(ms[1..]).items;
    }
  }

  /** The kept, shaped movies of a list are those of its head followed by those of its tail. */
  lemma {:induction false} KeptShapedCons(x: RadarrMovie, ys: seq<RadarrMovie>)
    ensures Map(Filter([x] + ys, MovieKept), ShapeKeptTotal)
         == (if MovieKept(x) then [ShapeKeptTotal(x)] else []) + Map(Filter(ys, MovieKept), ShapeKeptTotal)
  {
    assert ([x] + ys)[1..] == ys;
    if MovieKept(x) {
      MapConcat([x], Filter(ys, MovieKept), ShapeKeptTotal);
    }
  }

  /** Every first raise pins the result down, for use in contracts. */
  lemma RadarrLoopPrefixAll(ms: seq<RadarrMovie>)
    ensures forall k :: RadarrRaisesFirstAt(ms, k) ==>
      RadarrLoop(ms).failed && RadarrLoop(ms).items == Map(Filter(ms[..k], MovieKept), ShapeKeptTotal)
  {
    forall k | RadarrRaisesFirstAt(ms, k)
      ensures RadarrLoop(ms).failed && RadarrLoop(ms).items == Map(Filter(ms[..k], MovieKept), ShapeKeptTotal)
    {
      RadarrLoopPrefix(ms, k);
    }
  }

  /** `ShapeKept` extended to every movie, for use with `Map`. */
  function ShapeKeptTotal(m: RadarrMovie): MovieData {
    if MovieKept(m) && MovieFileReadable(m.movieFile.value) then ShapeKept(m)
    else MovieData("movie", None, None, None, None, None, None, None, None, None, None, [], None, None, None, None)
  }

  /**
    `get_radarr_info`: the shaped movies; a failed request yields none, and
    when no kept movie's file raises, every kept movie is shaped in order.
   */
  function GetRadarrInfo(resp: Response<RadarrMovie>): (r: seq<MovieData>)
    ensures resp.Failed? ==> r == []
    ensures forall d :: d in r ==>
      !resp.Failed? && exists m :: m in AsList(resp) && MovieKept(m) && ShapeMovie(m, m.movieFile.value) == Some(d)
    ensures !resp.Failed? && AllKeptReadable(AsList(resp)) ==> r == Map(Filter(AsList(resp), MovieKept), ShapeKeptTotal)
    ensures forall k :: !resp.Failed? && RadarrRaisesFirstAt(AsList(resp), k) ==>
      r == Map(Filter(AsList(resp)[..k], MovieKept), ShapeKeptTotal)
  {
    if resp.Failed? then []
    else
      var ms := AsList(resp);
      RadarrLoopPrefixAll(ms);
      if AllKeptReadable(ms) then
        RadarrLoopComplete(ms);
        RadarrLoop(ms).items
      else RadarrLoop(ms).items
  }

  /** No kept movie has a file the shaping cannot read. */
  predicate AllKeptReadable(ms: seq<RadarrMovie>) {
    forall i :: 0 <= i < |ms| && MovieKept(ms[i]) ==> MovieFileReadable(ms[i].movieFile.value)
  }

  /** A single object is treated as a one-element list. */
  lemma {:induction false} RadarrSingleObject(m: RadarrMovie)
    ensures MovieKept(m) && MovieFileReadable(m.movieFile.value) ==> GetRadarrInfo(One(m)) == [ShapeKept(m)]
    ensures !MovieKept(m) ==> GetRadarrInfo(One(m)) == []
  {
    assert AsList(One(m)) == [m];
    assert [m][1..] == [];
    assert RadarrLoop([m][1..]) == Partial([], false);
  }

  /** A movie with `hasFile` False, or without a file, contributes nothing. */
  lemma {:induction false} RadarrDropsFileless(ms: seq<RadarrMovie>, m: RadarrMovie)
    requires m.hasFile == Some(false) || m.movieFile.None?
    ensures RadarrLoop(ms + [m]).items == RadarrLoop(ms).items
    ensures RadarrLoop([m] + ms) == RadarrLoop(ms)
    decreases |ms|
  {
    assert ([m] + ms)[1..] == ms;
    if |ms| > 0 {
      assert (ms + [m])[1..] == ms[1..] + [m];
      RadarrDropsFileless(ms[1..], m);
    } else {
      assert ms + [m] == [m];
    }
  }

  /**
    A shaped movie is stored by `create_radarr_movie_model` iff the movie
    has an id and a title and its file a path.
   */
  lemma {:induction false} ShapedMovieStorable(m: RadarrMovie, f: MovieFile)
    requires MovieFileReadable(f)
    ensures MovieColumnsOk(ShapeMovie(m, f).value) <==> m.id.Some? && m.title.Some? && f.path.Some?
  {
  }

  // ---------------------------------------------------------------------
  // Series
  // ---------------------------------------------------------------------

  /**
    A series' `statistics`: `NoStats` when the key is missing or the object
    is `{}`, `NullStats` for `null`, otherwise its `episodeFileCount`.
   */
  datatype Stats = NoStats | NullStats | HasStats(episodeFileCount: Option<int>)

  datatype Serie = Serie(
    id: Option<int>,
    title: Option<string>,
    year: Option<int>,
    tvdbId: Option<int>,
    imdbId: Option<string>,
    tvMazeId: Option<int>,
    genres: Option<seq<string>>,
    statistics: Stats)

  /** A series with statistics and a file count other than 0. */
  predicate SerieKept(s: Serie) {
    s.statistics.HasStats? && s.statistics.episodeFileCount != Some(0)
  }

  /**
    The loop of `_get_sonarr_series_info`: `null` statistics raise, since
    `None.get` is attempted.
   */
  function SeriesLoop(ss: seq<Serie>): (r: Partial<Serie>)
    ensures IsSubsequence(r.items, ss)
    ensures forall i :: 0 <= i < |r.items| ==> SerieKept(r.items[i])
    ensures r.failed <==> exists i :: 0 <= i < |ss| && ss[i].statistics.NullStats?
    decreases |ss|
  {
    if |ss| == 0 then Partial([], false)
    else
      var rest := SeriesLoop(ss[1..]);
      assert forall i :: 1 <= i < |ss| ==> ss[1..][i - 1] == ss[i];
      SubsequenceOfTail(rest.items, ss);
      match ss[0].statistics
      case NullStats => Partial([], true)
      case NoStats => rest
      case HasStats(count) =>
        if count == Some(0) then rest
        else
          Partial([ss[0]] + rest.items, rest.failed)
  }

  /** Without a `null` statistics object, the loop keeps exactly the series with files. */
  lemma {:induction false} SeriesLoopFilters(ss: seq<Serie>)
    requires forall i :: 0 <= i < |ss| ==> !ss[i].statistics.NullStats?
    ensures SeriesLoop(ss).items == Filter(ss, SerieKept)
    decreases |ss|
  {
    if |ss| > 0 {
      SeriesLoopFilters(ss[1..]);
    }
  }

  /** The `k`-th series is the first with `null` statistics. */
  predicate NullStatsFirstAt(ss: seq<Serie>, k: int) {
    && 0 <= k < |ss|
    && ss[k].statistics.NullStats?
    && forall i :: 0 <= i < k ==> !ss[i].statistics.NullStats?
  }

  /**
    `null` statistics end the loop but keep what was gathered: the series
    with files before the first `null`, in response order.
   */
  lemma {:induction false} SeriesLoopPrefix(ss: seq<Serie>, k: int)
    requires NullStatsFirstAt(ss, k)
    ensures SeriesLoop(ss).failed
    ensures SeriesLoop(ss).items == Filter(ss[..k], SerieKept)
    decreases k
  {
    if k == 0 {
      assert ss[..0] == [];
    } else {
      var tl := ss[1..];
      assert NullStatsFirstAt(tl, k - 1) by {
        assert forall i :: 0 <= i < k - 1 ==> tl[i] == ss[i + 1];
      }
      SeriesLoopPrefix(tl, k - 1);
      SeriesLoopStep(ss);
      TakeCons(ss, k);
      assert ([ss[0]] + tl[..k - 1])[1..] == tl[..k - 1];
    }
  }

  /** One step of the loop over a first series whose statistics are not `null`. */
  lemma {:induction false} SeriesLoopStep(ss: seq<Serie>)
    requires |ss| > 0 && !ss[0].statistics.NullStats?
    ensures SeriesLoop(ss).failed == SeriesLoop(ss[1..]).failed
    ensures SeriesLoop(ss).items == (if SerieKept(ss[0]) then [ss[0]] else []) + SeriesLoop(ss[1..]).items
  {
    if !SerieKept(ss[0]) {
      assert [] + SeriesLoop(ss[1..]).items == SeriesLoop(ss[1..]).items;
    }
  }

  /** Every first `null` pins the result down, for use in contracts. */
  lemma SeriesLoopPrefixAll(ss: seq<Serie>)
    ensures forall k :: NullStatsFirstAt(ss, k) ==>
      SeriesLoop(ss).failed && SeriesLoop(ss).items == Filter(ss[..k], SerieKept)
  {
    forall k | NullStatsFirstAt(ss, k)
      ensures SeriesLoop(ss).failed && SeriesLoop(ss).items == Filter(ss[..k], SerieKept)
    {
      SeriesLoopPrefix(ss, k);
    }
  }

  /**
    `_get_sonarr_series_info`: the series with files, in response order; a
    failed request yields none, and without `null` statistics exactly the
    series with files are kept.
   */
  function SeriesInfo(resp: Response<Serie>): (r: seq<Serie>)
    ensures resp.Failed? ==> r == []
    ensures !resp.Failed? ==> IsSubsequence(r, AsList(resp))
    ensures forall i :: 0 <= i < |r| ==> SerieKept(r[i])
    ensures !resp.Failed? && (forall i :: 0 <= i < |AsList(resp)| ==> !AsList(resp)[i].statistics.NullStats?) ==>
      r == Filter(AsList(resp), SerieKept)
    ensures forall k :: !resp.Failed? && NullStatsFirstAt(AsList(resp), k) ==>
      r == Filter(AsList(resp)[..k], SerieKept)
  {
    if resp.Failed? then []
    else
      var ss := AsList(resp);
      SeriesLoopPrefixAll(ss);
      if forall i :: 0 <= i < |ss| ==> !ss[i].statistics.NullStats? then
        SeriesLoopFilters(ss);
        SeriesLoop(ss).items
      else SeriesLoop(ss).items
  }

  // ---------------------------------------------------------------------
  // Episode files and the join with episode info
  // ---------------------------------------------------------------------

  /** `episode_file.get("language", [])`: absent, `null`, one object or a list. */
  datatype LanguageField = NoLanguage | NullLanguage | OneLanguage(lang: Lang) | Languages(langs: seq<Lang>)

  /**
    An episode-file object. `episodeNumber`, `episodeTitle` and `episodeId`
    are not sent by sonarr; the join writes them.
   */
  datatype EpisodeFile = EpisodeFile(
    id: Option<int>,
    seasonNumber: Option<int>,
    releaseGroup: Option<string>,
    quality: Field<QualityObj>,
    language: LanguageField,
    relativePath: Option<string>,
    path: Option<string>,
    episodeNumber: Option<int>,
    episodeTitle: Option<string>,
    episodeId: Option<int>)

  /** The `{}` of the `[{}]` failure sentinel. */
  const EmptyFile := EpisodeFile(None, None, None, Missing, NoLanguage, None, None, None, None, None)

  /** The fields of an episode-info object that the join reads. */
  datatype EpisodeInfo = EpisodeInfo(episodeFileId: Option<int>, episodeNumber: Option<int>, title: Option<string>, id: Option<int>)

  const EmptyInfo := EpisodeInfo(None, None, None, None)

  /** Python truthiness of the info object. */
  predicate NonEmpty(info: EpisodeInfo) {
    info != EmptyInfo
  }

  /** The three fields `_update_episode_file_dict` copies from a non-empty info. */
  function UpdateFileDict(f: EpisodeFile, info: EpisodeInfo): (r: EpisodeFile)
    ensures !NonEmpty(info) ==> r == f
    ensures NonEmpty(info) ==> r == f.(episodeNumber := info.episodeNumber, episodeTitle := info.title, episodeId := info.id)
  {
    if NonEmpty(info) then f.(episodeNumber := info.episodeNumber, episodeTitle := info.title, episodeId := info.id)
    else f
  }

  predicate InfoMatches(f: EpisodeFile, info: EpisodeInfo) {
    info.episodeFileId == f.id
  }

  /**
    One file of `_update_episodes_files`: a file without id, or without a
    matching info, is unchanged; otherwise the first info whose
    `episodeFileId` equals the id is copied in.
   */
  function JoinFile(f: EpisodeFile, infos: seq<EpisodeInfo>): (r: EpisodeFile)
    ensures r.id == f.id
    ensures f.id.None? ==> r == f
    ensures (forall j :: 0 <= j < |infos| ==> infos[j].episodeFileId != f.id) ==> r == f
    ensures f.id.Some? ==> forall k ::
      (0 <= k < |infos| && infos[k].episodeFileId == f.id && (forall j :: 0 <= j < k ==> infos[j].episodeFileId != f.id)) ==>
        r == f.(episodeNumber := infos[k].episodeNumber, episodeTitle := infos[k].title, episodeId := infos[k].id)
  {
    if f.id.None? then f
    else
      match FirstIndex(infos, (i: EpisodeInfo) => InfoMatches(f, i))
      case None => f
      case Some(k) =>
        MatchedInfoNonEmpty(f, infos[k]);
        UpdateFileDict(f, infos[k])
  }

  /**
    The info that matched a file with an id carries that id, so it is never
    empty: the truthiness test in `_update_episode_file_dict` cannot fail.
   */
  lemma {:induction false} MatchedInfoNonEmpty(f: EpisodeFile, info: EpisodeInfo)
    requires f.id.Some? && InfoMatches(f, info)
    ensures NonEmpty(info)
  {
  }

  /** `_update_episodes_files`: every file joined, in order. */
  function JoinFiles(fs: seq<EpisodeFile>, infos: seq<EpisodeInfo>): (r: seq<EpisodeFile>)
    ensures |r| == |fs|
    ensures forall i :: 0 <= i < |fs| ==> r[i] == JoinFile(fs[i], infos)
  {
    seq(|fs|, i requires 0 <= i < |fs| => JoinFile(fs[i], infos))
  }

  /** The join only writes the three episode fields. */
  lemma {:induction false} JoinKeepsFileFields(fs: seq<EpisodeFile>, infos: seq<EpisodeInfo>, i: nat)
    requires i < |fs|
    ensures var g := JoinFiles(fs, infos)[i];
            g.(episodeNumber := fs[i].episodeNumber, episodeTitle := fs[i].episodeTitle, episodeId := fs[i].episodeId) == fs[i]
  {
  }

  /** Joining twice with the same infos is joining once. */
  lemma {:induction false} JoinIdempotent(fs: seq<EpisodeFile>, infos: seq<EpisodeInfo>)
    ensures JoinFiles(JoinFiles(fs, infos), infos) == JoinFiles(fs, infos)
  {
    var once := JoinFiles(fs, infos);
    forall i | 0 <= i < |fs|
      ensures JoinFile(once[i], infos) == once[i]
    {
      JoinFileIdempotent(fs[i], infos);
    }
  }

  lemma {:induction false} JoinFileIdempotent(f: EpisodeFile, infos: seq<EpisodeInfo>)
    ensures JoinFile(JoinFile(f, infos), infos) == JoinFile(f, infos)
  {
    var g := JoinFile(f, infos);
    if f.id.Some? {
      var p := (i: EpisodeInfo) => InfoMatches(f, i);
      var q := (i: EpisodeInfo) => InfoMatches(g, i);
      assert forall i :: p(i) == q(i);
      FirstIndexPointwise(infos, infos, p, q);
    }
  }

  lemma {:induction false} FirstIndexPointwise<T>(xs: seq<T>, ys: seq<T>, p: T -> bool, q: T -> bool)
    requires xs == ys && forall x :: p(x) == q(x)
    ensures FirstIndex(xs, p) == FirstIndex(ys, q)
    decreases |xs|
  {
    if |xs| > 0 {
      FirstIndexPointwise(xs[1..], ys[1..], p, q);
    }
  }

  // ---------------------------------------------------------------------
  // Fetching per series, and the updated series list
  // ---------------------------------------------------------------------

  /** `_get_sonarr_episodes_files_info`: a raise becomes the `[{}]` sentinel. */
  function EpisodeFilesOf(resp: Response<EpisodeFile>): (r: seq<EpisodeFile>)
    ensures resp.Failed? ==> r == [EmptyFile]
  {
    if resp.Failed? then [EmptyFile] else AsList(resp)
  }

  /** The answer to the episode-info request; `Other` is neither an object nor a list. */
  datatype InfoResponse = InfoFailed | InfoOne(info: EpisodeInfo) | InfoMany(infos: seq<EpisodeInfo>) | InfoOther

  /** `_get_sonarr_episodes_info`: a raise becomes `[{}]`, an odd answer `[]`. */
  function EpisodeInfosOf(resp: InfoResponse): (r: seq<EpisodeInfo>)
    ensures resp.InfoFailed? ==> r == [EmptyInfo]
    ensures resp.InfoOther? ==> r == []
  {
    match resp
    case InfoFailed => [EmptyInfo]
    case InfoOne(i) => [i]
    case InfoMany(xs) => xs
    case InfoOther => []
  }

  /** A series after `_get_updated_sonarr_info`, with its `episodesFiles` if set. */
  datatype UpdatedSerie = UpdatedSerie(serie: Serie, episodesFiles: Option<seq<EpisodeFile>>)

  /** One series of `_get_updated_sonarr_info`. */
  function UpdateSerie(s: Serie, filesOf: int -> Response<EpisodeFile>, infosOf: int -> InfoResponse): (r: UpdatedSerie)
    ensures r.serie == s
    ensures r.episodesFiles.Some? <==>
      s.id.Some? && EpisodeFilesOf(filesOf(s.id.value)) != [EmptyFile] && EpisodeInfosOf(infosOf(s.id.value)) != [EmptyInfo]
    ensures r.episodesFiles.Some? ==>
      r.episodesFiles.value == JoinFiles(EpisodeFilesOf(filesOf(s.id.value)), EpisodeInfosOf(infosOf(s.id.value)))
  {
    if s.id.None? then UpdatedSerie(s, None)
    else
      var files := EpisodeFilesOf(filesOf(s.id.value));
      var infos := EpisodeInfosOf(infosOf(s.id.value));
      if infos == [EmptyInfo] || files == [EmptyFile] then UpdatedSerie(s, None)
      else UpdatedSerie(s, Some(JoinFiles(files, infos)))
  }

  /** `_get_updated_sonarr_info`: every series, in order, with its files joined. */
  function UpdatedSeries(ss: seq<Serie>, filesOf: int -> Response<EpisodeFile>, infosOf: int -> InfoResponse): (r: seq<UpdatedSerie>)
    ensures |r| == |ss|
    ensures forall i :: 0 <= i < |ss| ==> r[i] == UpdateSerie(ss[i], filesOf, infosOf)
  {
    seq(|ss|, i requires 0 <= i < |ss| => UpdateSerie(ss[i], filesOf, infosOf))
  }

  // ---------------------------------------------------------------------
  // Episode shaping and flattening
  // ---------------------------------------------------------------------

  /** `episode_file.get("language", [])`, a single object wrapped in a list, turned into names. */
  function EpisodeLanguages(l: LanguageField): (r: Option<seq<string>>)
    ensures l.NoLanguage? ==> r == Some([])
    ensures l.NullLanguage? ==> r.None?
    ensures l.OneLanguage? ==> r == LangNames([l.lang])
    ensures l.Languages? ==> r == LangNames(l.langs)
  {
    match l
    case NoLanguage => Some([])
    case NullLanguage => None
    case OneLanguage(x) => LangNames([x])
    case Languages(xs) => LangNames(xs)
  }

  predicate EpisodeFileReadable(f: EpisodeFile) {
    QualityOf(f.quality).Some? && EpisodeLanguages(f.language).Some?
  }

  /** `_create_episode_data`: None when reading the file raises. */
  function ShapeEpisode(s: Serie, f: EpisodeFile): (r: Option<EpisodeData>)
    ensures r.Some? <==> EpisodeFileReadable(f)
    ensures r.Some? ==>
      && r.value.mediaType == "serie"
      && r.value.serieId == s.id && r.value.serieTitle == s.title
      && r.value.episodefileId == f.id && r.value.path == f.path
      && r.value.seasonNumber == f.seasonNumber && r.value.episodeNumber == f.episodeNumber
      && r.value.episodeId == f.episodeId
      && r.value.languages == EpisodeLanguages(f.language).value
  {
    match QualityOf(f.quality)
    case None => None
    case Some(q) =>
      match EpisodeLanguages(f.language)
      case None => None
      case Some(langs) =>
        Some(EpisodeData("serie", s.id, s.title, s.year, f.seasonNumber, f.episodeTitle, f.episodeNumber,
                         f.releaseGroup, s.tvdbId, s.imdbId, s.tvMazeId, s.genres, q.name, q.resolution,
                         langs, f.relativePath, f.path, f.episodeId, f.id))
  }

  /** A single language object is read as a one-element list. */
  lemma {:induction false} SingleLanguageIsList(s: Serie, f: EpisodeFile, x: Lang)
    requires f.language == OneLanguage(x) && x.name.Some? && QualityOf(f.quality).Some?
    ensures ShapeEpisode(s, f).Some? && ShapeEpisode(s, f).value.languages == [x.name.value]
  {
    assert LangNames([x][1..]) == Some([]);
  }

  /** The files of one series, shaped in order, up to the first raise. */
  function ShapeFiles(s: Serie, fs: seq<EpisodeFile>): (r: Partial<EpisodeData>)
    ensures |r.items| <= |fs|
    ensures forall i :: 0 <= i < |r.items| ==> ShapeEpisode(s, fs[i]) == Some(r.items[i])
    ensures r.failed <==> exists i :: 0 <= i < |fs| && !EpisodeFileReadable(fs[i])
    ensures !r.failed ==> |r.items| == |fs|
    decreases |fs|
  {
    if |fs| == 0 then Partial([], false)
    else
      match ShapeEpisode(s, fs[0])
      case None => Partial([], true)
      case Some(d) =>
        var rest := ShapeFiles(s, fs[1..]);
        assert forall i :: 1 <= i < |fs| ==> fs[1..][i - 1] == fs[i];
        Partial([d] + rest.items, rest.failed)
  }

  /** The `k`-th file is the first one whose shaping raises. */
  predicate FileRaisesFirstAt(fs: seq<EpisodeFile>, k: int) {
    && 0 <= k < |fs|
    && !EpisodeFileReadable(fs[k])
    && forall i :: 0 <= i < k ==> EpisodeFileReadable(fs[i])
  }

  /** A raise keeps the files shaped before it: exactly the first `k`. */
  lemma {:induction false} ShapeFilesPrefix(s: Serie, fs: seq<EpisodeFile>, k: int)
    requires FileRaisesFirstAt(fs, k)
    ensures ShapeFiles(s, fs).failed
    ensures |ShapeFiles(s, fs).items| == k
    decreases k
  {
    if k > 0 {
      var tl := fs[1..];
      assert FileRaisesFirstAt(tl, k - 1) by {
        assert forall i :: 0 <= i < k - 1 ==> tl[i] == fs[i + 1];
      }
      ShapeFilesPrefix(s, tl, k - 1);
    }
  }

  /**
    `_create_sonarr_data`: the files of each series that has some, one
    after another; the first raise ends the whole loop.
   */
  function CreateSonarrData(us: seq<UpdatedSerie>): (r: Partial<EpisodeData>)
    ensures r.failed <==> exists i :: 0 <= i < |us| && us[i].episodesFiles.Some? && ShapeFiles(us[i].serie, us[i].episodesFiles.value).failed
    decreases |us|
  {
    if |us| == 0 then Partial([], false)
    else
      var rest := CreateSonarrData(us[1..]);
      assert forall i :: 1 <= i < |us| ==> us[1..][i - 1] == us[i];
      match us[0].episodesFiles
      case None => rest
      case Some(fs) =>
        var here := ShapeFiles(us[0].serie, fs);
        if here.failed then here
        else Partial(here.items + rest.items, rest.failed)
  }

  /** Shaping the files of this series raises. */
  predicate SerieRaises(u: UpdatedSerie) {
    u.episodesFiles.Some? && ShapeFiles(u.serie, u.episodesFiles.value).failed
  }

  /** The `k`-th series is the first whose files raise. */
  predicate SerieRaisesFirstAt(us: seq<UpdatedSerie>, k: int) {
    && 0 <= k < |us|
    && SerieRaises(us[k])
    && forall i :: 0 <= i < k ==> !SerieRaises(us[i])
  }

  /**
    A raise ends the whole loop but keeps what was gathered: the shaped
    files of every series before the raising one, then the files of that
    series shaped before its raise.
   */
  lemma {:induction false} CreateSonarrDataPrefix(us: seq<UpdatedSerie>, k: int)
    requires SerieRaisesFirstAt(us, k)
    ensures CreateSonarrData(us).failed
    ensures CreateSonarrData(us).items == Concat(Map(us[..k], SerieEntries)) + SerieEntries(us[k])
    decreases k
  {
    if k == 0 {
      assert Map(us[..0], SerieEntries) == [];
      assert [] + SerieEntries(us[0]) == SerieEntries(us[0]);
    } else {
      var tl := us[1..];
      SerieRaisesInTail(us, k);
      CreateSonarrDataPrefix(tl, k - 1);
      CreateSonarrDataStep(us);
      var head, before, at := SerieEntries(us[0]), Concat(Map(tl[..k - 1], SerieEntries)), SerieEntries(us[k]);
      TakeCons(us, k);
      ConcatMapCons(us[0], tl[..k - 1]);
      calc {
        CreateSonarrData(us).items;
        head + CreateSonarrData(tl).items;
        head + (before + at);
        { AppendAssoc(head, before, at); }
        (head + before) + at;
        Concat(Map(us[..k], SerieEntries)) + at;
      }
    }
  }

  /** Past a first series that does not raise, the first raise is one place earlier. */
  lemma {:induction false} SerieRaisesInTail(us: seq<UpdatedSerie>, k: int)
    requires SerieRaisesFirstAt(us, k) && k > 0
    ensures !SerieRaises(us[0])
    ensures SerieRaisesFirstAt(us[1..], k - 1) && us[1..][k - 1] == us[k]
  {
    var tl := us[1..];
    assert forall i :: 0 <= i < k - 1 ==> tl[i] == us[i + 1];
  }

  /** One step of the flattening loop over a first series that does not raise. */
  lemma {:induction false} CreateSonarrDataStep(us: seq<UpdatedSerie>)
    requires |us| > 0 && !SerieRaises(us[0])
    ensures CreateSonarrData(us).failed == CreateSonarrData(us[1..]).failed
    ensures CreateSonarrData(us).items == SerieEntries(us[0]) + CreateSonarrData(us[1..]).items
  {
    if us[0].episodesFiles.None? {
      assert [] + CreateSonarrData(us[1..]).items == CreateSonarrData(us[1..]).items;
    }
  }

  /** Flattening the entries of a list is the head's entries, then the tail's. */
  lemma {:induction false} ConcatMapCons(u: UpdatedSerie, vs: seq<UpdatedSerie>)
    ensures Concat(Map([u] + vs, SerieEntries)) == SerieEntries(u) + Concat(Map(vs, SerieEntries))
  {
    assert Map([u] + vs, SerieEntries)[1..] == Map(vs, SerieEntries);
  }

  /** Every first raising series pins the result down, for use in contracts. */
  lemma CreateSonarrDataPrefixAll(us: seq<UpdatedSerie>)
    ensures forall k :: SerieRaisesFirstAt(us, k) ==>
      CreateSonarrData(us).failed && CreateSonarrData(us).items == Concat(Map(us[..k], SerieEntries)) + SerieEntries(us[k])
  {
    forall k | SerieRaisesFirstAt(us, k)
      ensures CreateSonarrData(us).failed
      ensures CreateSonarrData(us).items == Concat(Map(us[..k], SerieEntries)) + SerieEntries(us[k])
    {
      CreateSonarrDataPrefix(us, k);
    }
  }

  /** The shaped files of one updated series, or nothing when it has none. */
  function SerieEntries(u: UpdatedSerie): seq<EpisodeData> {
    if u.episodesFiles.None? then [] else ShapeFiles(u.serie, u.episodesFiles.value).items
  }

  /**
    Without a raise, the output is the shaped files concatenated in series
    order, then file order; a series without `episodesFiles` adds nothing.
   */
  lemma {:induction false} CreateSonarrDataConcat(us: seq<UpdatedSerie>)
    requires !CreateSonarrData(us).failed
    ensures CreateSonarrData(us).items == Concat(Map(us, SerieEntries))
    decreases |us|
  {
    if |us| > 0 {
      CreateSonarrDataConcat(us[1..]);
      assert Map(us, SerieEntries)[1..] == Map(us[1..], SerieEntries);
    }
  }

  /** A series whose file or info request failed contributes no episode. */
  lemma {:induction false} FailedFetchSkipsSerie(s: Serie, filesOf: int -> Response<EpisodeFile>, infosOf: int -> InfoResponse)
    requires s.id.Some? && (filesOf(s.id.value).Failed? || infosOf(s.id.value).InfoFailed?)
    ensures UpdateSerie(s, filesOf, infosOf).episodesFiles.None?
    ensures SerieEntries(UpdateSerie(s, filesOf, infosOf)) == []
  {
  }

  /**
    `get_sonarr_info`: series fetched and filtered, their files fetched and
    joined, then flattened.
   */
  function GetSonarrInfo(series: Response<Serie>, filesOf: int -> Response<EpisodeFile>, infosOf: int -> InfoResponse): (r: seq<EpisodeData>)
    ensures forall d :: d in r ==> d.mediaType == "serie"
    ensures series.Failed? ==> r == []
    ensures var us := UpdatedSeries(SeriesInfo(series), filesOf, infosOf);
            AllFilesReadable(us) ==> r == Concat(Map(us, SerieEntries))
    ensures var us := UpdatedSeries(SeriesInfo(series), filesOf, infosOf);
            forall k :: SerieRaisesFirstAt(us, k) ==> r == Concat(Map(us[..k], SerieEntries)) + SerieEntries(us[k])
  {
    var us := UpdatedSeries(SeriesInfo(series), filesOf, infosOf);
    var out := CreateSonarrData(us);
    CreateSonarrDataPrefixAll(us);
    SonarrEntriesAreEpisodes(us);
    if AllFilesReadable(us) then
      NoUnreadableNoRaise(us);
      CreateSonarrDataConcat(us);
      out.items
    else out.items
  }

  /** Every joined file of every series can be shaped without a raise. */
  predicate AllFilesReadable(us: seq<UpdatedSerie>) {
    forall i, j :: 0 <= i < |us| && us[i].episodesFiles.Some? && 0 <= j < |us[i].episodesFiles.value| ==>
      EpisodeFileReadable(us[i].episodesFiles.value[j])
  }

  /** With every file readable, the flattening loop runs to the end. */
  lemma {:induction false} NoUnreadableNoRaise(us: seq<UpdatedSerie>)
    requires AllFilesReadable(us)
    ensures !CreateSonarrData(us).failed
  {
    forall i | 0 <= i < |us| && us[i].episodesFiles.Some?
      ensures !ShapeFiles(us[i].serie, us[i].episodesFiles.value).failed
    {
      var fs := us[i].episodesFiles.value;
      assert forall j :: 0 <= j < |fs| ==> EpisodeFileReadable(fs[j]);
    }
  }

  lemma {:induction false} SonarrEntriesAreEpisodes(us: seq<UpdatedSerie>)
    ensures forall d :: d in CreateSonarrData(us).items ==> d.mediaType == "serie"
    decreases |us|
  {
    if |us| > 0 {
      SonarrEntriesAreEpisodes(us[1..]);
      if us[0].episodesFiles.Some? {
        var here := ShapeFiles(us[0].serie, us[0].episodesFiles.value);
        assert forall i :: 0 <= i < |here.items| ==> here.items[i].mediaType == "serie";
      }
    }
  }

  /**
    Every episode reported belongs to a kept series: its series id is one
    of theirs.
   */
  lemma {:induction false} SonarrEntriesFromKeptSeries(series: Response<Serie>, filesOf: int -> Response<EpisodeFile>, infosOf: int -> InfoResponse)
    ensures forall d :: d in GetSonarrInfo(series, filesOf, infosOf) ==>
      exists s :: s in SeriesInfo(series) && SerieKept(s) && d.serieId == s.id && s.id.Some?
  {
    var kept := SeriesInfo(series);
    var us := UpdatedSeries(kept, filesOf, infosOf);
    EntriesFromSeries(us);
    forall d | d in CreateSonarrData(us).items
      ensures exists s :: s in kept && SerieKept(s) && d.serieId == s.id && s.id.Some?
    {
      var i :| 0 <= i < |us| && us[i].episodesFiles.Some? && d.serieId == us[i].serie.id;
      assert us[i].serie == kept[i];
      KeptSeriesAreKept(series, i);
    }
  }

  lemma {:induction false} KeptSeriesAreKept(series: Response<Serie>, i: nat)
    requires i < |SeriesInfo(series)|
    ensures SerieKept(SeriesInfo(series)[i])
  {
  }

  lemma {:induction false} EntriesFromSeries(us: seq<UpdatedSerie>)
    ensures forall d :: d in CreateSonarrData(us).items ==>
      exists i :: 0 <= i < |us| && us[i].episodesFiles.Some? && d.serieId == us[i].serie.id
    decreases |us|
  {
    if |us| > 0 {
      EntriesFromSeries(us[1..]);
      forall d | d in CreateSonarrData(us).items
        ensures exists i :: 0 <= i < |us| && us[i].episodesFiles.Some? && d.serieId == us[i].serie.id
      {
        if us[0].episodesFiles.Some? && d in ShapeFiles(us[0].serie, us[0].episodesFiles.value).items {
          var k :| 0 <= k < |ShapeFiles(us[0].serie, us[0].episodesFiles.value).items|
                   && ShapeFiles(us[0].serie, us[0].episodesFiles.value).items[k] == d;
          assert d.serieId == us[0].serie.id;
        } else {
          assert d in CreateSonarrData(us[1..]).items;
          var j :| 0 <= j < |us[1..]| && us[1..][j].episodesFiles.Some? && d.serieId == us[1..][j].serie.id;
          assert us[1..][j] == us[j + 1];
        }
      }
    }
  }
}

=== FILE: data_process.dfy ===
/**
  The JSON export of the torrent table (`tasks/data_process.py`): every
  torrent with its files and, for each file, the movie or episode it is
  linked to; the export pages through the table a thousand rows at a time,
  sorts the result newest first and replaces the export file with it.
 */
module DataProcess {
  import opened Wrappers
  import opened Seqs
  import opened MediaModel
  import opened MediaDao

  /** The page size of `_get_all_torrents_from_db`. */
  const PageSize: nat := 1000

  /** The `info` object of an exported file: a projection of a movie or an episode row. */
  datatype MediaInfo =
    | MovieInfo(
        mediaType: string,
        title: Option<string>,
        year: Option<int>,
        releaseGroup: Option<string>,
        tmdbId: Option<int>,
        imdbId: Option<string>,
        genres: Option<seq<string>>,
        quality: Option<string>,
        resolution: Option<int>,
        languages: seq<string>)
    | EpisodeInfo(
        mediaType: string,
        serieTitle: Option<string>,
        year: Option<int>,
        seasonNumber: Option<int>,
        episodeTitle: Option<string>,
        episodeNumber: Option<int>,
        releaseGroup: Option<string>,
        tvdbId: Option<int>,
        imdbId: Option<string>,
        tvMazeId: Option<int>,
        genres: Option<seq<string>>,
        quality: Option<string>,
        resolution: Option<int>,
        languages: seq<string>)

  datatype FileEntry = FileEntry(path: string, bytes: int, added: Time, info: Option<MediaInfo>)

  datatype TorrentEntry = TorrentEntry(torrent: string, id: string, hash: string, added: Time, files: seq<FileEntry>)

  /** One write of a whole file: the file ends up holding exactly `contents`. */
  datatype FileWrite<E> = FileWrite(file: string, contents: seq<E>)

  function MovieProjection(d: MovieData): MediaInfo {
    MovieInfo(d.mediaType, d.title, d.year, d.releaseGroup, d.tmdbId, d.imdbId,
              d.genres, d.quality, d.resolution, d.languages)
  }

  function EpisodeProjection(d: EpisodeData): MediaInfo {
    EpisodeInfo(d.mediaType, d.serieTitle, d.year, d.seasonNumber, d.episodeTitle,
                d.episodeNumber, d.releaseGroup, d.tvdbId, d.imdbId, d.tvMazeId,
                d.genres, d.quality, d.resolution, d.languages)
  }

  /**
    The `info` of file `f`: the movie reference is consulted first and, when
    it is set, decides alone; a dangling movie reference gives no info even
    if the file also points at an episode.
   */
  function FileInfo(s: Store, f: TorrentFile): (r: Option<MediaInfo>)
    ensures r.Some? && r.value.MovieInfo? ==>
      f.radarrId.Some? && exists m :: m in s.movies && m.id == f.radarrId.value && r.value == MovieProjection(m.data)
    ensures r.Some? && r.value.EpisodeInfo? ==>
      f.radarrId.None? && f.sonarrId.Some?
      && exists e :: e in s.episodes && e.id == f.sonarrId.value && r.value == EpisodeProjection(e.data)
    ensures f.radarrId.Some? ==>
      (r.Some? <==> exists i :: 0 <= i < |s.movies| && s.movies[i].id == f.radarrId.value)
    ensures f.radarrId.None? && f.sonarrId.Some? ==>
      (r.Some? <==> exists i :: 0 <= i < |s.episodes| && s.episodes[i].id == f.sonarrId.value)
    ensures f.radarrId.None? && f.sonarrId.None? ==> r.None?
  {
    if f.radarrId.Some? then
      match MovieById(s, f.radarrId.value)
      case Some(m) => Some(MovieProjection(m.data))
      case None => None
    else if f.sonarrId.Some? then
      match EpisodeById(s, f.sonarrId.value)
      case Some(e) => Some(EpisodeProjection(e.data))
      case None => None
    else None
  }

  /** The exported object of one file. */
  function FileEntryOf(s: Store, f: TorrentFile): FileEntry {
    FileEntry(f.path, f.bytes, f.added, FileInfo(s, f))
  }

  /** `_fetch_files_info`: one entry per file, in the order given. */
  function FilesInfo(s: Store, files: seq<TorrentFile>): (r: seq<FileEntry>)
    ensures |r| == |files|
    ensures forall i :: 0 <= i < |files| ==>
      r[i].path == files[i].path && r[i].bytes == files[i].bytes && r[i].added == files[i].added
      && r[i].info == FileInfo(s, files[i])
  {
    if |files| == 0 then [] else Map(files, (f: TorrentFile) => FileEntryOf(s, f))
  }

  /** The exported object of one torrent, with the files that point at it. */
  function EntryOf(s: Store, t: Torrent): TorrentEntry {
    TorrentEntry(t.filename, t.id, t.hash, t.added, FilesInfo(s, FilesOfTorrent(s, t.id)))
  }

  /** Every exported file belongs to the torrent it is listed under, and every such file is listed. */
  lemma {:induction false} EntryListsOwnFiles(s: Store, t: Torrent, p: string)
    ensures (exists i :: 0 <= i < |EntryOf(s, t).files| && EntryOf(s, t).files[i].path == p)
        <==> exists f :: f in s.files && f.torrentId == Some(t.id) && f.path == p
  {
    if exists i :: 0 <= i < |EntryOf(s, t).files| && EntryOf(s, t).files[i].path == p {
      var i :| 0 <= i < |EntryOf(s, t).files| && EntryOf(s, t).files[i].path == p;
      ListedFileIsOwn(s, t, i);
    }
    if exists f :: f in s.files && f.torrentId == Some(t.id) && f.path == p {
      var f :| f in s.files && f.torrentId == Some(t.id) && f.path == p;
      OwnFileIsListed(s, t, f);
    }
  }

  /** The file listed at a position of a torrent's entry is a stored file of that torrent. */
  lemma {:induction false} ListedFileIsOwn(s: Store, t: Torrent, i: nat)
    requires i < |EntryOf(s, t).files|
    ensures exists f :: f in s.files && f.torrentId == Some(t.id) && f.path == EntryOf(s, t).files[i].path
  {
    var files := FilesOfTorrent(s, t.id);
    assert files[i] in files;
  }

  /** A stored file of a torrent is listed, under its path, in the torrent's entry. */
  lemma {:induction false} OwnFileIsListed(s: Store, t: Torrent, f: TorrentFile)
    requires f in s.files && f.torrentId == Some(t.id)
    ensures exists i :: 0 <= i < |EntryOf(s, t).files| && EntryOf(s, t).files[i].path == f.path
  {
    var files := FilesOfTorrent(s, t.id);
    var es := EntryOf(s, t).files;
    assert f in files;
    var i :| 0 <= i < |files| && files[i] == f;
    assert es[i].path == f.path;
  }

  /** The key of the export's sort. */
  function AddedOf(e: TorrentEntry): Time {
    e.added
  }

  /**
    `_get_all_torrents_from_db`: reads the torrent table page by page until
    a page comes back short, and gives None for an empty table.
   */
  method CollectAll<E>(s: Store, entry: Torrent -> E) returns (r: Option<seq<E>>)
    ensures r.None? <==> |s.torrents| == 0
    ensures r.Some? ==> |r.value| == |s.torrents|
    ensures r.Some? ==> forall i :: 0 <= i < |s.torrents| ==> r.value[i] == entry(s.torrents[i])
  {
    var offset: nat := 0;
    var all: seq<E> := [];
    while true
      invariant offset <= |s.torrents|
      invariant |all| == offset
      invariant forall i :: 0 <= i < offset ==> all[i] == entry(s.torrents[i])
      decreases |s.torrents| - offset
    {
      var page := AllTorrents(s, PageSize, offset);
      all := all + Map(page, entry);
      if |all| < offset + PageSize {
        break;
      }
      offset := offset + PageSize;
    }
    if |all| > 0 {
      r := Some(all);
    } else {
      r := None;
    }
  }

  /** The export file: a fixed name in development, the configured path otherwise. */
  function ExportFile(environment: string, configured: string): string {
    if environment == "dev" then "all_torrents_syncrr.json" else configured
  }

  /** The files after a sequence of whole-file writes. */
  function ApplyWrites<E>(fs: map<string, seq<E>>, ws: seq<FileWrite<E>>): (r: map<string, seq<E>>)
    decreases |ws|
  {
    if |ws| == 0 then fs else ApplyWrites(fs[ws[0].file := ws[0].contents], ws[1..])
  }

  /** The last write of a file decides its contents, whatever it held before. */
  lemma {:induction false} LastWriteWins<E>(fs: map<string, seq<E>>, ws: seq<FileWrite<E>>, i: nat)
    requires i < |ws|
    requires forall j :: i < j < |ws| ==> ws[j].file != ws[i].file
    ensures ws[i].file in ApplyWrites(fs, ws)
    ensures ApplyWrites(fs, ws)[ws[i].file] == ws[i].contents
    decreases |ws|
  {
    if i > 0 {
      LastWriteWins(fs[ws[0].file := ws[0].contents], ws[1..], i - 1);
    } else {
      UntouchedFile(fs[ws[0].file := ws[0].contents], ws[1..], ws[0].file);
    }
  }

  /** A file no write names keeps its contents. */
  lemma {:induction false} UntouchedFile<E>(fs: map<string, seq<E>>, ws: seq<FileWrite<E>>, file: string)
    requires forall j :: 0 <= j < |ws| ==> ws[j].file != file
    ensures file in ApplyWrites(fs, ws) <==> file in fs
    ensures file in fs ==> ApplyWrites(fs, ws)[file] == fs[file]
    decreases |ws|
  {
    if |ws| > 0 {
      UntouchedFile(fs[ws[0].file := ws[0].contents], ws[1..], file);
    }
  }

  /**
    `process_jsonfile`: nothing is written when the table is empty;
    otherwise the export file is rewritten with every torrent, newest first,
    torrents added at the same time keeping their table order (the sort is
    stable).
   */
  method ProcessJsonfile(s: Store, environment: string, configured: string) returns (ws: seq<FileWrite<TorrentEntry>>)
    ensures |s.torrents| == 0 <==> ws == []
    ensures ws != [] ==> |ws| == 1 && ws[0].file == ExportFile(environment, configured)
    ensures ws != [] ==> SortedDesc(ws[0].contents, AddedOf)
    ensures ws != [] ==> multiset(ws[0].contents) == multiset(Map(s.torrents, (t: Torrent) => EntryOf(s, t)))
    ensures ws != [] ==> forall k :: Filter(ws[0].contents, KeyIs(AddedOf, k)) == Filter(Map(s.torrents, (t: Torrent) => EntryOf(s, t)), KeyIs(AddedOf, k))
  {
    var file := ExportFile(environment, configured);
    var data := CollectAll(s, (t: Torrent) => EntryOf(s, t));
    if data.None? {
      ws := [];
      return;
    }
    assert data.value == Map(s.torrents, (t: Torrent) => EntryOf(s, t));
    var sorted := SortDesc(data.value, AddedOf);
    SortDescSorted(data.value, AddedOf);
    forall k ensures Filter(sorted, KeyIs(AddedOf, k)) == Filter(data.value, KeyIs(AddedOf, k)) {
      SortDescStable(data.value, AddedOf, k);
    }
    ws := [FileWrite(file, sorted)];
  }

  /** The export replaces the file's contents: what it held before plays no part. */
  lemma {:induction false} ExportReplacesFile(fs: map<string, seq<TorrentEntry>>, file: string, sorted: seq<TorrentEntry>)
    ensures ApplyWrites(fs, [FileWrite(file, sorted)]) == fs[file := sorted]
  {
    assert [FileWrite(file, sorted)][1..] == [];
  }

  /** `process_torrents_data`: one page of the export, unsorted, in row order. */
  function TorrentsData(s: Store, limit: nat, offset: nat): (r: seq<TorrentEntry>)
    ensures |r| == |AllTorrents(s, limit, offset)|
    ensures forall i :: 0 <= i < |r| ==> offset + i < |s.torrents| && r[i] == EntryOf(s, s.torrents[offset + i])
  {
    Map(AllTorrents(s, limit, offset), (t: Torrent) => EntryOf(s, t))
  }

  /** Two consecutive pages make up the page that spans both. */
  lemma {:induction false} TorrentsDataPagesConcat(s: Store, a: nat, b: nat, offset: nat)
    ensures TorrentsData(s, a, offset) + TorrentsData(s, b, offset + a) == TorrentsData(s, a + b, offset)
  {
    RowPagesConcat(s, a, b, offset);
    MapConcat(AllTorrents(s, a, offset), AllTorrents(s, b, offset + a), (t: Torrent) => EntryOf(s, t));
  }

  /** The same for the torrent rows themselves. */
  lemma {:induction false} RowPagesConcat(s: Store, a: nat, b: nat, offset: nat)
    ensures AllTorrents(s, a, offset) + AllTorrents(s, b, offset + a) == AllTorrents(s, a + b, offset)
  {
    var p := AllTorrents(s, a, offset);
    var q := AllTorrents(s, b, offset + a);
    var w := AllTorrents(s, a + b, offset);
    assert |p| + |q| == |w|;
    forall i | 0 <= i < |w| ensures (p + q)[i] == w[i] {
      if i >= |p| {
        assert (p + q)[i] == q[i - |p|];
      }
    }
  }
}

=== FILE: infolink_process.dfy ===
/**
  The cross-link pass (`tasks/infolink_process.py`): every file that has a
  symlink but no media reference is linked to the movie, or failing that
  the episode, stored at the symlink's destination.
 */
module InfolinkProcess {
  import opened Wrappers
  import opened Seqs
  import opened MediaModel
  import opened MediaDao

  /** The reference the pass gives a file. */
  datatype Link = Link(kind: MediaKind, media: Key)

  /**
    What the loop body decides for file `f`: nothing without a resolvable
    symlink; otherwise the first movie stored at the symlink's destination,
    and only when there is none, the first episode stored there.
   */
  function Decision(s: Store, f: TorrentFile): (r: Option<Link>)
    ensures r.Some? ==> f.symlinkId.Some? && SymlinkById(s, f.symlinkId.value).Some?
    ensures r.Some? ==> HasMedia(s, r.value.kind, r.value.media)
    ensures f.symlinkId.Some? && SymlinkById(s, f.symlinkId.value).Some? ==>
      var dest := SymlinkById(s, f.symlinkId.value).value.data.destination;
      && (MovieByPath(s, dest).Some? ==> r == Some(Link(MovieKind, MovieByPath(s, dest).value.id)))
      && (MovieByPath(s, dest).None? && EpisodeByPath(s, dest).Some? ==> r == Some(Link(EpisodeKind, EpisodeByPath(s, dest).value.id)))
      && (MovieByPath(s, dest).None? && EpisodeByPath(s, dest).None? ==> r.None?)
  {
    if f.symlinkId.None? then None
    else
      match SymlinkById(s, f.symlinkId.value)
      case None => None
      case Some(sym) =>
        match MovieByPath(s, sym.data.destination)
        case Some(m) =>
          MediaResolves(s, MovieKind, m.id);
          Some(Link(MovieKind, m.id))
        case None =>
          match EpisodeByPath(s, sym.data.destination)
          case Some(e) =>
            MediaResolves(s, EpisodeKind, e.id);
            Some(Link(EpisodeKind, e.id))
          case None => None
  }

  /** A row found by path is found again by its key. */
  lemma {:induction false} MediaResolves(s: Store, kind: MediaKind, id: Key)
    requires kind == MovieKind ==> exists m :: m in s.movies && m.id == id
    requires kind == EpisodeKind ==> exists e :: e in s.episodes && e.id == id
    ensures HasMedia(s, kind, id)
  {
    if kind == MovieKind {
      var m :| m in s.movies && m.id == id;
      var k :| 0 <= k < |s.movies| && s.movies[k] == m;
    } else {
      var e :| e in s.episodes && e.id == id;
      var k :| 0 <= k < |s.episodes| && s.episodes[k] == e;
    }
  }

  /** One iteration of the loop of `process_unlinked_media_info`. */
  function LinkOne(s: Store, f: TorrentFile): (r: Store)
    ensures r == s.(files := r.files) && |r.files| == |s.files|
  {
    match Decision(s, f)
    case None => s
    case Some(l) => LinkFile(s, l.kind, l.media, f.id)
  }

  /** The loop over the unlinked files read before it starts. */
  function LinkAll(s: Store, fs: seq<TorrentFile>): (r: Store)
    ensures r == s.(files := r.files) && |r.files| == |s.files|
    decreases |fs|
  {
    if |fs| == 0 then s else LinkAll(LinkOne(s, fs[0]), fs[1..])
  }

  /** `process_unlinked_media_info`. */
  function CrossLink(s: Store): (r: Store)
    ensures r == s.(files := r.files) && |r.files| == |s.files|
  {
    var unlinked := UnlinkedFiles(s);
    if |unlinked| == 0 then s else LinkAll(s, unlinked)
  }

  /** What the pass does to one file of the store, stated file by file. */
  function Expected(s: Store, f: TorrentFile): TorrentFile {
    if !Unlinked(f) then f
    else
      match Decision(s, f)
      case None => f
      case Some(l) => f.WithRef(l.kind, Some(l.media))
  }

  // ---------------------------------------------------------------------
  // The loop, file by file
  // ---------------------------------------------------------------------

  /** One iteration's effect on file `g`, with the decision taken in `s`. */
  function Step(s: Store, f: TorrentFile, g: TorrentFile): TorrentFile {
    match Decision(s, f)
    case None => g
    case Some(l) => if g.id == f.id then g.WithRef(l.kind, Some(l.media)) else g
  }

  /** The iterations over `fs`, applied to file `g`. */
  function Apply(s: Store, fs: seq<TorrentFile>, g: TorrentFile): TorrentFile
    decreases |fs|
  {
    if |fs| == 0 then g else Apply(s, fs[1..], Step(s, fs[0], g))
  }

  /** The decision reads the symlink, movie and episode tables only. */
  lemma {:induction false} DecisionIgnoresFiles(s: Store, t: Store, f: TorrentFile)
    requires t == s.(files := t.files)
    ensures Decision(t, f) == Decision(s, f)
  {
  }

  /** One iteration maps `Step` over the files. */
  lemma {:induction false} LinkOneFilewise(s: Store, f: TorrentFile)
    ensures forall i :: 0 <= i < |s.files| ==> LinkOne(s, f).files[i] == Step(s, f, s.files[i])
  {
  }

  /** The loop maps `Apply` over the files, as long as the tables read stay those of `s0`. */
  lemma {:induction false} LinkAllFilewise(s0: Store, s: Store, fs: seq<TorrentFile>)
    requires s == s0.(files := s.files)
    ensures forall i :: 0 <= i < |s.files| ==> LinkAll(s, fs).files[i] == Apply(s0, fs, s.files[i])
    decreases |fs|
  {
    if |fs| > 0 {
      var s1 := LinkOne(s, fs[0]);
      LinkOneFilewise(s, fs[0]);
      DecisionIgnoresFiles(s0, s, fs[0]);
      LinkAllFilewise(s0, s1, fs[1..]);
      forall i | 0 <= i < |s.files| ensures LinkAll(s, fs).files[i] == Apply(s0, fs, s.files[i]) {
        assert s1.files[i] == Step(s0, fs[0], s.files[i]);
      }
    }
  }

  /**
    Applied to file `g0` (or to its linked form) the iterations only act
    through the entries equal to `g0`, and acting twice is acting once.
   */
  lemma {:induction false} ApplyOnOwnEntries(s: Store, fs: seq<TorrentFile>, g0: TorrentFile, g: TorrentFile)
    requires forall f :: f in fs && f.id == g0.id ==> f == g0
    requires Unlinked(g0) || g0 !in fs
    requires g == g0 || g == Expected(s, g0)
    ensures Apply(s, fs, g) == if g0 in fs then Expected(s, g0) else g
    decreases |fs|
  {
    if |fs| > 0 {
      var f := fs[0];
      var g1 := Step(s, f, g);
      if f.id == g0.id {
        assert f == g0;
        assert g1 == Expected(s, g0);
      } else {
        assert g1 == g;
      }
      ApplyOnOwnEntries(s, fs[1..], g0, g1);
      assert forall x :: x in fs <==> x == f || x in fs[1..];
    }
  }

  /**
    `process_unlinked_media_info` changes only the unlinked files, each as
    `Expected` says: a movie at the symlink's destination wins, else an
    episode, else nothing.
   */
  lemma {:induction false} CrossLinkEffect(s: Store)
    requires Valid(s)
    ensures forall i :: 0 <= i < |s.files| ==> CrossLink(s).files[i] == Expected(s, s.files[i])
  {
    var unlinked := UnlinkedFiles(s);
    if |unlinked| > 0 {
      LinkAllFilewise(s, s, unlinked);
      forall i | 0 <= i < |s.files| ensures CrossLink(s).files[i] == Expected(s, s.files[i]) {
        var g0 := s.files[i];
        forall f | f in unlinked && f.id == g0.id ensures f == g0 {
          var j :| 0 <= j < |s.files| && s.files[j] == f;
          assert Map(s.files, (x: TorrentFile) => x.id)[j] == Map(s.files, (x: TorrentFile) => x.id)[i];
        }
        ApplyOnOwnEntries(s, unlinked, g0, g0);
      }
    } else {
      forall i | 0 <= i < |s.files| ensures Expected(s, s.files[i]) == s.files[i] {
        assert s.files[i] in s.files;
      }
    }
  }

  // ---------------------------------------------------------------------
  // Consequences
  // ---------------------------------------------------------------------

  /** Links are only added: every reference a file had, it keeps. */
  lemma {:induction false} CrossLinkOnlyAdds(s: Store, i: nat)
    requires Valid(s) && i < |s.files|
    ensures var g := CrossLink(s).files[i];
            var f := s.files[i];
            && g.id == f.id && g.path == f.path && g.symlinkId == f.symlinkId && g.torrentId == f.torrentId
            && (f.radarrId.Some? ==> g.radarrId == f.radarrId)
            && (f.sonarrId.Some? ==> g.sonarrId == f.sonarrId)
  {
    CrossLinkEffect(s);
  }

  /** A file the pass links is no longer unlinked, so a later pass skips it. */
  lemma {:induction false} LinkedFileLeavesUnlinked(s: Store, f: TorrentFile)
    requires Unlinked(f)
    ensures Unlinked(Expected(s, f)) <==> Decision(s, f).None?
  {
  }

  /** At most one link per file: a movie and an episode are never both set by the pass. */
  lemma {:induction false} OneLinkPerFile(s: Store, f: TorrentFile)
    requires Unlinked(f)
    ensures Expected(s, f).radarrId.None? || Expected(s, f).sonarrId.None?
  {
  }

  /** The pass keeps the store valid. */
  lemma {:induction false} CrossLinkValid(s: Store)
    requires Valid(s)
    ensures Valid(CrossLink(s))
  {
    var r := CrossLink(s);
    CrossLinkEffect(s);
    assert Map(r.files, (f: TorrentFile) => f.id) == Map(s.files, (f: TorrentFile) => f.id);
    forall i | 0 <= i < |r.files| ensures FileKeysBelow(r.files[i], r.nextKey) {
      assert FileKeysBelow(s.files[i], s.nextKey);
      ExpectedKeysBelow(s, s.files[i]);
    }
  }

  lemma {:induction false} ExpectedKeysBelow(s: Store, f: TorrentFile)
    requires Valid(s) && FileKeysBelow(f, s.nextKey)
    ensures FileKeysBelow(Expected(s, f), s.nextKey)
  {
    if Unlinked(f) && Decision(s, f).Some? {
      var l := Decision(s, f).value;
      if l.kind == MovieKind {
        var m := MovieById(s, l.media).value;
        var k :| 0 <= k < |s.movies| && s.movies[k] == m;
        assert MovieOk(s.movies[k], s.nextKey);
      } else {
        var e := EpisodeById(s, l.media).value;
        var k :| 0 <= k < |s.episodes| && s.episodes[k] == e;
        assert EpisodeOk(s.episodes[k], s.nextKey);
      }
    }
  }

  /** A second pass changes nothing. */
  lemma {:induction false} CrossLinkIdempotent(s: Store)
    requires Valid(s)
    ensures CrossLink(CrossLink(s)) == CrossLink(s)
  {
    var r := CrossLink(s);
    CrossLinkEffect(s);
    CrossLinkValid(s);
    CrossLinkEffect(r);
    var rr := CrossLink(r);
    forall i | 0 <= i < |r.files| ensures rr.files[i] == r.files[i] {
      DecisionIgnoresFiles(s, r, s.files[i]);
      DecisionIgnoresFiles(s, r, r.files[i]);
      SecondPassKeeps(s, r, s.files[i], r.files[i]);
    }
  }

  lemma {:induction false} SecondPassKeeps(s: Store, r: Store, f: TorrentFile, g: TorrentFile)
    requires g == Expected(s, f)
    requires Decision(r, f) == Decision(s, f) && Decision(r, g) == Decision(s, g)
    ensures Expected(r, g) == g
  {
    if Unlinked(g) {
      assert Unlinked(f) && Decision(s, f).None? && g == f;
    }
  }
}

=== FILE: jsonfile_process.dfy ===
/**
  The lighter JSON export (`tasks/jsonfile_process.py`): every torrent
  with the base names of its files, written newest first to an "all" file
  and, cut to the 25 newest, to a "latest" file that is written first.
 */
module JsonfileProcess {
  import opened Wrappers
  import opened Seqs
  import opened Paths
  import opened MediaModel
  import opened MediaDao
  import opened DataProcess

  /** How many torrents the "latest" file holds at most. */
  const LatestCount: nat := 25

  datatype JsonEntry = JsonEntry(torrent: string, id: string, hash: string, added: Time, files: seq<string>)

  /** The exported object of one torrent: its files reduced to `{"filename": basename}`. */
  function JsonEntryOf(s: Store, t: Torrent): (r: JsonEntry)
    ensures r.torrent == t.filename && r.id == t.id && r.hash == t.hash && r.added == t.added
    ensures |r.files| == |FilesOfTorrent(s, t.id)|
  {
    JsonEntry(t.filename, t.id, t.hash, t.added, Map(FilesOfTorrent(s, t.id), (f: TorrentFile) => Basename(f.path)))
  }

  /** Each listed name is the last path component of a file that points at the torrent. */
  lemma {:induction false} JsonEntryNames(s: Store, t: Torrent, i: nat)
    requires i < |JsonEntryOf(s, t).files|
    ensures var f := FilesOfTorrent(s, t.id)[i];
            f in s.files && f.torrentId == Some(t.id) && JsonEntryOf(s, t).files[i] == Last(Split(f.path))
  {
    var f := FilesOfTorrent(s, t.id)[i];
    assert f in FilesOfTorrent(s, t.id);
    BasenameIsLastComponent(f.path);
  }

  function JsonAddedOf(e: JsonEntry): Time {
    e.added
  }

  function Min(a: nat, b: nat): nat {
    if a <= b then a else b
  }

  /** The "latest" file: a fixed name in development, the configured path otherwise. */
  function LatestFile(environment: string, configured: string): string {
    if environment == "dev" then "latest_torrents_syncrr.json" else configured
  }

  /**
    `process_jsonfile`: nothing is written when the table is empty;
    otherwise the 25 newest torrents go to the "latest" file and then every
    torrent, newest first, to the "all" file. The sort is stable, so among
    torrents added at the same time table order decides, including which of
    them make the cut for the "latest" file.
   */
  method ProcessJsonfile(s: Store, environment: string, configuredAll: string, configuredLatest: string)
    returns (ws: seq<FileWrite<JsonEntry>>)
    ensures |s.torrents| == 0 <==> ws == []
    ensures ws != [] ==>
      (|ws| == 2 && ws[0].file == LatestFile(environment, configuredLatest) && ws[1].file == ExportFile(environment, configuredAll))
    ensures ws != [] ==> SortedDesc(ws[1].contents, JsonAddedOf)
    ensures ws != [] ==> multiset(ws[1].contents) == multiset(Map(s.torrents, (t: Torrent) => JsonEntryOf(s, t)))
    ensures ws != [] ==> forall k :: Filter(ws[1].contents, KeyIs(JsonAddedOf, k)) == Filter(Map(s.torrents, (t: Torrent) => JsonEntryOf(s, t)), KeyIs(JsonAddedOf, k))
    ensures ws != [] ==> |ws[0].contents| == Min(LatestCount, |s.torrents|) && |ws[1].contents| == |s.torrents|
    ensures ws != [] ==> forall i :: 0 <= i < |ws[0].contents| ==> ws[0].contents[i] == ws[1].contents[i]
    ensures ws != [] ==> forall i, j :: 0 <= i < |ws[0].contents| <= j < |ws[1].contents| ==>
      ws[0].contents[i].added >= ws[1].contents[j].added
  {
    var allFile := ExportFile(environment, configuredAll);
    var latestFile := LatestFile(environment, configuredLatest);
    var data := CollectAll(s, (t: Torrent) => JsonEntryOf(s, t));
    if data.None? {
      ws := [];
      return;
    }
    assert data.value == Map(s.torrents, (t: Torrent) => JsonEntryOf(s, t));
    var sorted := SortDesc(data.value, JsonAddedOf);
    SortDescSorted(data.value, JsonAddedOf);
    forall k ensures Filter(sorted, KeyIs(JsonAddedOf, k)) == Filter(data.value, KeyIs(JsonAddedOf, k)) {
      SortDescStable(data.value, JsonAddedOf, k);
    }
    var latest := sorted[..Min(LatestCount, |sorted|)];
    ws := [FileWrite(latestFile, latest), FileWrite(allFile, sorted)];
  }

  /**
    After the two writes the "all" file holds the full export; the "latest"
    file holds its prefix unless both settings name the same file, in which
    case the later, full write is what remains.
   */
  lemma {:induction false} ExportedFiles<E>(fs: map<string, seq<E>>, latest: FileWrite<E>, all: FileWrite<E>)
    ensures all.file in ApplyWrites(fs, [latest, all]) && latest.file in ApplyWrites(fs, [latest, all])
    ensures ApplyWrites(fs, [latest, all])[all.file] == all.contents
    ensures latest.file != all.file ==> ApplyWrites(fs, [latest, all])[latest.file] == latest.contents
  {
    var ws := [latest, all];
    LastWriteWins(fs, ws, 1);
    if latest.file != all.file {
      LastWriteWins(fs, ws, 0);
    }
  }
}

=== FILE: media_dao.dfy ===
/**
  The data-access layer over the media store. Each create commits one row
  or, when the database refuses it, rolls back and leaves the store as it
  was; it never raises to its caller. Each link changes one reference, and
  only when both ends resolve. Getters read rows in row order.
 */
module MediaDao {
  import opened Wrappers
  import opened Seqs
  import opened MediaModel
  import Paths

  /** A torrent row with this primary key exists. */
  predicate HasTorrent(s: Store, id: string) {
    exists i :: 0 <= i < |s.torrents| && s.torrents[i].id == id
  }

  /**
    `create_torrent_model`: adds one torrent stamped `now`. A null column
    violates NOT NULL and a second row with the same primary key violates
    the key; either way the session is rolled back and the store is
    unchanged.
   */
  function CreateTorrent(s: Store, hash: Option<string>, id: Option<string>, filename: Option<string>, now: Time): (r: Store)
    ensures hash.None? || id.None? || filename.None? ==> r == s
    ensures id.Some? && HasTorrent(s, id.value) ==> r == s
    ensures hash.Some? && id.Some? && filename.Some? && !HasTorrent(s, id.value) ==>
      && |r.torrents| == |s.torrents| + 1
      && r.torrents[..|s.torrents|] == s.torrents
      && r.torrents[|s.torrents|] == Torrent(id.value, hash.value, filename.value, now)
      && r == s.(torrents := r.torrents)
  {
    if hash.None? || id.None? || filename.None? || HasTorrent(s, id.value) then s
    else s.(torrents := s.torrents + [Torrent(id.value, hash.value, filename.value, now)])
  }

  lemma {:induction false} CreateTorrentValid(s: Store, hash: Option<string>, id: Option<string>, filename: Option<string>, now: Time)
    requires Valid(s)
    ensures Valid(CreateTorrent(s, hash, id, filename, now))
  {
    var r := CreateTorrent(s, hash, id, filename, now);
    if r != s {
      var ids := Map(r.torrents, (t: Torrent) => t.id);
      forall i, j | 0 <= i < j < |ids| ensures ids[i] != ids[j] {
        if j == |s.torrents| {
          assert ids[i] == s.torrents[i].id;
        } else {
          assert ids[i] == Map(s.torrents, (t: Torrent) => t.id)[i];
          assert ids[j] == Map(s.torrents, (t: Torrent) => t.id)[j];
        }
      }
    }
  }

  /** After a committed create, looking the torrent up by its id finds exactly it. */
  lemma {:induction false} CreateTorrentThenGet(s: Store, hash: string, id: string, filename: string, now: Time)
    requires !HasTorrent(s, id) && id != ""
    ensures GetTorrent(CreateTorrent(s, Some(hash), Some(id), Some(filename), now), None, Some(id))
         == Some(Torrent(id, hash, filename, now))
  {
    var r := CreateTorrent(s, Some(hash), Some(id), Some(filename), now);
    var p := (t: Torrent) => TorrentMatches(t, None, Some(id));
    assert p(r.torrents[|s.torrents|]);
    forall j | 0 <= j < |s.torrents| ensures !p(r.torrents[j]) {
      assert r.torrents[j] == s.torrents[j];
    }
  }

  /**
    `create_symlink_model`: inserts the symlink under a fresh key; when
    `fileId` names a stored file, that file is attached to the new symlink.
    The insert fires the update hook, which finds nothing to do on a fresh
    key.
   */
  function CreateSymlink(s: Store, data: SymlinkData, fileId: Option<Key>, now: Time): (r: Store)
    requires Valid(s)
    ensures |r.symlinks| == |s.symlinks| + 1 && r.symlinks[..|s.symlinks|] == s.symlinks
    ensures r.symlinks[|s.symlinks|] == Symlink(s.nextKey, now, data)
    ensures r.nextKey == s.nextKey + 1
    ensures r.torrents == s.torrents && r.movies == s.movies && r.episodes == s.episodes
    ensures |r.files| == |s.files|
    ensures forall i :: 0 <= i < |s.files| ==>
      r.files[i] == (if fileId == Some(s.files[i].id) then s.files[i].(symlinkId := Some(s.nextKey)) else s.files[i])
    ensures Valid(r)
  {
    var key := s.nextKey;
    var inserted := s.(
      symlinks := s.symlinks + [Symlink(key, now, data)],
      files := Map(s.files, (f: TorrentFile) => if fileId == Some(f.id) then f.(symlinkId := Some(key)) else f),
      nextKey := key + 1);
    InsertSymlinkValid(s, data, fileId, now, inserted);
    HookOnFreshSymlinkAfterInsert(s, inserted, key);
    Hook(inserted, key)
  }

  lemma {:induction false} InsertSymlinkValid(s: Store, data: SymlinkData, fileId: Option<Key>, now: Time, inserted: Store)
    requires Valid(s)
    requires inserted == s.(
      symlinks := s.symlinks + [Symlink(s.nextKey, now, data)],
      files := Map(s.files, (f: TorrentFile) => if fileId == Some(f.id) then f.(symlinkId := Some(s.nextKey)) else f),
      nextKey := s.nextKey + 1)
    ensures Valid(inserted)
  {
    var oldIds := Map(s.symlinks, (l: Symlink) => l.id);
    var ids := Map(inserted.symlinks, (l: Symlink) => l.id);
    forall i, j | 0 <= i < j < |ids| ensures ids[i] != ids[j] {
      assert ids[i] == oldIds[i];
      if j < |s.symlinks| { assert ids[j] == oldIds[j]; }
    }
    assert Map(inserted.files, (f: TorrentFile) => f.id) == Map(s.files, (f: TorrentFile) => f.id);
    forall i | 0 <= i < |inserted.files| ensures FileKeysBelow(inserted.files[i], inserted.nextKey) {
      assert FileKeysBelow(s.files[i], s.nextKey);
    }
    forall i | 0 <= i < |inserted.movies| ensures MovieOk(inserted.movies[i], inserted.nextKey) {
      assert MovieOk(s.movies[i], s.nextKey);
    }
    forall i | 0 <= i < |inserted.episodes| ensures EpisodeOk(inserted.episodes[i], inserted.nextKey) {
      assert EpisodeOk(s.episodes[i], s.nextKey);
    }
  }

  lemma {:induction false} HookOnFreshSymlinkAfterInsert(s: Store, inserted: Store, key: Key)
    requires Valid(s) && key == s.nextKey
    requires inserted.movies == s.movies && inserted.episodes == s.episodes
    ensures Hook(inserted, key) == inserted
  {
    forall i | 0 <= i < |s.movies| ensures s.movies[i].symlinkId != Some(key) {
      assert MovieOk(s.movies[i], s.nextKey);
    }
    forall i | 0 <= i < |s.episodes| ensures s.episodes[i].symlinkId != Some(key) {
      assert EpisodeOk(s.episodes[i], s.nextKey);
    }
  }

  /**
    `create_radarr_movie_model`: inserts the movie under a fresh key, or rolls
    back when a NOT NULL column (`movieId`, `title`, `path`) is missing.
   */
  function CreateMovie(s: Store, d: MovieData, now: Time): (r: Store)
    requires Valid(s)
    ensures !MovieColumnsOk(d) ==> r == s
    ensures MovieColumnsOk(d) ==>
      && r.movies == s.movies + [Movie(s.nextKey, now, d, None)]
      && r == s.(movies := r.movies, nextKey := s.nextKey + 1)
    ensures Valid(r)
  {
    if !MovieColumnsOk(d) then s
    else
      var r := s.(movies := s.movies + [Movie(s.nextKey, now, d, None)], nextKey := s.nextKey + 1);
      FreshRowValid(s, r);
      r
  }

  /**
    `create_sonarr_episode_model`: inserts the episode under a fresh key, or
    rolls back when a NOT NULL column is missing.
   */
  function CreateEpisode(s: Store, d: EpisodeData, now: Time): (r: Store)
    requires Valid(s)
    ensures !EpisodeColumnsOk(d) ==> r == s
    ensures EpisodeColumnsOk(d) ==>
      && r.episodes == s.episodes + [Episode(s.nextKey, now, d, None)]
      && r == s.(episodes := r.episodes, nextKey := s.nextKey + 1)
    ensures Valid(r)
  {
    if !EpisodeColumnsOk(d) then s
    else
      var r := s.(episodes := s.episodes + [Episode(s.nextKey, now, d, None)], nextKey := s.nextKey + 1);
      FreshRowValid(s, r);
      r
  }

  /**
    `create_file_model`: inserts the file under a fresh key, owned by the
    torrent, only when the torrent exists; otherwise nothing happens. A null
    path or size violates NOT NULL and the insert is rolled back.
   */
  function CreateFile(s: Store, torrentId: string, path: Option<string>, bytes: Option<int>, now: Time): (r: Store)
    requires Valid(s)
    ensures !HasTorrent(s, torrentId) || path.None? || bytes.None? ==> r == s
    ensures HasTorrent(s, torrentId) && path.Some? && bytes.Some? ==>
      && r.files == s.files + [TorrentFile(s.nextKey, path.value, bytes.value, now, Some(torrentId), None, None, None)]
      && r == s.(files := r.files, nextKey := s.nextKey + 1)
    ensures Valid(r)
  {
    if !HasTorrent(s, torrentId) || path.None? || bytes.None? then s
    else
      var r := s.(files := s.files + [TorrentFile(s.nextKey, path.value, bytes.value, now, Some(torrentId), None, None, None)],
                  nextKey := s.nextKey + 1);
      FreshRowValid(s, r);
      r
  }

  /** Appending one row keyed by the counter, and bumping it, keeps the store valid. */
  lemma {:induction false} FreshRowValid(s: Store, r: Store)
    requires Valid(s)
    requires r.nextKey == s.nextKey + 1 && r.torrents == s.torrents && r.symlinks == s.symlinks
    requires r.files == s.files || (|r.files| == |s.files| + 1 && r.files[..|s.files|] == s.files
                                   && r.files[|s.files|].id == s.nextKey
                                   && FileKeysBelow(r.files[|s.files|], r.nextKey))
    requires r.movies == s.movies || (|r.movies| == |s.movies| + 1 && r.movies[..|s.movies|] == s.movies
                                     && MovieOk(r.movies[|s.movies|], r.nextKey) && r.movies[|s.movies|].id == s.nextKey)
    requires r.episodes == s.episodes || (|r.episodes| == |s.episodes| + 1 && r.episodes[..|s.episodes|] == s.episodes
                                         && EpisodeOk(r.episodes[|s.episodes|], r.nextKey) && r.episodes[|s.episodes|].id == s.nextKey)
    ensures Valid(r)
  {
    FreshFiles(s, r);
    FreshMovies(s, r);
    FreshEpisodes(s, r);
    forall i | 0 <= i < |r.symlinks| ensures r.symlinks[i].id < r.nextKey {
      assert s.symlinks[i].id < s.nextKey;
    }
  }

  lemma {:induction false} FreshFiles(s: Store, r: Store)
    requires Valid(s) && r.nextKey == s.nextKey + 1
    requires r.files == s.files || (|r.files| == |s.files| + 1 && r.files[..|s.files|] == s.files
                                   && r.files[|s.files|].id == s.nextKey
                                   && FileKeysBelow(r.files[|s.files|], r.nextKey))
    ensures Distinct(Map(r.files, (f: TorrentFile) => f.id))
    ensures forall i :: 0 <= i < |r.files| ==> FileKeysBelow(r.files[i], r.nextKey)
  {
    var ids := Map(r.files, (f: TorrentFile) => f.id);
    forall i | 0 <= i < |r.files| ensures FileKeysBelow(r.files[i], r.nextKey) {
      if i < |s.files| { assert r.files[i] == s.files[i]; assert FileKeysBelow(s.files[i], s.nextKey); }
    }
    forall i, j | 0 <= i < j < |ids| ensures ids[i] != ids[j] {
      assert r.files[i] == s.files[i];
      assert FileKeysBelow(s.files[i], s.nextKey);
      if j < |s.files| {
        assert r.files[j] == s.files[j];
        assert Map(s.files, (f: TorrentFile) => f.id)[i] == ids[i];
        assert Map(s.files, (f: TorrentFile) => f.id)[j] == ids[j];
      }
    }
  }

  lemma {:induction false} FreshMovies(s: Store, r: Store)
    requires Valid(s) && r.nextKey == s.nextKey + 1
    requires r.movies == s.movies || (|r.movies| == |s.movies| + 1 && r.movies[..|s.movies|] == s.movies
                                     && MovieOk(r.movies[|s.movies|], r.nextKey) && r.movies[|s.movies|].id == s.nextKey)
    ensures Distinct(Map(r.movies, (m: Movie) => m.id))
    ensures forall i :: 0 <= i < |r.movies| ==> MovieOk(r.movies[i], r.nextKey)
  {
    var ids := Map(r.movies, (m: Movie) => m.id);
    forall i | 0 <= i < |r.movies| ensures MovieOk(r.movies[i], r.nextKey) {
      if i < |s.movies| { assert r.movies[i] == s.movies[i]; assert MovieOk(s.movies[i], s.nextKey); }
    }
    forall i, j | 0 <= i < j < |ids| ensures ids[i] != ids[j] {
      assert r.movies[i] == s.movies[i];
      assert MovieOk(s.movies[i], s.nextKey);
      if j < |s.movies| {
        assert r.movies[j] == s.movies[j];
        assert Map(s.movies, (m: Movie) => m.id)[i] == ids[i];
        assert Map(s.movies, (m: Movie) => m.id)[j] == ids[j];
      }
    }
  }

  lemma {:induction false} FreshEpisodes(s: Store, r: Store)
    requires Valid(s) && r.nextKey == s.nextKey + 1
    requires r.episodes == s.episodes || (|r.episodes| == |s.episodes| + 1 && r.episodes[..|s.episodes|] == s.episodes
                                         && EpisodeOk(r.episodes[|s.episodes|], r.nextKey) && r.episodes[|s.episodes|].id == s.nextKey)
    ensures Distinct(Map(r.episodes, (e: Episode) => e.id))
    ensures forall i :: 0 <= i < |r.episodes| ==> EpisodeOk(r.episodes[i], r.nextKey)
  {
    var ids := Map(r.episodes, (e: Episode) => e.id);
    forall i | 0 <= i < |r.episodes| ensures EpisodeOk(r.episodes[i], r.nextKey) {
      if i < |s.episodes| { assert r.episodes[i] == s.episodes[i]; assert EpisodeOk(s.episodes[i], s.nextKey); }
    }
    forall i, j | 0 <= i < j < |ids| ensures ids[i] != ids[j] {
      assert r.episodes[i] == s.episodes[i];
      assert EpisodeOk(s.episodes[i], s.nextKey);
      if j < |s.episodes| {
        assert r.episodes[j] == s.episodes[j];
        assert Map(s.episodes, (e: Episode) => e.id)[i] == ids[i];
        assert Map(s.episodes, (e: Episode) => e.id)[j] == ids[j];
      }
    }
  }

  /** `get_all_torrents`: SQL `OFFSET offset LIMIT limit` over the torrent rows. */
  function AllTorrents(s: Store, limit: nat, offset: nat): (r: seq<Torrent>)
    ensures offset >= |s.torrents| ==> r == []
    ensures offset < |s.torrents| ==> |r| == if offset + limit <= |s.torrents| then limit else |s.torrents| - offset
    ensures forall i :: 0 <= i < |r| ==> offset + i < |s.torrents| && r[i] == s.torrents[offset + i]
  {
    if offset >= |s.torrents| then []
    else if offset + limit <= |s.torrents| then s.torrents[offset..offset + limit]
    else s.torrents[offset..]
  }

  /** `get_all_torrents_hashes`: every row's hash in row order, or None for an empty table. */
  function TorrentHashes(s: Store): (r: Option<seq<string>>)
    ensures r.None? <==> |s.torrents| == 0
    ensures r.Some? ==> |r.value| == |s.torrents| && forall i :: 0 <= i < |s.torrents| ==> r.value[i] == s.torrents[i].hash
  {
    if |s.torrents| == 0 then None else Some(Map(s.torrents, (t: Torrent) => t.hash))
  }

  /** A hash is listed iff some stored torrent carries it. */
  lemma {:induction false} TorrentHashesMembership(s: Store, h: string)
    requires |s.torrents| > 0
    ensures h in TorrentHashes(s).value <==> exists i :: 0 <= i < |s.torrents| && s.torrents[i].hash == h
  {
    var hs := TorrentHashes(s).value;
    if h in hs {
      var k :| 0 <= k < |hs| && hs[k] == h;
      assert s.torrents[k].hash == h;
    }
  }

  /** A filter argument applies only when it is truthy (present and non-empty). */
  predicate Truthy(o: Option<string>) {
    o.Some? && o.value != ""
  }

  predicate TorrentMatches(t: Torrent, hash: Option<string>, id: Option<string>) {
    (Truthy(hash) ==> t.hash == hash.value) && (Truthy(id) ==> t.id == id.value)
  }

  /** `get_torrent`: the first torrent matching the truthy filters. */
  function GetTorrent(s: Store, hash: Option<string>, id: Option<string>): (r: Option<Torrent>)
    ensures r.Some? ==> r.value in s.torrents
    ensures r.Some? ==> (Truthy(hash) ==> r.value.hash == hash.value) && (Truthy(id) ==> r.value.id == id.value)
    ensures r.None? <==> forall i :: 0 <= i < |s.torrents| ==> !TorrentMatches(s.torrents[i], hash, id)
  {
    First(s.torrents, (t: Torrent) => TorrentMatches(t, hash, id))
  }

  /** With no truthy filter, `get_torrent` returns the first row. */
  lemma {:induction false} GetTorrentUnfiltered(s: Store, hash: Option<string>, id: Option<string>)
    requires !Truthy(hash) && !Truthy(id) && |s.torrents| > 0
    ensures GetTorrent(s, hash, id) == Some(s.torrents[0])
  {
  }

  /** Earlier matches win: no row before the returned one matches. */
  lemma {:induction false} GetTorrentIsFirst(s: Store, hash: Option<string>, id: Option<string>, j: nat)
    requires GetTorrent(s, hash, id).Some?
    requires j < |s.torrents| && TorrentMatches(s.torrents[j], hash, id)
    ensures exists k :: 0 <= k <= j && s.torrents[k] == GetTorrent(s, hash, id).value
  {
    var k := FirstIndex(s.torrents, (t: Torrent) => TorrentMatches(t, hash, id)).value;
    assert k <= j;
  }

  function FileById(s: Store, id: Key): (r: Option<TorrentFile>)
    ensures r.Some? ==> r.value in s.files && r.value.id == id
    ensures r.None? <==> forall i :: 0 <= i < |s.files| ==> s.files[i].id != id
  {
    First(s.files, (f: TorrentFile) => f.id == id)
  }

  function SymlinkById(s: Store, id: Key): (r: Option<Symlink>)
    ensures r.Some? ==> r.value in s.symlinks && r.value.id == id
    ensures r.None? <==> forall i :: 0 <= i < |s.symlinks| ==> s.symlinks[i].id != id
  {
    First(s.symlinks, (l: Symlink) => l.id == id)
  }

  function MovieById(s: Store, id: Key): (r: Option<Movie>)
    ensures r.Some? ==> r.value in s.movies && r.value.id == id
    ensures r.None? <==> forall i :: 0 <= i < |s.movies| ==> s.movies[i].id != id
  {
    First(s.movies, (m: Movie) => m.id == id)
  }

  function EpisodeById(s: Store, id: Key): (r: Option<Episode>)
    ensures r.Some? ==> r.value in s.episodes && r.value.id == id
    ensures r.None? <==> forall i :: 0 <= i < |s.episodes| ==> s.episodes[i].id != id
  {
    First(s.episodes, (e: Episode) => e.id == id)
  }

  /** `check_radarr_path_exists`: the first movie stored at `path`. */
  function MovieByPath(s: Store, path: string): (r: Option<Movie>)
    ensures r.Some? ==> r.value in s.movies && r.value.data.path == Some(path)
    ensures r.None? <==> forall i :: 0 <= i < |s.movies| ==> s.movies[i].data.path != Some(path)
  {
    First(s.movies, (m: Movie) => m.data.path == Some(path))
  }

  /** `check_sonarr_path_exists`: the first episode stored at `path`. */
  function EpisodeByPath(s: Store, path: string): (r: Option<Episode>)
    ensures r.Some? ==> r.value in s.episodes && r.value.data.path == Some(path)
    ensures r.None? <==> forall i :: 0 <= i < |s.episodes| ==> s.episodes[i].data.path != Some(path)
  {
    First(s.episodes, (e: Episode) => e.data.path == Some(path))
  }

  /** A file attached to a symlink but to neither a movie nor an episode. */
  predicate Unlinked(f: TorrentFile) {
    f.radarrId.None? && f.sonarrId.None? && f.symlinkId.Some?
  }

  /** `get_files_unlinked_media`: the unlinked files, in row order. */
  function UnlinkedFiles(s: Store): (r: seq<TorrentFile>)
    ensures forall f :: f in r <==> f in s.files && Unlinked(f)
    ensures IsSubsequence(r, s.files)
  {
    FilterMembershipAll(s.files, Unlinked);
    FilterIsSubsequence(s.files, Unlinked);
    Filter(s.files, Unlinked)
  }

  lemma {:induction false} FilterMembershipAll<T>(xs: seq<T>, p: T -> bool)
    ensures forall x :: x in Filter(xs, p) <==> x in xs && p(x)
  {
    forall x ensures x in Filter(xs, p) <==> x in xs && p(x) {
      FilterMembership(xs, p, x);
    }
  }

  /** `get_files_from_torrent_id`: the files owned by the torrent, in row order. */
  function FilesOfTorrent(s: Store, torrentId: string): (r: seq<TorrentFile>)
    ensures forall f :: f in r <==> f in s.files && f.torrentId == Some(torrentId)
    ensures IsSubsequence(r, s.files)
  {
    var owned := (f: TorrentFile) => f.torrentId == Some(torrentId);
    FilterMembershipAll(s.files, owned);
    FilterIsSubsequence(s.files, owned);
    Filter(s.files, owned)
  }

  function FileBasename(f: TorrentFile): string {
    Paths.Basename(f.path)
  }

  /**
    `get_torrent_files_filename_dict`: file basename to file key, None for
    an empty table; of two files with the same basename the later row wins.
   */
  function FilenameDict(s: Store): (r: Option<map<string, Key>>)
    ensures r.None? <==> |s.files| == 0
    ensures r.Some? ==> forall n :: n in r.value <==> exists i :: 0 <= i < |s.files| && FileBasename(s.files[i]) == n
  {
    if |s.files| == 0 then None
    else Some(LastWinsMap(s.files, FileBasename, (f: TorrentFile) => f.id))
  }

  /** The key stored for a basename is that of the last file carrying it. */
  lemma {:induction false} FilenameDictLastWins(s: Store, i: nat)
    requires i < |s.files|
    requires forall j :: i < j < |s.files| ==> FileBasename(s.files[j]) != FileBasename(s.files[i])
    ensures FilenameDict(s).value[FileBasename(s.files[i])] == s.files[i].id
  {
    LastWinsMapValue(s.files, FileBasename, (f: TorrentFile) => f.id, i);
  }

  /**
    `get_symlink_destination_filename_dict`: destination filename to
    symlink key, None for an empty table.
   */
  function DestinationFilenameDict(s: Store): (r: Option<map<string, Key>>)
    ensures r.None? <==> |s.symlinks| == 0
    ensures r.Some? ==> forall n :: n in r.value <==> exists i :: 0 <= i < |s.symlinks| && s.symlinks[i].data.destinationFilename == n
  {
    if |s.symlinks| == 0 then None
    else Some(LastWinsMap(s.symlinks, (l: Symlink) => l.data.destinationFilename, (l: Symlink) => l.id))
  }

  /** `get_sonarr_episodes_file_id`: every episode's file id, or None for an empty table. */
  function EpisodeFileIds(s: Store): (r: Option<seq<Option<int>>>)
    ensures r.None? <==> |s.episodes| == 0
    ensures r.Some? ==> |r.value| == |s.episodes| && forall i :: 0 <= i < |s.episodes| ==> r.value[i] == s.episodes[i].data.episodefileId
  {
    if |s.episodes| == 0 then None else Some(Map(s.episodes, (e: Episode) => e.data.episodefileId))
  }

  /** `get_radarr_movies_file_id`: every movie's file id, or None for an empty table. */
  function MovieFileIds(s: Store): (r: Option<seq<Option<int>>>)
    ensures r.None? <==> |s.movies| == 0
    ensures r.Some? ==> |r.value| == |s.movies| && forall i :: 0 <= i < |s.movies| ==> r.value[i] == s.movies[i].data.fileId
  {
    if |s.movies| == 0 then None else Some(Map(s.movies, (m: Movie) => m.data.fileId))
  }

  /** A media row of `kind` with this key exists. */
  predicate HasMedia(s: Store, kind: MediaKind, id: Key) {
    match kind
    case MovieKind => MovieById(s, id).Some?
    case EpisodeKind => EpisodeById(s, id).Some?
  }

  /**
    `link_file_to_radarr` / `link_file_to_sonarr`: when both the media row
    and the file resolve, the file's `kind` reference is set; nothing else
    changes, and in particular the other media reference is kept.
   */
  function LinkFile(s: Store, kind: MediaKind, media: Key, file: Key): (r: Store)
    ensures !(HasMedia(s, kind, media) && FileById(s, file).Some?) ==> r == s
    ensures r == s.(files := r.files) && |r.files| == |s.files|
    ensures forall i :: 0 <= i < |s.files| ==> s.files[i].id != file ==> r.files[i] == s.files[i]
    ensures HasMedia(s, kind, media) && FileById(s, file).Some? ==>
      forall i :: 0 <= i < |s.files| ==> s.files[i].id == file ==> r.files[i] == s.files[i].WithRef(kind, Some(media))
  {
    if HasMedia(s, kind, media) && FileById(s, file).Some? then
      s.(files := Map(s.files, (f: TorrentFile) => if f.id == file then f.WithRef(kind, Some(media)) else f))
    else s
  }

  lemma {:induction false} LinkFileValid(s: Store, kind: MediaKind, media: Key, file: Key)
    requires Valid(s)
    ensures Valid(LinkFile(s, kind, media, file))
  {
    var r := LinkFile(s, kind, media, file);
    if r != s {
      assert media < s.nextKey by {
        if kind == MovieKind {
          var m := MovieById(s, media).value;
          var k :| 0 <= k < |s.movies| && s.movies[k] == m;
          assert MovieOk(s.movies[k], s.nextKey);
        } else {
          var e := EpisodeById(s, media).value;
          var k :| 0 <= k < |s.episodes| && s.episodes[k] == e;
          assert EpisodeOk(s.episodes[k], s.nextKey);
        }
      }
      assert Map(r.files, (f: TorrentFile) => f.id) == Map(s.files, (f: TorrentFile) => f.id);
      forall i | 0 <= i < |r.files| ensures FileKeysBelow(r.files[i], r.nextKey) {
        assert FileKeysBelow(s.files[i], s.nextKey);
      }
    }
  }

  /** Linking the same file to the same media twice is linking it once. */
  lemma {:induction false} LinkFileIdempotent(s: Store, kind: MediaKind, media: Key, file: Key)
    ensures LinkFile(LinkFile(s, kind, media, file), kind, media, file) == LinkFile(s, kind, media, file)
  {
    var r := LinkFile(s, kind, media, file);
    assert HasMedia(r, kind, media) == HasMedia(s, kind, media);
    if HasMedia(s, kind, media) && FileById(s, file).Some? {
      var f := FileById(s, file).value;
      var k :| 0 <= k < |s.files| && s.files[k] == f;
      assert r.files[k].id == file;
    }
  }

  /** Sets the symlink reference of one media row, clearing it on any other row that held it. */
  function MoveMovieSymlink(ms: seq<Movie>, sym: Key, media: Key): (r: seq<Movie>)
    ensures |r| == |ms|
    ensures forall i :: 0 <= i < |ms| ==> r[i] == ms[i].(symlinkId := r[i].symlinkId)
    ensures forall i :: 0 <= i < |ms| ==> (r[i].symlinkId == Some(sym) <==> ms[i].id == media)
  {
    Map(ms, (m: Movie) => if m.id == media then m.(symlinkId := Some(sym))
                          else if m.symlinkId == Some(sym) then m.(symlinkId := None) else m)
  }

  function MoveEpisodeSymlink(es: seq<Episode>, sym: Key, media: Key): (r: seq<Episode>)
    ensures |r| == |es|
    ensures forall i :: 0 <= i < |es| ==> r[i] == es[i].(symlinkId := r[i].symlinkId)
    ensures forall i :: 0 <= i < |es| ==> (r[i].symlinkId == Some(sym) <==> es[i].id == media)
  {
    Map(es, (e: Episode) => if e.id == media then e.(symlinkId := Some(sym))
                            else if e.symlinkId == Some(sym) then e.(symlinkId := None) else e)
  }

  /**
    `link_radarr_to_symlink` / `link_sonarr_to_symlink`: when both rows
    resolve, the media row becomes the symlink's one media row of that kind;
    the symlink row is then updated, so the hook makes the symlink's file the
    media's one file (for an episode, only when no movie points at the
    symlink, since the hook tries the movie first).
   */
  function LinkSymlink(s: Store, kind: MediaKind, sym: Key, media: Key): (r: Store)
    ensures !(SymlinkById(s, sym).Some? && HasMedia(s, kind, media)) ==> r == s
    ensures SymlinkById(s, sym).Some? && HasMedia(s, kind, media) ==>
      LinkedMedia(r, kind, sym) == Some(media)
    ensures r.torrents == s.torrents && r.symlinks == s.symlinks && r.nextKey == s.nextKey
    ensures kind == MovieKind ==> r.episodes == s.episodes
    ensures kind == EpisodeKind ==> r.movies == s.movies
    ensures SymlinkById(s, sym).Some? && HasMedia(s, kind, media) && kind == MovieKind ==>
      |r.movies| == |s.movies| && forall i :: 0 <= i < |s.movies| ==>
        (r.movies[i].symlinkId == Some(sym) <==> s.movies[i].id == media) && r.movies[i] == s.movies[i].(symlinkId := r.movies[i].symlinkId)
    ensures SymlinkById(s, sym).Some? && HasMedia(s, kind, media) && kind == EpisodeKind ==>
      |r.episodes| == |s.episodes| && forall i :: 0 <= i < |s.episodes| ==>
        (r.episodes[i].symlinkId == Some(sym) <==> s.episodes[i].id == media) && r.episodes[i] == s.episodes[i].(symlinkId := r.episodes[i].symlinkId)
    ensures |r.files| == |s.files|
    ensures SymlinkById(s, sym).Some? && HasMedia(s, kind, media) && kind == MovieKind ==>
      forall i :: 0 <= i < |s.files| ==>
        (r.files[i].radarrId == Some(media) <==> SymlinkFile(s, sym) == Some(s.files[i].id)) && r.files[i].sonarrId == s.files[i].sonarrId
    ensures SymlinkById(s, sym).Some? && HasMedia(s, kind, media) && kind == EpisodeKind && LinkedMedia(s, MovieKind, sym).None? ==>
      forall i :: 0 <= i < |s.files| ==>
        (r.files[i].sonarrId == Some(media) <==> SymlinkFile(s, sym) == Some(s.files[i].id)) && r.files[i].radarrId == s.files[i].radarrId
    ensures Valid(s) ==> Valid(r)
  {
    if SymlinkById(s, sym).Some? && HasMedia(s, kind, media) then
      var moved := match kind
        case MovieKind => s.(movies := MoveMovieSymlink(s.movies, sym, media))
        case EpisodeKind => s.(episodes := MoveEpisodeSymlink(s.episodes, sym, media));
      LinkSymlinkFound(s, kind, sym, media, moved);
      LinkSymlinkFiles(s, kind, sym, media, moved);
      LinkSymlinkValid(s, kind, sym, media, moved);
      Hook(moved, sym)
    else s
  }

  /** The hook after the move attaches the symlink's file to the linked media. */
  lemma {:induction false} LinkSymlinkFiles(s: Store, kind: MediaKind, sym: Key, media: Key, moved: Store)
    requires HasMedia(s, kind, media)
    requires kind == MovieKind ==> moved == s.(movies := MoveMovieSymlink(s.movies, sym, media))
    requires kind == EpisodeKind ==> moved == s.(episodes := MoveEpisodeSymlink(s.episodes, sym, media))
    ensures |Hook(moved, sym).files| == |s.files|
    ensures kind == MovieKind ==> forall i :: 0 <= i < |s.files| ==>
      (Hook(moved, sym).files[i].radarrId == Some(media) <==> SymlinkFile(s, sym) == Some(s.files[i].id))
      && Hook(moved, sym).files[i].sonarrId == s.files[i].sonarrId
    ensures kind == EpisodeKind && LinkedMedia(s, MovieKind, sym).None? ==> forall i :: 0 <= i < |s.files| ==>
      (Hook(moved, sym).files[i].sonarrId == Some(media) <==> SymlinkFile(s, sym) == Some(s.files[i].id))
      && Hook(moved, sym).files[i].radarrId == s.files[i].radarrId
  {
    LinkSymlinkFound(s, kind, sym, media, moved);
    assert moved.files == s.files;
    assert SymlinkFile(moved, sym) == SymlinkFile(s, sym);
    if kind == MovieKind {
      forall i | 0 <= i < |s.files|
        ensures (Hook(moved, sym).files[i].radarrId == Some(media) <==> SymlinkFile(s, sym) == Some(s.files[i].id))
        ensures Hook(moved, sym).files[i].sonarrId == s.files[i].sonarrId
      {
        HookMovie(moved, sym, i);
      }
    } else if LinkedMedia(s, MovieKind, sym).None? {
      assert moved.movies == s.movies;
      forall i | 0 <= i < |s.files|
        ensures (Hook(moved, sym).files[i].sonarrId == Some(media) <==> SymlinkFile(s, sym) == Some(s.files[i].id))
        ensures Hook(moved, sym).files[i].radarrId == s.files[i].radarrId
      {
        HookEpisode(moved, sym, i);
      }
    }
  }

  /** Moving the symlink reference onto an existing symlink keeps the store invariant. */
  lemma {:induction false} LinkSymlinkValid(s: Store, kind: MediaKind, sym: Key, media: Key, moved: Store)
    requires SymlinkById(s, sym).Some?
    requires kind == MovieKind ==> moved == s.(movies := MoveMovieSymlink(s.movies, sym, media))
    requires kind == EpisodeKind ==> moved == s.(episodes := MoveEpisodeSymlink(s.episodes, sym, media))
    ensures Valid(s) ==> Valid(moved) && Valid(Hook(moved, sym))
  {
    if Valid(s) {
      var l := SymlinkById(s, sym).value;
      var k :| 0 <= k < |s.symlinks| && s.symlinks[k] == l;
      assert sym < s.nextKey;
      if kind == MovieKind {
        assert Map(moved.movies, (m: Movie) => m.id) == Map(s.movies, (m: Movie) => m.id);
        forall i | 0 <= i < |moved.movies| ensures MovieOk(moved.movies[i], moved.nextKey) {
          assert MovieOk(s.movies[i], s.nextKey);
        }
      } else {
        assert Map(moved.episodes, (e: Episode) => e.id) == Map(s.episodes, (e: Episode) => e.id);
        forall i | 0 <= i < |moved.episodes| ensures EpisodeOk(moved.episodes[i], moved.nextKey) {
          assert EpisodeOk(s.episodes[i], s.nextKey);
        }
      }
      HookValid(moved, sym);
    }
  }

  lemma {:induction false} LinkSymlinkFound(s: Store, kind: MediaKind, sym: Key, media: Key, moved: Store)
    requires HasMedia(s, kind, media)
    requires kind == MovieKind ==> moved == s.(movies := MoveMovieSymlink(s.movies, sym, media))
    requires kind == EpisodeKind ==> moved == s.(episodes := MoveEpisodeSymlink(s.episodes, sym, media))
    ensures LinkedMedia(moved, kind, sym) == Some(media)
  {
    if kind == MovieKind {
      var m := MovieById(s, media).value;
      var k :| 0 <= k < |s.movies| && s.movies[k] == m;
      assert moved.movies[k].symlinkId == Some(sym);
      var found := First(moved.movies, (x: Movie) => x.symlinkId == Some(sym)).value;
      var j :| 0 <= j < |moved.movies| && moved.movies[j] == found;
      assert found.id == s.movies[j].id;
    } else {
      var e := EpisodeById(s, media).value;
      var k :| 0 <= k < |s.episodes| && s.episodes[k] == e;
      assert moved.episodes[k].symlinkId == Some(sym);
      var found := First(moved.episodes, (x: Episode) => x.symlinkId == Some(sym)).value;
      var j :| 0 <= j < |moved.episodes| && moved.episodes[j] == found;
      assert found.id == s.episodes[j].id;
    }
  }
}

=== FILE: media_model.dfy ===
/**
  The media store: debrid torrents and their files, library symlinks, and
  the movie and episode records obtained from Radarr and Sonarr. Every
  table is a sequence in row (insertion) order, because offset/limit paging,
  `.first()` lookups and dict comprehensions over rows all depend on that
  order. Generated primary keys (uuid4 and shortuuid values in the
  application) are drawn fresh from `nextKey`; torrent ids come from the
  debrid provider and are plain strings.

  Each file row holds one nullable reference to a torrent, a symlink, a
  movie and an episode; each movie and episode row holds one nullable
  reference to a symlink. The schema declares no unique constraint besides
  the primary keys.
 */
module MediaModel {
  import opened Wrappers
  import opened Seqs

  type Key = nat

  /** Timestamps (`datetime.utcnow()` values), as seconds. */
  type Time = int

  datatype Torrent = Torrent(id: string, hash: string, filename: string, added: Time)

  /** The two kinds of media record a file can point at. */
  datatype MediaKind = MovieKind | EpisodeKind

  datatype TorrentFile = TorrentFile(
    id: Key,
    path: string,
    bytes: int,
    added: Time,
    torrentId: Option<string>,
    symlinkId: Option<Key>,
    radarrId: Option<Key>,
    sonarrId: Option<Key>)
  {
    /** The file's reference to a movie or to an episode. */
    function Ref(kind: MediaKind): Option<Key> {
      match kind
      case MovieKind => radarrId
      case EpisodeKind => sonarrId
    }

    /** The file with one media reference replaced. */
    function WithRef(kind: MediaKind, v: Option<Key>): (r: TorrentFile)
      ensures r.Ref(kind) == v
      ensures r.Ref(Other(kind)) == Ref(Other(kind))
      ensures r.id == id && r.path == path && r.bytes == bytes && r.added == added
      ensures r.torrentId == torrentId && r.symlinkId == symlinkId
    {
      match kind
      case MovieKind => this.(radarrId := v)
      case EpisodeKind => this.(sonarrId := v)
    }
  }

  function Other(kind: MediaKind): MediaKind {
    match kind
    case MovieKind => EpisodeKind
    case EpisodeKind => MovieKind
  }

  /** The four string columns a symlink row is created from. */
  datatype SymlinkData = SymlinkData(
    target: string,
    targetFilename: string,
    destination: string,
    destinationFilename: string)

  datatype Symlink = Symlink(id: Key, added: Time, data: SymlinkData)

  /** The column values of a movie row (all nullable except where noted). */
  datatype MovieData = MovieData(
    mediaType: string,
    movieId: Option<int>,
    title: Option<string>,
    originalTitle: Option<string>,
    year: Option<int>,
    releaseGroup: Option<string>,
    imdbId: Option<string>,
    tmdbId: Option<int>,
    genres: Option<seq<string>>,
    quality: Option<string>,
    resolution: Option<int>,
    languages: seq<string>,
    originalFilePath: Option<string>,
    relativePath: Option<string>,
    path: Option<string>,
    fileId: Option<int>)

  /** The column values of an episode row. */
  datatype EpisodeData = EpisodeData(
    mediaType: string,
    serieId: Option<int>,
    serieTitle: Option<string>,
    year: Option<int>,
    seasonNumber: Option<int>,
    episodeTitle: Option<string>,
    episodeNumber: Option<int>,
    releaseGroup: Option<string>,
    tvdbId: Option<int>,
    imdbId: Option<string>,
    tvMazeId: Option<int>,
    genres: Option<seq<string>>,
    quality: Option<string>,
    resolution: Option<int>,
    languages: seq<string>,
    relativePath: Option<string>,
    path: Option<string>,
    episodeId: Option<int>,
    episodefileId: Option<int>)

  /** The NOT NULL columns of the movie table are all given. */
  predicate MovieColumnsOk(d: MovieData) {
    d.movieId.Some? && d.title.Some? && d.path.Some?
  }

  /** The NOT NULL columns of the episode table are all given. */
  predicate EpisodeColumnsOk(d: EpisodeData) {
    d.serieId.Some? && d.serieTitle.Some? && d.seasonNumber.Some?
    && d.episodeNumber.Some? && d.tvdbId.Some? && d.path.Some?
  }

  datatype Movie = Movie(id: Key, added: Time, data: MovieData, symlinkId: Option<Key>)

  datatype Episode = Episode(id: Key, added: Time, data: EpisodeData, symlinkId: Option<Key>)

  datatype Store = Store(
    torrents: seq<Torrent>,
    files: seq<TorrentFile>,
    symlinks: seq<Symlink>,
    movies: seq<Movie>,
    episodes: seq<Episode>,
    nextKey: Key)

  const EmptyStore := Store([], [], [], [], [], 0)

  predicate Below(r: Option<Key>, bound: Key) {
    r.Some? ==> r.value < bound
  }

  /**
    The invariant every reachable store keeps: primary keys are unique per
    table, generated keys and every reference lie below the key counter, and
    the NOT NULL columns of media rows are set.
   */
  ghost predicate Valid(s: Store) {
    && Distinct(Map(s.torrents, (t: Torrent) => t.id))
    && Distinct(Map(s.files, (f: TorrentFile) => f.id))
    && Distinct(Map(s.symlinks, (l: Symlink) => l.id))
    && Distinct(Map(s.movies, (m: Movie) => m.id))
    && Distinct(Map(s.episodes, (e: Episode) => e.id))
    && (forall i :: 0 <= i < |s.files| ==> FileKeysBelow(s.files[i], s.nextKey))
    && (forall i :: 0 <= i < |s.symlinks| ==> s.symlinks[i].id < s.nextKey)
    && (forall i :: 0 <= i < |s.movies| ==> MovieOk(s.movies[i], s.nextKey))
    && (forall i :: 0 <= i < |s.episodes| ==> EpisodeOk(s.episodes[i], s.nextKey))
  }

  predicate FileKeysBelow(f: TorrentFile, bound: Key) {
    f.id < bound && Below(f.symlinkId, bound) && Below(f.radarrId, bound) && Below(f.sonarrId, bound)
  }

  predicate MovieOk(m: Movie, bound: Key) {
    m.id < bound && Below(m.symlinkId, bound) && MovieColumnsOk(m.data)
  }

  predicate EpisodeOk(e: Episode, bound: Key) {
    e.id < bound && Below(e.symlinkId, bound) && EpisodeColumnsOk(e.data)
  }

  lemma {:induction false} EmptyStoreValid()
    ensures Valid(EmptyStore)
  {
  }

  /** The media record of `kind` that points at symlink `sym`, as its key. */
  function LinkedMedia(s: Store, kind: MediaKind, sym: Key): (r: Option<Key>)
    ensures r.Some? ==> kind == MovieKind ==> exists m :: m in s.movies && m.id == r.value && m.symlinkId == Some(sym)
    ensures r.Some? ==> kind == EpisodeKind ==> exists e :: e in s.episodes && e.id == r.value && e.symlinkId == Some(sym)
    ensures r.None? && kind == MovieKind ==> forall i :: 0 <= i < |s.movies| ==> s.movies[i].symlinkId != Some(sym)
    ensures r.None? && kind == EpisodeKind ==> forall i :: 0 <= i < |s.episodes| ==> s.episodes[i].symlinkId != Some(sym)
  {
    match kind
    case MovieKind =>
      (match First(s.movies, (m: Movie) => m.symlinkId == Some(sym))
       case Some(m) => Some(m.id)
       case None => None)
    case EpisodeKind =>
      (match First(s.episodes, (e: Episode) => e.symlinkId == Some(sym))
       case Some(e) => Some(e.id)
       case None => None)
  }

  /** The file that points at symlink `sym` (the symlink's `rd_file`), as its key. */
  function SymlinkFile(s: Store, sym: Key): (r: Option<Key>)
    ensures r.Some? ==> exists f :: f in s.files && f.id == r.value && f.symlinkId == Some(sym)
    ensures r.None? ==> forall i :: 0 <= i < |s.files| ==> s.files[i].symlinkId != Some(sym)
  {
    match First(s.files, (f: TorrentFile) => f.symlinkId == Some(sym))
    case Some(f) => Some(f.id)
    case None => None
  }

  /**
    Makes `target` the one file whose `kind` reference is `media`: the file
    keyed `target` gets the reference, every other file that held it loses
    it, and nothing else changes. This is assigning the scalar
    `torrent_file` side of a one-to-one relationship.
   */
  function Attach(fs: seq<TorrentFile>, kind: MediaKind, media: Key, target: Option<Key>): (r: seq<TorrentFile>)
    ensures |r| == |fs|
    ensures forall i :: 0 <= i < |fs| ==> r[i] == fs[i].WithRef(kind, r[i].Ref(kind))
    ensures forall i :: 0 <= i < |fs| ==> (r[i].Ref(kind) == Some(media) <==> target == Some(fs[i].id))
    ensures forall i :: 0 <= i < |fs| ==> fs[i].Ref(kind) != Some(media) && target != Some(fs[i].id) ==> r[i] == fs[i]
  {
    Map(fs, (f: TorrentFile) =>
      if target == Some(f.id) then f.WithRef(kind, Some(media))
      else if f.Ref(kind) == Some(media) then f.WithRef(kind, None)
      else f)
  }

  /**
    The `update_torrent_file` hook, fired after a symlink row is inserted or
    updated: when a movie points at the symlink, that movie's file becomes
    the symlink's file; only when no movie does, the same happens for an
    episode; with neither, nothing changes.
   */
  function Hook(s: Store, sym: Key): (r: Store)
    ensures r.torrents == s.torrents && r.symlinks == s.symlinks && r.movies == s.movies
    ensures r.episodes == s.episodes && r.nextKey == s.nextKey
  {
    match LinkedMedia(s, MovieKind, sym)
    case Some(m) => s.(files := Attach(s.files, MovieKind, m, SymlinkFile(s, sym)))
    case None =>
      match LinkedMedia(s, EpisodeKind, sym)
      case Some(e) => s.(files := Attach(s.files, EpisodeKind, e, SymlinkFile(s, sym)))
      case None => s
  }

  /** With a movie on the symlink, the symlink's file is the movie's only file. */
  lemma {:induction false} HookMovie(s: Store, sym: Key, i: nat)
    requires LinkedMedia(s, MovieKind, sym).Some? && i < |s.files|
    ensures Hook(s, sym).files[i].radarrId == LinkedMedia(s, MovieKind, sym)
            <==> SymlinkFile(s, sym) == Some(s.files[i].id)
    ensures Hook(s, sym).files[i].sonarrId == s.files[i].sonarrId
  {
  }

  /** The episode branch runs only when no movie points at the symlink. */
  lemma {:induction false} HookEpisode(s: Store, sym: Key, i: nat)
    requires LinkedMedia(s, MovieKind, sym).None? && LinkedMedia(s, EpisodeKind, sym).Some?
    requires i < |s.files|
    ensures Hook(s, sym).files[i].sonarrId == LinkedMedia(s, EpisodeKind, sym)
            <==> SymlinkFile(s, sym) == Some(s.files[i].id)
    ensures Hook(s, sym).files[i].radarrId == s.files[i].radarrId
  {
  }

  /** With neither a movie nor an episode on the symlink, the hook changes nothing. */
  lemma {:induction false} HookNeither(s: Store, sym: Key)
    requires LinkedMedia(s, MovieKind, sym).None? && LinkedMedia(s, EpisodeKind, sym).None?
    ensures Hook(s, sym) == s
  {
  }

  /** Attaching twice is attaching once. */
  lemma {:induction false} AttachIdempotent(fs: seq<TorrentFile>, kind: MediaKind, media: Key, target: Option<Key>)
    ensures Attach(Attach(fs, kind, media, target), kind, media, target) == Attach(fs, kind, media, target)
  {
    var once := Attach(fs, kind, media, target);
    var twice := Attach(once, kind, media, target);
    forall i | 0 <= i < |fs| ensures twice[i] == once[i] {
      assert once[i].id == fs[i].id;
      if target != Some(once[i].id) && once[i].Ref(kind) == Some(media) {
        assert false;
      }
    }
  }

  /** Attaching keeps the symlink references, so the symlink's file is the same afterwards. */
  lemma {:induction false} AttachKeepsSymlinkFile(s: Store, kind: MediaKind, media: Key, target: Option<Key>, sym: Key)
    ensures SymlinkFile(s.(files := Attach(s.files, kind, media, target)), sym) == SymlinkFile(s, sym)
  {
    var fs := Attach(s.files, kind, media, target);
    var p := (f: TorrentFile) => f.symlinkId == Some(sym);
    forall i | 0 <= i < |fs| ensures p(fs[i]) == p(s.files[i]) && fs[i].id == s.files[i].id {
    }
    FirstIndexPointwise(s.files, fs, p);
  }

  /** `FirstIndex` depends only on where the predicate holds. */
  lemma {:induction false} FirstIndexPointwise<T>(xs: seq<T>, ys: seq<T>, p: T -> bool)
    requires |xs| == |ys|
    requires forall i :: 0 <= i < |xs| ==> p(xs[i]) == p(ys[i])
    ensures FirstIndex(xs, p) == FirstIndex(ys, p)
    decreases |xs|
  {
    if |xs| > 0 {
      FirstIndexPointwise(xs[1..], ys[1..], p);
    }
  }

  /** Firing the hook a second time changes nothing. */
  lemma {:induction false} HookIdempotent(s: Store, sym: Key)
    ensures Hook(Hook(s, sym), sym) == Hook(s, sym)
  {
    var h := Hook(s, sym);
    assert LinkedMedia(h, MovieKind, sym) == LinkedMedia(s, MovieKind, sym);
    assert LinkedMedia(h, EpisodeKind, sym) == LinkedMedia(s, EpisodeKind, sym);
    match LinkedMedia(s, MovieKind, sym)
    case Some(m) =>
      AttachKeepsSymlinkFile(s, MovieKind, m, SymlinkFile(s, sym), sym);
      AttachIdempotent(s.files, MovieKind, m, SymlinkFile(s, sym));
    case None =>
      match LinkedMedia(s, EpisodeKind, sym)
      case Some(e) =>
        AttachKeepsSymlinkFile(s, EpisodeKind, e, SymlinkFile(s, sym), sym);
        AttachIdempotent(s.files, EpisodeKind, e, SymlinkFile(s, sym));
      case None =>
  }

  /** The hook only moves media references between existing rows, so it keeps the store valid. */
  lemma {:induction false} HookValid(s: Store, sym: Key)
    requires Valid(s)
    ensures Valid(Hook(s, sym))
  {
    var r := Hook(s, sym);
    if r.files != s.files {
      var kind := if LinkedMedia(s, MovieKind, sym).Some? then MovieKind else EpisodeKind;
      var media := LinkedMedia(s, kind, sym).value;
      assert r.files == Attach(s.files, kind, media, SymlinkFile(s, sym));
      assert media < s.nextKey by {
        if kind == MovieKind {
          var m :| m in s.movies && m.id == media && m.symlinkId == Some(sym);
          var k :| 0 <= k < |s.movies| && s.movies[k] == m;
          assert MovieOk(s.movies[k], s.nextKey);
        } else {
          var e :| e in s.episodes && e.id == media && e.symlinkId == Some(sym);
          var k :| 0 <= k < |s.episodes| && s.episodes[k] == e;
          assert EpisodeOk(s.episodes[k], s.nextKey);
        }
      }
      AttachValid(s, kind, media, SymlinkFile(s, sym));
    }
  }

  /** Attaching an existing media key keeps the file keys unique and below the counter. */
  lemma {:induction false} AttachValid(s: Store, kind: MediaKind, media: Key, target: Option<Key>)
    requires Valid(s) && media < s.nextKey
    ensures Valid(s.(files := Attach(s.files, kind, media, target)))
  {
    var fs := Attach(s.files, kind, media, target);
    assert Map(fs, (f: TorrentFile) => f.id) == Map(s.files, (f: TorrentFile) => f.id);
    forall i | 0 <= i < |fs| ensures FileKeysBelow(fs[i], s.nextKey) {
      assert FileKeysBelow(s.files[i], s.nextKey);
    }
  }

  /**
    A symlink nobody references yet: the hook fired right after inserting it
    changes nothing, because no movie or episode can already point at a
    fresh key.
   */
  lemma {:induction false} HookOnFreshSymlink(s: Store, sym: Key)
    requires Valid(s) && sym >= s.nextKey
    ensures Hook(s, sym) == s
  {
    forall i | 0 <= i < |s.movies| ensures s.movies[i].symlinkId != Some(sym) {
      assert MovieOk(s.movies[i], s.nextKey);
    }
    forall i | 0 <= i < |s.episodes| ensures s.episodes[i].symlinkId != Some(sym) {
      assert EpisodeOk(s.episodes[i], s.nextKey);
    }
  }
}

=== FILE: mediainfo_process.dfy ===
/**
  Media-info sync (`tasks/mediainfo_process.py`): the shaped episodes and
  movies whose provider file id is not stored yet are inserted, episodes
  first.
 */
module MediainfoProcess {
  import opened Wrappers
  import opened Seqs
  import opened MediaModel
  import opened MediaDao
  import opened ArrinfoApi

  /**
    `_get_sonarr_new_episodes` / `_get_radarr_new_movies` after the fetch:
    with nothing stored, everything fetched; otherwise the items whose file
    id is not stored, in order, or None when there are none.
   */
  function NewItems<T(!new)>(fetched: seq<T>, fileId: T -> Option<int>, stored: Option<seq<Option<int>>>): (r: Option<seq<T>>)
    ensures stored.None? ==> r == Some(fetched)
    ensures stored.Some? ==> (r.None? <==> forall i :: 0 <= i < |fetched| ==> fileId(fetched[i]) in stored.value)
    ensures stored.Some? && r.Some? ==> |r.value| > 0 && IsSubsequence(r.value, fetched)
    ensures stored.Some? && r.Some? ==> forall x :: x in r.value <==> x in fetched && fileId(x) !in stored.value
    ensures stored.Some? && r.Some? ==> forall x ::
      multiset(r.value)[x] == if fileId(x) in stored.value then 0 else multiset(fetched)[x]
  {
    if stored.None? then Some(fetched)
    else
      var isNew := (x: T) => fileId(x) !in stored.value;
      var unseen := Filter(fetched, isNew);
      FilterMembershipAll(fetched, isNew);
      FilterIsSubsequence(fetched, isNew);
      FilterMultisetAll(fetched, isNew);
      if |unseen| == 0 then
        assert forall i :: 0 <= i < |fetched| ==> fetched[i] in fetched;
        None
      else
        assert unseen[0] in unseen;
        Some(unseen)
  }

  function EpisodeFileId(e: EpisodeData): Option<int> {
    e.episodefileId
  }

  function MovieFileId(m: MovieData): Option<int> {
    m.fileId
  }

  /** Some stored episode carries this provider file id. */
  predicate EpisodeStored(s: Store, id: Option<int>) {
    exists i :: 0 <= i < |s.episodes| && s.episodes[i].data.episodefileId == id
  }

  /** Some stored movie carries this provider file id. */
  predicate MovieStored(s: Store, id: Option<int>) {
    exists i :: 0 <= i < |s.movies| && s.movies[i].data.fileId == id
  }

  lemma {:induction false} EpisodeFileIdsMembership(s: Store, id: Option<int>)
    ensures EpisodeFileIds(s).Some? && id in EpisodeFileIds(s).value <==> EpisodeStored(s, id)
  {
    if EpisodeStored(s, id) {
      var i :| 0 <= i < |s.episodes| && s.episodes[i].data.episodefileId == id;
      assert EpisodeFileIds(s).value[i] == id;
    }
  }

  lemma {:induction false} MovieFileIdsMembership(s: Store, id: Option<int>)
    ensures MovieFileIds(s).Some? && id in MovieFileIds(s).value <==> MovieStored(s, id)
  {
    if MovieStored(s, id) {
      var i :| 0 <= i < |s.movies| && s.movies[i].data.fileId == id;
      assert MovieFileIds(s).value[i] == id;
    }
  }

  // ---------------------------------------------------------------------
  // Inserting
  // ---------------------------------------------------------------------

  /** `_add_sonarr_episodes_to_db`: one create call per episode, in order. */
  function AddEpisodes(s: Store, es: seq<EpisodeData>, now: Time): (r: Store)
    requires Valid(s)
    ensures Valid(r)
    ensures r.torrents == s.torrents && r.files == s.files && r.symlinks == s.symlinks && r.movies == s.movies
    ensures |s.episodes| <= |r.episodes| && r.episodes[..|s.episodes|] == s.episodes
    decreases |es|
  {
    if |es| == 0 then s
    else
      var s1 := CreateEpisode(s, es[0], now);
      assert s1.episodes[..|s.episodes|] == s.episodes;
      var r := AddEpisodes(s1, es[1..], now);
      assert r.episodes[..|s.episodes|] == r.episodes[..|s1.episodes|][..|s.episodes|];
      r
  }

  /** `_add_radarr_movies_to_db`: one create call per movie, in order. */
  function AddMovies(s: Store, ms: seq<MovieData>, now: Time): (r: Store)
    requires Valid(s)
    ensures Valid(r)
    ensures r.torrents == s.torrents && r.files == s.files && r.symlinks == s.symlinks && r.episodes == s.episodes
    ensures |s.movies| <= |r.movies| && r.movies[..|s.movies|] == s.movies
    decreases |ms|
  {
    if |ms| == 0 then s
    else
      var s1 := CreateMovie(s, ms[0], now);
      assert s1.movies[..|s.movies|] == s.movies;
      var r := AddMovies(s1, ms[1..], now);
      assert r.movies[..|s.movies|] == r.movies[..|s1.movies|][..|s.movies|];
      r
  }

  /** The episode rows stored for `ds`, keyed from `from` on. */
  function EpisodeRows(ds: seq<EpisodeData>, from: Key, now: Time): (r: seq<Episode>)
    ensures |r| == |ds|
    ensures forall i :: 0 <= i < |ds| ==> r[i] == Episode(from + i, now, ds[i], None)
  {
    seq(|ds|, i requires 0 <= i < |ds| => Episode(from + i, now, ds[i], None))
  }

  /** The movie rows stored for `ds`, keyed from `from` on. */
  function MovieRows(ds: seq<MovieData>, from: Key, now: Time): (r: seq<Movie>)
    ensures |r| == |ds|
    ensures forall i :: 0 <= i < |ds| ==> r[i] == Movie(from + i, now, ds[i], None)
  {
    seq(|ds|, i requires 0 <= i < |ds| => Movie(from + i, now, ds[i], None))
  }

  /**
    Exactly the episodes with every NOT NULL column are stored, in list
    order, under consecutive fresh keys; the others are rolled back.
   */
  lemma {:induction false} AddEpisodesEffect(s: Store, es: seq<EpisodeData>, now: Time)
    requires Valid(s)
    ensures var r := AddEpisodes(s, es, now);
            var ok := Filter(es, EpisodeColumnsOk);
            r.episodes == s.episodes + EpisodeRows(ok, s.nextKey, now) && r.nextKey == s.nextKey + |ok|
    decreases |es|
  {
    if |es| > 0 {
      var s1 := CreateEpisode(s, es[0], now);
      assert AddEpisodes(s, es, now) == AddEpisodes(s1, es[1..], now);
      AddEpisodesEffect(s1, es[1..], now);
      if EpisodeColumnsOk(es[0]) {
        AddEpisodesKept(s, s1, es, now);
      } else {
        AddEpisodesDropped(s, s1, es, now);
      }
    }
  }

  lemma {:induction false} AddEpisodesKept(s: Store, s1: Store, es: seq<EpisodeData>, now: Time)
    requires |es| > 0 && EpisodeColumnsOk(es[0])
    requires s1.episodes == s.episodes + [Episode(s.nextKey, now, es[0], None)] && s1.nextKey == s.nextKey + 1
    ensures var rest := Filter(es[1..], EpisodeColumnsOk);
            && Filter(es, EpisodeColumnsOk) == [es[0]] + rest
            && s1.episodes + EpisodeRows(rest, s1.nextKey, now) == s.episodes + EpisodeRows([es[0]] + rest, s.nextKey, now)
  {
    var rest := Filter(es[1..], EpisodeColumnsOk);
    var res := EpisodeRows(rest, s.nextKey + 1, now);
    assert EpisodeRows([es[0]] + rest, s.nextKey, now) == [Episode(s.nextKey, now, es[0], None)] + res;
    AppendAssoc(s.episodes, [Episode(s.nextKey, now, es[0], None)], res);
  }

  lemma {:induction false} AddEpisodesDropped(s: Store, s1: Store, es: seq<EpisodeData>, now: Time)
    requires |es| > 0 && !EpisodeColumnsOk(es[0])
    ensures Filter(es, EpisodeColumnsOk) == Filter(es[1..], EpisodeColumnsOk)
  {
  }


  /**
    Exactly the movies with every NOT NULL column are stored, in list
    order, under consecutive fresh keys; the others are rolled back.
   */
  lemma {:induction false} AddMoviesEffect(s: Store, ms: seq<MovieData>, now: Time)
    requires Valid(s)
    ensures var r := AddMovies(s, ms, now);
            var ok := Filter(ms, MovieColumnsOk);
            r.movies == s.movies + MovieRows(ok, s.nextKey, now) && r.nextKey == s.nextKey + |ok|
    decreases |ms|
  {
    if |ms| > 0 {
      var s1 := CreateMovie(s, ms[0], now);
      assert AddMovies(s, ms, now) == AddMovies(s1, ms[1..], now);
      AddMoviesEffect(s1, ms[1..], now);
      if MovieColumnsOk(ms[0]) {
        AddMoviesKept(s, s1, ms, now);
      } else {
        AddMoviesDropped(s, s1, ms, now);
      }
    }
  }

  lemma {:induction false} AddMoviesKept(s: Store, s1: Store, ms: seq<MovieData>, now: Time)
    requires |ms| > 0 && MovieColumnsOk(ms[0])
    requires s1.movies == s.movies + [Movie(s.nextKey, now, ms[0], None)] && s1.nextKey == s.nextKey + 1
    ensures var rest := Filter(ms[1..], MovieColumnsOk);
            && Filter(ms, MovieColumnsOk) == [ms[0]] + rest
            && s1.movies + MovieRows(rest, s1.nextKey, now) == s.movies + MovieRows([ms[0]] + rest, s.nextKey, now)
  {
    var rest := Filter(ms[1..], MovieColumnsOk);
    var rms := MovieRows(rest, s.nextKey + 1, now);
    assert MovieRows([ms[0]] + rest, s.nextKey, now) == [Movie(s.nextKey, now, ms[0], None)] + rms;
    AppendAssoc(s.movies, [Movie(s.nextKey, now, ms[0], None)], rms);
  }

  lemma {:induction false} AddMoviesDropped(s: Store, s1: Store, ms: seq<MovieData>, now: Time)
    requires |ms| > 0 && !MovieColumnsOk(ms[0])
    ensures Filter(ms, MovieColumnsOk) == Filter(ms[1..], MovieColumnsOk)
  {
  }


  /** Inserting only incomplete episodes changes nothing. */
  lemma {:induction false} AddEpisodesAllRolledBack(s: Store, es: seq<EpisodeData>, now: Time)
    requires Valid(s)
    requires forall i :: 0 <= i < |es| ==> !EpisodeColumnsOk(es[i])
    ensures AddEpisodes(s, es, now) == s
    decreases |es|
  {
    if |es| > 0 {
      AddEpisodesAllRolledBack(s, es[1..], now);
    }
  }

  /** Inserting only incomplete movies changes nothing. */
  lemma {:induction false} AddMoviesAllRolledBack(s: Store, ms: seq<MovieData>, now: Time)
    requires Valid(s)
    requires forall i :: 0 <= i < |ms| ==> !MovieColumnsOk(ms[i])
    ensures AddMovies(s, ms, now) == s
    decreases |ms|
  {
    if |ms| > 0 {
      AddMoviesAllRolledBack(s, ms[1..], now);
    }
  }

  /** Every complete episode handed to the insert loop is stored afterwards. */
  lemma {:induction false} AddEpisodesStores(s: Store, es: seq<EpisodeData>, now: Time)
    requires Valid(s)
    ensures forall e :: e in es && EpisodeColumnsOk(e) ==> EpisodeStored(AddEpisodes(s, es, now), e.episodefileId)
  {
    AddEpisodesEffect(s, es, now);
    var r := AddEpisodes(s, es, now);
    var ok := Filter(es, EpisodeColumnsOk);
    forall e | e in es && EpisodeColumnsOk(e)
      ensures EpisodeStored(r, e.episodefileId)
    {
      FilterMembership(es, EpisodeColumnsOk, e);
      var k :| 0 <= k < |ok| && ok[k] == e;
      assert r.episodes[|s.episodes| + k] == EpisodeRows(ok, s.nextKey, now)[k];
    }
  }

  /** Every complete movie handed to the insert loop is stored afterwards. */
  lemma {:induction false} AddMoviesStores(s: Store, ms: seq<MovieData>, now: Time)
    requires Valid(s)
    ensures forall m :: m in ms && MovieColumnsOk(m) ==> MovieStored(AddMovies(s, ms, now), m.fileId)
  {
    AddMoviesEffect(s, ms, now);
    var r := AddMovies(s, ms, now);
    var ok := Filter(ms, MovieColumnsOk);
    forall m | m in ms && MovieColumnsOk(m)
      ensures MovieStored(r, m.fileId)
    {
      FilterMembership(ms, MovieColumnsOk, m);
      var k :| 0 <= k < |ok| && ok[k] == m;
      assert r.movies[|s.movies| + k] == MovieRows(ok, s.nextKey, now)[k];
    }
  }

  // ---------------------------------------------------------------------
  // The two passes and the whole sync
  // ---------------------------------------------------------------------

  /** The episode half of `process_mediainfo`; an empty or None result inserts nothing. */
  function EpisodePass(s: Store, fetched: seq<EpisodeData>, now: Time): (r: Store)
    requires Valid(s)
    ensures Valid(r)
    ensures r.torrents == s.torrents && r.files == s.files && r.symlinks == s.symlinks && r.movies == s.movies
    ensures |s.episodes| <= |r.episodes| && r.episodes[..|s.episodes|] == s.episodes
  {
    match NewItems(fetched, EpisodeFileId, EpisodeFileIds(s))
    case None => s
    case Some(es) => if |es| == 0 then s else AddEpisodes(s, es, now)
  }

  /** The movie half of `process_mediainfo`. */
  function MoviePass(s: Store, fetched: seq<MovieData>, now: Time): (r: Store)
    requires Valid(s)
    ensures Valid(r)
    ensures r.torrents == s.torrents && r.files == s.files && r.symlinks == s.symlinks && r.episodes == s.episodes
    ensures |s.movies| <= |r.movies| && r.movies[..|s.movies|] == s.movies
  {
    match NewItems(fetched, MovieFileId, MovieFileIds(s))
    case None => s
    case Some(ms) => if |ms| == 0 then s else AddMovies(s, ms, now)
  }

  /** The complete fetched episodes are all stored. */
  predicate EpisodesCovered(s: Store, fetched: seq<EpisodeData>) {
    forall e :: e in fetched && EpisodeColumnsOk(e) ==> EpisodeStored(s, e.episodefileId)
  }

  /** The complete fetched movies are all stored. */
  predicate MoviesCovered(s: Store, fetched: seq<MovieData>) {
    forall m :: m in fetched && MovieColumnsOk(m) ==> MovieStored(s, m.fileId)
  }

  /** After the episode pass, every complete fetched episode is stored. */
  lemma {:induction false} EpisodePassCovers(s: Store, fetched: seq<EpisodeData>, now: Time)
    requires Valid(s)
    ensures EpisodesCovered(EpisodePass(s, fetched, now), fetched)
  {
    var r := EpisodePass(s, fetched, now);
    var stored := EpisodeFileIds(s);
    var chosen := NewItems(fetched, EpisodeFileId, stored);
    if chosen.Some? && |chosen.value| > 0 {
      AddEpisodesStores(s, chosen.value, now);
    }
    forall e | e in fetched && EpisodeColumnsOk(e)
      ensures EpisodeStored(r, e.episodefileId)
    {
      EpisodeFileIdsMembership(s, e.episodefileId);
      if EpisodeStored(s, e.episodefileId) {
        var i :| 0 <= i < |s.episodes| && s.episodes[i].data.episodefileId == e.episodefileId;
        assert r.episodes[i] == s.episodes[i];
      }
    }
  }

  /** After the movie pass, every complete fetched movie is stored. */
  lemma {:induction false} MoviePassCovers(s: Store, fetched: seq<MovieData>, now: Time)
    requires Valid(s)
    ensures MoviesCovered(MoviePass(s, fetched, now), fetched)
  {
    var r := MoviePass(s, fetched, now);
    var stored := MovieFileIds(s);
    var chosen := NewItems(fetched, MovieFileId, stored);
    if chosen.Some? && |chosen.value| > 0 {
      AddMoviesStores(s, chosen.value, now);
    }
    forall m | m in fetched && MovieColumnsOk(m)
      ensures MovieStored(r, m.fileId)
    {
      MovieFileIdsMembership(s, m.fileId);
      if MovieStored(s, m.fileId) {
        var i :| 0 <= i < |s.movies| && s.movies[i].data.fileId == m.fileId;
        assert r.movies[i] == s.movies[i];
      }
    }
  }

  /** When every complete fetched episode is already stored, the pass changes nothing. */
  lemma {:induction false} EpisodePassFixpoint(s: Store, fetched: seq<EpisodeData>, now: Time)
    requires Valid(s) && EpisodesCovered(s, fetched)
    ensures EpisodePass(s, fetched, now) == s
  {
    var chosen := NewItems(fetched, EpisodeFileId, EpisodeFileIds(s));
    if chosen.Some? && |chosen.value| > 0 {
      forall i | 0 <= i < |chosen.value| ensures !EpisodeColumnsOk(chosen.value[i]) {
        var e := chosen.value[i];
        if EpisodeFileIds(s).Some? {
          assert e in chosen.value;
          EpisodeFileIdsMembership(s, e.episodefileId);
        } else {
          assert e in fetched;
          EpisodeFileIdsMembership(s, e.episodefileId);
        }
      }
      AddEpisodesAllRolledBack(s, chosen.value, now);
    }
  }

  /** When every complete fetched movie is already stored, the pass changes nothing. */
  lemma {:induction false} MoviePassFixpoint(s: Store, fetched: seq<MovieData>, now: Time)
    requires Valid(s) && MoviesCovered(s, fetched)
    ensures MoviePass(s, fetched, now) == s
  {
    var chosen := NewItems(fetched, MovieFileId, MovieFileIds(s));
    if chosen.Some? && |chosen.value| > 0 {
      forall i | 0 <= i < |chosen.value| ensures !MovieColumnsOk(chosen.value[i]) {
        var m := chosen.value[i];
        if MovieFileIds(s).Some? {
          assert m in chosen.value;
          MovieFileIdsMembership(s, m.fileId);
        } else {
          assert m in fetched;
          MovieFileIdsMembership(s, m.fileId);
        }
      }
      AddMoviesAllRolledBack(s, chosen.value, now);
    }
  }

  /** The provider answers one run of media-info sync sees. */
  datatype Responses = Responses(
    movies: Response<RadarrMovie>,
    series: Response<Serie>,
    filesOf: int -> Response<EpisodeFile>,
    infosOf: int -> InfoResponse)

  /** `process_mediainfo`: the episode pass, then the movie pass. */
  function ProcessMediainfo(s: Store, resp: Responses, now: Time): (r: Store)
    requires Valid(s)
    ensures Valid(r)
    ensures r.torrents == s.torrents && r.files == s.files && r.symlinks == s.symlinks
    ensures |s.episodes| <= |r.episodes| && r.episodes[..|s.episodes|] == s.episodes
    ensures |s.movies| <= |r.movies| && r.movies[..|s.movies|] == s.movies
  {
    var s1 := EpisodePass(s, GetSonarrInfo(resp.series, resp.filesOf, resp.infosOf), now);
    MoviePass(s1, GetRadarrInfo(resp.movies), now)
  }

  /** A second run against the same provider answers changes nothing. */
  lemma {:induction false} ProcessMediainfoIdempotent(s: Store, resp: Responses, now: Time, later: Time)
    requires Valid(s)
    ensures var r := ProcessMediainfo(s, resp, now);
            ProcessMediainfo(r, resp, later) == r
  {
    var episodes := GetSonarrInfo(resp.series, resp.filesOf, resp.infosOf);
    var movies := GetRadarrInfo(resp.movies);
    var s1 := EpisodePass(s, episodes, now);
    var r := MoviePass(s1, movies, now);
    EpisodePassCovers(s, episodes, now);
    MoviePassCovers(s1, movies, now);
    assert EpisodesCovered(r, episodes) by {
      forall e | e in episodes && EpisodeColumnsOk(e) ensures EpisodeStored(r, e.episodefileId) {
        assert EpisodeStored(s1, e.episodefileId);
      }
    }
    EpisodePassFixpoint(r, episodes, later);
    MoviePassFixpoint(r, movies, later);
  }

  /** With nothing stored, every fetched episode is handed to the insert loop. */
  lemma {:induction false} EmptyStoreTakesAllEpisodes(s: Store, fetched: seq<EpisodeData>, now: Time)
    requires Valid(s) && |s.episodes| == 0 && |fetched| > 0
    ensures EpisodePass(s, fetched, now) == AddEpisodes(s, fetched, now)
  {
  }

  /** An episode whose file id is stored is never inserted again. */
  lemma {:induction false} StoredEpisodeSkipped(s: Store, fetched: seq<EpisodeData>, e: EpisodeData, now: Time)
    requires Valid(s) && EpisodeStored(s, e.episodefileId)
    ensures match NewItems(fetched, EpisodeFileId, EpisodeFileIds(s))
            case None => true
            case Some(es) => e !in es
  {
    EpisodeFileIdsMembership(s, e.episodefileId);
  }
}

=== FILE: paths.dfy ===
/**
  POSIX path arithmetic as Python's `posixpath` performs it: `basename`,
  `dirname`, `join`, `isabs`, `normpath` and `abspath`. The symlink scan
  resolves a link's target with `abspath(join(dirname(link), readlink(link)))`
  and keys files by `basename`, so these are modelled exactly, including
  the special case of exactly two leading slashes in `normpath`.
 */
module Paths {

  const Sep: char := '/'

  predicate IsAbs(p: string) {
    |p| > 0 && p[0] == Sep
  }

  /** `p.rfind('/')`: the index of the last separator, or -1. */
  function RFind(p: string): (r: int)
    ensures -1 <= r < |p|
    ensures r >= 0 ==> p[r] == Sep
    ensures forall k :: r < k < |p| ==> p[k] != Sep
    decreases |p|
  {
    if |p| == 0 then -1
    else if p[|p| - 1] == Sep then |p| - 1
    else RFind(p[..|p| - 1])
  }

  /** `os.path.basename`: the text after the last separator. */
  function Basename(p: string): string {
    p[RFind(p) + 1..]
  }

  /**
    The basename is a separator-free suffix of the path, preceded by a
    separator whenever it is not the whole path.
   */
  lemma {:induction false} BasenameShape(p: string)
    ensures Sep !in Basename(p)
    ensures |Basename(p)| <= |p| && p[|p| - |Basename(p)|..] == Basename(p)
    ensures |Basename(p)| < |p| ==> p[|p| - |Basename(p)| - 1] == Sep
  {
    var r := Basename(p);
    forall k | 0 <= k < |r| ensures r[k] != Sep {
      assert r[k] == p[RFind(p) + 1 + k];
    }
  }

  /** The text up to and including the last separator. */
  function Head(p: string): string {
    p[..RFind(p) + 1]
  }

  predicate AllSeps(h: string) {
    forall k :: 0 <= k < |h| ==> h[k] == Sep
  }

  /** `h.rstrip('/')`. */
  function RStripSeps(h: string): (r: string)
    ensures |r| <= |h| && h[..|r|] == r
    ensures |r| > 0 ==> r[|r| - 1] != Sep
    ensures AllSeps(h[|r|..])
    decreases |h|
  {
    if |h| > 0 && h[|h| - 1] == Sep then RStripSeps(h[..|h| - 1]) else h
  }

  /**
    `os.path.dirname`: the head without its trailing separators, unless the
    head consists of separators only.
   */
  function Dirname(p: string): (r: string)
    ensures |r| <= |p| && p[..|r|] == r
    ensures Sep !in p ==> r == ""
    ensures IsAbs(p) ==> IsAbs(r)
  {
    var head := Head(p);
    if |head| > 0 && !AllSeps(head) then RStripSeps(head) else head
  }

  /** `os.path.join(a, b)`: an absolute `b` replaces `a`. */
  function Join(a: string, b: string): (r: string)
    ensures IsAbs(b) ==> r == b
    ensures !IsAbs(b) ==> |r| >= |a| && r[..|a|] == a
    ensures IsAbs(a) ==> IsAbs(r)
  {
    if IsAbs(b) then b
    else if |a| == 0 || a[|a| - 1] == Sep then a + b
    else a + [Sep] + b
  }

  /** `p.split('/')`: always at least one (possibly empty) component. */
  function Split(p: string): (r: seq<string>)
    ensures |r| >= 1
    decreases |p|
  {
    if |p| == 0 then [""]
    else
      var rest := Split(p[1..]);
      if p[0] == Sep then [""] + rest
      else [[p[0]] + rest[0]] + rest[1..]
  }

  /** No component of a split contains the separator. */
  lemma {:induction false} SplitHasNoSep(p: string)
    ensures forall i :: 0 <= i < |Split(p)| ==> Sep !in Split(p)[i]
    decreases |p|
  {
    if |p| > 0 {
      SplitHasNoSep(p[1..]);
    }
  }

  /** `'/'.join(cs)`. */
  function JoinWith(cs: seq<string>): string
    decreases |cs|
  {
    if |cs| == 0 then ""
    else if |cs| == 1 then cs[0]
    else cs[0] + [Sep] + JoinWith(cs[1..])
  }

  lemma {:induction false} SplitWithoutSep(w: string)
    requires Sep !in w
    ensures Split(w) == [w]
    decreases |w|
  {
    if |w| > 0 {
      SplitWithoutSep(w[1..]);
      assert w == [w[0]] + w[1..];
    }
  }

  lemma {:induction false} SplitWordThenSep(w: string, rest: string)
    requires Sep !in w
    ensures Split(w + [Sep] + rest) == [w] + Split(rest)
    decreases |w|
  {
    if |w| == 0 {
      assert w + [Sep] + rest == [Sep] + rest;
      assert ([Sep] + rest)[1..] == rest;
    } else {
      var p := w + [Sep] + rest;
      assert p[1..] == w[1..] + [Sep] + rest;
      SplitWordThenSep(w[1..], rest);
      assert [p[0]] + w[1..] == w;
    }
  }

  /** Splitting a joined list of separator-free components gives them back. */
  lemma {:induction false} SplitJoinWith(cs: seq<string>)
    requires |cs| >= 1
    requires forall i :: 0 <= i < |cs| ==> Sep !in cs[i]
    ensures Split(JoinWith(cs)) == cs
    decreases |cs|
  {
    if |cs| == 1 {
      SplitWithoutSep(cs[0]);
    } else {
      SplitJoinWith(cs[1..]);
      SplitWordThenSep(cs[0], JoinWith(cs[1..]));
      assert cs == [cs[0]] + cs[1..];
    }
  }

  /** Joining the components of a split gives back the path. */
  lemma {:induction false} JoinWithSplit(p: string)
    ensures JoinWith(Split(p)) == p
    decreases |p|
  {
    if |p| > 0 {
      JoinWithSplit(p[1..]);
      var rest := Split(p[1..]);
      if p[0] == Sep {
        assert Split(p) == [""] + rest;
        assert ([""] + rest)[1..] == rest;
        assert p == [Sep] + p[1..];
      } else {
        var s := [[p[0]] + rest[0]] + rest[1..];
        assert Split(p) == s;
        if |rest| == 1 {
          assert p == [p[0]] + p[1..];
        } else {
          assert s[1..] == rest[1..];
          assert JoinWith(rest) == rest[0] + [Sep] + JoinWith(rest[1..]);
          assert p == [p[0]] + p[1..];
        }
      }
    }
  }

  /** The last separator of `p`, located from the last separator of its tail. */
  lemma {:induction false} RFindShift(p: string)
    requires |p| > 0
    ensures RFind(p) == (if RFind(p[1..]) >= 0 then RFind(p[1..]) + 1
                         else if p[0] == Sep then 0 else -1)
    decreases |p|
  {
    if |p| > 1 && p[|p| - 1] != Sep {
      var q := p[..|p| - 1];
      RFindShift(q);
      assert q[1..] == p[1..][..|p[1..]| - 1];
    }
  }

  /** Without any separator, a path is its own single component. */
  lemma {:induction false} RFindMissingSplit(q: string)
    requires RFind(q) == -1
    ensures Split(q) == [q]
  {
    SplitWithoutSep(q);
  }

  function Last(cs: seq<string>): string
    requires |cs| > 0
  {
    cs[|cs| - 1]
  }

  /** The basename is the last component of the split. */
  lemma {:induction false} BasenameIsLastComponent(p: string)
    ensures Basename(p) == Last(Split(p))
    decreases |p|
  {
    if |p| == 0 {
      assert Split(p) == [""];
      assert Basename(p) == "";
    } else {
      BasenameIsLastComponent(p[1..]);
      BasenameIsLastStep(p);
    }
  }

  lemma {:induction false} BasenameIsLastStep(p: string)
    requires |p| > 0
    requires Basename(p[1..]) == Last(Split(p[1..]))
    ensures Basename(p) == Last(Split(p))
  {
    LastWhenTailHasSep(p);
    LastAfterRoot(p);
    LastWithoutSep(p);
  }

  lemma {:induction false} LastWhenTailHasSep(p: string)
    requires |p| > 0
    requires Basename(p[1..]) == Last(Split(p[1..]))
    ensures RFind(p[1..]) >= 0 ==> Basename(p) == Last(Split(p))
  {
    if RFind(p[1..]) >= 0 {
      SepMeansSplit(p[1..]);
      BasenameFound(p);
      SplitLastOfTail(p);
    }
  }

  lemma {:induction false} LastAfterRoot(p: string)
    requires |p| > 0
    requires Basename(p[1..]) == Last(Split(p[1..]))
    ensures RFind(p[1..]) < 0 && p[0] == Sep ==> Basename(p) == Last(Split(p))
  {
    if RFind(p[1..]) < 0 && p[0] == Sep {
      BasenameRoot(p);
      SplitLastOfTail(p);
    }
  }

  lemma {:induction false} LastWithoutSep(p: string)
    requires |p| > 0
    ensures RFind(p[1..]) < 0 && p[0] != Sep ==> Basename(p) == Last(Split(p))
  {
    if RFind(p[1..]) < 0 && p[0] != Sep {
      BasenameWithoutSep(p);
    }
  }

  /** A path containing a separator splits into at least two components. */
  lemma {:induction false} SepMeansSplit(q: string)
    requires RFind(q) >= 0
    ensures |Split(q)| > 1
  {
    if |Split(q)| == 1 {
      SplitOneMeansNoSep(q);
    }
  }

  /** When the first character is a separator or the tail splits, `p` ends like its tail. */
  lemma {:induction false} SplitLastOfTail(p: string)
    requires |p| > 0
    requires p[0] == Sep || |Split(p[1..])| > 1
    ensures Last(Split(p)) == Last(Split(p[1..]))
  {
  }

  /** A separator in the tail is the last separator of the whole path too. */
  lemma {:induction false} BasenameFound(p: string)
    requires |p| > 0
    requires RFind(p[1..]) >= 0
    ensures Basename(p) == Basename(p[1..])
  {
    RFindShift(p);
    var r1 := RFind(p[1..]);
    assert p[r1 + 2..] == p[1..][r1 + 1..];
  }

  /** A leading separator alone is the last separator when the tail has none. */
  lemma {:induction false} BasenameRoot(p: string)
    requires |p| > 0 && p[0] == Sep
    requires RFind(p[1..]) == -1
    ensures Basename(p) == Basename(p[1..])
  {
    RFindShift(p);
  }

  /** A path without separators is its own basename and its own single component. */
  lemma {:induction false} BasenameWithoutSep(p: string)
    requires |p| > 0 && p[0] != Sep && RFind(p[1..]) == -1
    ensures Basename(p) == p
    ensures Split(p) == [p]
  {
    RFindShift(p);
    RFindMissingSplit(p[1..]);
    assert [p[0]] + p[1..] == p;
  }

  lemma {:induction false} RFindNoSep(p: string)
    requires forall k :: 0 <= k < |p| ==> p[k] != Sep
    ensures RFind(p) == -1
  {
  }

  lemma {:induction false} SplitOneMeansNoSep(p: string)
    requires |Split(p)| == 1
    ensures forall k :: 0 <= k < |p| ==> p[k] != Sep
    decreases |p|
  {
    if |p| > 0 {
      SplitOneMeansNoSep(p[1..]);
      forall k | 0 <= k < |p| ensures p[k] != Sep {
        if k > 0 { assert p[k] == p[1..][k - 1]; }
      }
    }
  }

  /** A proper path component: neither empty, `.`, `..`, nor containing `/`. */
  predicate IsName(c: string) {
    c != "" && c != "." && c != ".." && Sep !in c
  }

  /** One step of `normpath`'s component loop. */
  function NormStep(stack: seq<string>, c: string, rooted: bool): seq<string> {
    if c == "" || c == "." then stack
    else if c != ".." || (!rooted && |stack| == 0) || (|stack| > 0 && stack[|stack| - 1] == "..") then stack + [c]
    else if |stack| > 0 then stack[..|stack| - 1]
    else stack
  }

  /** The component loop of `normpath` over `comps`, left to right. */
  function NormComps(comps: seq<string>, rooted: bool): seq<string>
    decreases |comps|
  {
    if |comps| == 0 then []
    else NormStep(NormComps(comps[..|comps| - 1], rooted), comps[|comps| - 1], rooted)
  }

  /** Number of leading separators `normpath` keeps: two only for exactly `//`. */
  function LeadingSeps(p: string): nat {
    if !IsAbs(p) then 0
    else if |p| >= 2 && p[1] == Sep && !(|p| >= 3 && p[2] == Sep) then 2
    else 1
  }

  function SepString(n: nat): string {
    if n == 0 then "" else [Sep] + SepString(n - 1)
  }

  /** `os.path.normpath`. */
  function NormPath(p: string): (r: string)
    ensures |r| > 0
  {
    if p == "" then "."
    else
      var n := LeadingSeps(p);
      var joined := SepString(n) + JoinWith(NormComps(Split(p), n > 0));
      if joined == "" then "." else joined
  }

  /** `os.path.abspath`, with the process's working directory as a parameter. */
  function AbsPath(p: string, cwd: string): string {
    NormPath(if IsAbs(p) then p else Join(cwd, p))
  }

  /** Under a root, `normpath` keeps only proper names: `..` never survives. */
  lemma {:induction false} RootedNormCompsAreNames(comps: seq<string>)
    requires forall i :: 0 <= i < |comps| ==> Sep !in comps[i]
    ensures forall i :: 0 <= i < |NormComps(comps, true)| ==> IsName(NormComps(comps, true)[i])
    decreases |comps|
  {
    if |comps| > 0 {
      RootedNormCompsAreNames(comps[..|comps| - 1]);
    }
  }

  /** An absolute path stays absolute under `normpath`. */
  lemma {:induction false} NormPathKeepsRoot(p: string)
    requires IsAbs(p)
    ensures IsAbs(NormPath(p))
  {
    var n := LeadingSeps(p);
    assert SepString(n)[0] == Sep;
  }

  /** `normpath` leaves a list of proper names untouched. */
  lemma {:induction false} NormCompsOfNames(cs: seq<string>, rooted: bool)
    requires forall i :: 0 <= i < |cs| ==> IsName(cs[i])
    ensures NormComps([""] + cs, rooted) == cs
    decreases |cs|
  {
    if |cs| > 0 {
      var all := [""] + cs;
      assert all[..|all| - 1] == [""] + cs[..|cs| - 1];
      NormCompsOfNames(cs[..|cs| - 1], rooted);
      assert cs == cs[..|cs| - 1] + [cs[|cs| - 1]];
    } else {
      assert ([""] + cs)[..0] == [];
    }
  }

  lemma {:induction false} SplitRooted(cs: seq<string>)
    requires |cs| >= 1
    requires forall i :: 0 <= i < |cs| ==> IsName(cs[i])
    ensures Split([Sep] + JoinWith(cs)) == [""] + cs
  {
    var p := [Sep] + JoinWith(cs);
    assert p[1..] == JoinWith(cs);
    SplitJoinWith(cs);
  }

  lemma {:induction false} RootedLeadingSeps(cs: seq<string>)
    requires |cs| >= 1
    requires forall i :: 0 <= i < |cs| ==> IsName(cs[i])
    ensures LeadingSeps([Sep] + JoinWith(cs)) == 1
  {
    JoinWithHead(cs);
    var p := [Sep] + JoinWith(cs);
    assert p[1] == JoinWith(cs)[0] == cs[0][0];
    assert cs[0][0] in cs[0];
  }

  /**
    An absolute path made of proper names is already normal: `normpath` is
    the identity on it.
   */
  lemma {:induction false} NormPathOfNormal(cs: seq<string>)
    requires |cs| >= 1
    requires forall i :: 0 <= i < |cs| ==> IsName(cs[i])
    ensures NormPath([Sep] + JoinWith(cs)) == [Sep] + JoinWith(cs)
  {
    SplitRooted(cs);
    RootedLeadingSeps(cs);
    NormCompsOfNames(cs, true);
    assert SepString(1) == [Sep];
  }

  lemma {:induction false} JoinWithHead(cs: seq<string>)
    requires |cs| >= 1 && IsName(cs[0])
    ensures |JoinWith(cs)| >= 1 && JoinWith(cs)[0] == cs[0][0]
  {
  }

  /** The basename of a normal absolute path is its last name. */
  lemma {:induction false} BasenameOfNormal(cs: seq<string>)
    requires |cs| >= 1
    requires forall i :: 0 <= i < |cs| ==> IsName(cs[i])
    ensures Basename([Sep] + JoinWith(cs)) == cs[|cs| - 1]
  {
    BasenameIsLastComponent([Sep] + JoinWith(cs));
    SplitRooted(cs);
  }
}

=== FILE: scheduler.dfy ===
/**
  The background scheduler (`scheduler.py`): a persistent job list with
  fixed job defaults, the registration of the periodic database update job
  (added only when no job of that name is already stored), and what one
  firing of that job does to the store.
 */
module Scheduler {
  import opened Wrappers
  import opened MediaModel
  import opened TorrentsProcess
  import opened ArrinfoApi
  import opened MediainfoProcess

  /** The name the registration looks for and gives. */
  const UpdateJobName: string := "database_update_job"

  /** `sched_db_update_interval`, in minutes. */
  const UpdateIntervalMinutes: nat := 15

  datatype Trigger = Interval(minutes: nat)

  datatype Job = Job(name: string, trigger: Trigger)

  /** The job defaults: coalesce missed runs, one running instance, a 20-second grace time. */
  datatype Defaults = Defaults(coalesce: bool, maxInstances: nat, misfireGraceTime: nat)

  /** The scheduler with the jobs its persistent job store holds. */
  datatype SchedulerState = SchedulerState(defaults: Defaults, jobs: seq<Job>)

  /** `init_scheduler`: the jobs stored by earlier runs are kept, under the fixed defaults. */
  function InitScheduler(persisted: seq<Job>): (r: SchedulerState)
    ensures r.jobs == persisted
    ensures r.defaults.coalesce && r.defaults.maxInstances == 1 && r.defaults.misfireGraceTime == 20
  {
    SchedulerState(Defaults(true, 1, 20), persisted)
  }

  /** Some job in `jobs` carries `name`. */
  predicate HasJobNamed(jobs: seq<Job>, name: string) {
    exists i :: 0 <= i < |jobs| && jobs[i].name == name
  }

  /** How many jobs in `jobs` carry `name`. */
  function CountNamed(jobs: seq<Job>, name: string): (r: nat)
    ensures r == 0 <==> !HasJobNamed(jobs, name)
    decreases |jobs|
  {
    if |jobs| == 0 then 0
    else
      var rest := CountNamed(jobs[1..], name);
      assert forall i :: 0 < i < |jobs| ==> jobs[1..][i - 1] == jobs[i];
      assert HasJobNamed(jobs[1..], name) ==> HasJobNamed(jobs, name) by {
        if HasJobNamed(jobs[1..], name) {
          var i :| 0 <= i < |jobs[1..]| && jobs[1..][i].name == name;
          assert jobs[i + 1].name == name;
        }
      }
      (if jobs[0].name == name then 1 else 0) + rest
  }

  /** Appending one job adds one to its name's count and leaves other names' counts alone. */
  lemma {:induction false} CountNamedAppend(jobs: seq<Job>, j: Job, name: string)
    ensures CountNamed(jobs + [j], name) == CountNamed(jobs, name) + (if j.name == name then 1 else 0)
    decreases |jobs|
  {
    if |jobs| == 0 {
      assert ([] + [j])[1..] == [];
    } else {
      assert (jobs + [j])[1..] == jobs[1..] + [j];
      CountNamedAppend(jobs[1..], j, name);
    }
  }

  /**
    `_trigger_database_update_job`: when `jobs` already holds a job of the
    update job's name nothing is added; otherwise one interval job is.
   */
  function TriggerUpdateJob(sched: SchedulerState, jobs: seq<Job>): (r: SchedulerState)
    ensures r.defaults == sched.defaults
    ensures HasJobNamed(jobs, UpdateJobName) ==> r == sched
    ensures !HasJobNamed(jobs, UpdateJobName) ==>
      r.jobs == sched.jobs + [Job(UpdateJobName, Interval(UpdateIntervalMinutes))]
  {
    if exists i :: 0 <= i < |jobs| && jobs[i].name == UpdateJobName then sched
    else sched.(jobs := sched.jobs + [Job(UpdateJobName, Interval(UpdateIntervalMinutes))])
  }

  /**
    `init_jobs`: reads the stored jobs and registers the update job against
    them; a failure (`jobs` is an error) is logged and adds nothing.
   */
  function InitJobs(sched: SchedulerState, read: Result<seq<Job>, string>): (r: SchedulerState)
    ensures read.Err? ==> r == sched
  {
    match read
    case Err(_) => sched
    case Ok(jobs) => TriggerUpdateJob(sched, jobs)
  }

  /** Initialisation with the job store readable: the scheduler's own jobs are what is read. */
  function Init(sched: SchedulerState): SchedulerState {
    InitJobs(sched, Ok(sched.jobs))
  }

  /**
    After initialisation exactly as many update jobs are stored as before,
    or one when there was none; every job stored before is kept in place.
   */
  lemma {:induction false} InitRegistersOnce(sched: SchedulerState)
    ensures var r := Init(sched);
            && |sched.jobs| <= |r.jobs| && r.jobs[..|sched.jobs|] == sched.jobs
            && CountNamed(r.jobs, UpdateJobName) == (if CountNamed(sched.jobs, UpdateJobName) == 0 then 1 else CountNamed(sched.jobs, UpdateJobName))
  {
    var r := Init(sched);
    if !HasJobNamed(sched.jobs, UpdateJobName) {
      CountNamedAppend(sched.jobs, Job(UpdateJobName, Interval(UpdateIntervalMinutes)), UpdateJobName);
    }
  }

  /** Initialising twice against the same job store stores the job once. */
  lemma {:induction false} InitIdempotent(sched: SchedulerState)
    ensures Init(Init(sched)) == Init(sched)
  {
    var r := Init(sched);
    if !HasJobNamed(sched.jobs, UpdateJobName) {
      var j := Job(UpdateJobName, Interval(UpdateIntervalMinutes));
      assert r.jobs[|sched.jobs|] == j;
      assert HasJobNamed(r.jobs, UpdateJobName);
    }
  }

  /** From an empty job store, any number of initialisations leave exactly one update job. */
  lemma {:induction false} FreshStoreGetsOneJob(persisted: seq<Job>, n: nat)
    requires !HasJobNamed(persisted, UpdateJobName)
    ensures CountNamed(Repeat(InitScheduler(persisted), n + 1).jobs, UpdateJobName) == 1
    decreases n
  {
    if n == 0 {
      InitRegistersOnce(InitScheduler(persisted));
    } else {
      FreshStoreGetsOneJob(persisted, n - 1);
      var r := Repeat(InitScheduler(persisted), n);
      RepeatStep(InitScheduler(persisted), n);
      InitIdempotent(r);
    }
  }

  /** `n` initialisations in a row. */
  function Repeat(sched: SchedulerState, n: nat): SchedulerState
    decreases n
  {
    if n == 0 then sched else Init(Repeat(sched, n - 1))
  }

  lemma {:induction false} RepeatStep(sched: SchedulerState, n: nat)
    requires n > 0
    ensures Repeat(sched, n + 1) == Init(Repeat(sched, n))
  {
  }

  /**
    A stored job of the update job's name is never replaced: registration
    leaves the job store as it is, whatever trigger the stored job carries.
   */
  lemma {:induction false} StoredIntervalKept(sched: SchedulerState, i: nat)
    requires i < |sched.jobs| && sched.jobs[i].name == UpdateJobName
    ensures Init(sched) == sched
  {
  }

  /**
    `database_update_job`: one firing runs the torrent sync and then the
    media-info sync on the store it left; the media pass leaves the torrent
    and file tables as the torrent pass wrote them.
   */
  function DatabaseUpdate(s: Store, pages: seq<Option<seq<RdTorrent>>>, listing: map<string, seq<RdFile>>,
                          resp: Responses, now: Time): (r: Store)
    requires Valid(s)
    ensures Valid(r)
    ensures var t := SyncTorrents(s, pages, listing, now);
            && r.torrents == t.torrents && r.files == t.files && r.symlinks == t.symlinks
            && |t.episodes| <= |r.episodes| && r.episodes[..|t.episodes|] == t.episodes
            && |t.movies| <= |r.movies| && r.movies[..|t.movies|] == t.movies
  {
    ProcessMediainfo(SyncTorrents(s, pages, listing, now), resp, now)
  }

  /** The media pass of a firing adds nothing when run again on the firing's result. */
  lemma {:induction false} FiringMediaPassSettles(s: Store, pages: seq<Option<seq<RdTorrent>>>, listing: map<string, seq<RdFile>>,
                                                  resp: Responses, now: Time, later: Time)
    requires Valid(s)
    ensures var r := DatabaseUpdate(s, pages, listing, resp, now);
            ProcessMediainfo(r, resp, later) == r
  {
    ProcessMediainfoIdempotent(SyncTorrents(s, pages, listing, now), resp, now, later);
  }
}

=== FILE: security_secret.dfy ===
/**
  The admin secret (`utils/security/security_secret.py`): computed on
  first use from the configured secret or, when none is configured, from a
  freshly generated one, then kept for the life of the process; requests
  to admin routes must carry it in the `secret-key` header.
 */
module SecuritySecret {
  import opened Wrappers

  const MissingHeaderDetail: string := "secret_key must be passed as a header field"

  const WrongSecretDetail: string :=
    "Wrong secret key. If not set through environment variable 'RD_SYNCRR_SECURITY_SECRET', it was generated automatically at startup and appears in the server logs."

  /** The memo of `GhostLoadedSecret`: nothing until the secret is first read. */
  datatype Memo = Memo(secret: Option<string>)

  /** A secret counts as set when it is a non-empty string (Python truthiness). */
  predicate IsSet(v: Option<string>) {
    v.Some? && |v.value| > 0
  }

  /**
    `get_secret_value`: the configured secret verbatim when one is set,
    otherwise `generated`, the single-use key generated instead.
   */
  function SecretValue(configured: Option<string>, generated: string): (r: string)
    ensures IsSet(configured) ==> r == configured.value
    ensures !IsSet(configured) ==> r == generated
  {
    if IsSet(configured) then configured.value else generated
  }

  /** The outcome of reading `value`: the secret and the memo afterwards. */
  datatype Read = Read(value: string, memo: Memo)

  /**
    `GhostLoadedSecret.value`: a memoised secret is returned as it is;
    otherwise the secret is computed, memoised and returned. `generated` is the
    text of a generated uuid4, so it is never empty.
   */
  function Value(m: Memo, configured: Option<string>, generated: string): (r: Read)
    requires |generated| > 0
    ensures IsSet(m.secret) ==> r == Read(m.secret.value, m)
    ensures !IsSet(m.secret) ==> r.value == SecretValue(configured, generated)
    ensures IsSet(r.memo.secret) && r.memo.secret.value == r.value
  {
    if IsSet(m.secret) then Read(m.secret.value, m)
    else
      var v := SecretValue(configured, generated);
      Read(v, Memo(Some(v)))
  }

  /** After the first read every later read gives the same secret, whatever the settings or generator then say. */
  lemma {:induction false} ValueMemoised(m: Memo, configured: Option<string>, generated: string,
                                         configured2: Option<string>, generated2: string)
    requires |generated| > 0 && |generated2| > 0
    ensures var first := Value(m, configured, generated);
            Value(first.memo, configured2, generated2) == first
  {
  }

  /**
    `secret_based_security`: a missing or empty header is refused without
    reading the secret; otherwise the header must equal the secret (the
    constant-time comparison is modelled as equality).
   */
  function SecretBasedSecurity(header: Option<string>, m: Memo, configured: Option<string>, generated: string): (r: (Result<bool, HttpError>, Memo))
    requires |generated| > 0
    ensures !IsSet(header) ==> r == (Err(HttpError(403, MissingHeaderDetail)), m)
    ensures IsSet(header) ==> r.1 == Value(m, configured, generated).memo
    ensures IsSet(header) ==>
      (r.0 == Ok(true) <==> header.value == Value(m, configured, generated).value)
    ensures r.0.Err? ==> r.0.error.status == 403
    ensures r.0.Ok? ==> r.0.value
  {
    if !IsSet(header) then (Err(HttpError(403, MissingHeaderDetail)), m)
    else
      var read := Value(m, configured, generated);
      if header.value != read.value then (Err(HttpError(403, WrongSecretDetail)), read.memo)
      else (Ok(true), read.memo)
  }

  /** With a secret configured, exactly the requests carrying it are let through. */
  lemma {:induction false} ConfiguredSecretAdmits(header: Option<string>, configured: Option<string>, generated: string)
    requires |generated| > 0 && IsSet(configured)
    ensures SecretBasedSecurity(header, Memo(None), configured, generated).0 == Ok(true)
            <==> header == configured
  {
  }

  /** Once a secret is memoised, the answer to a request depends on the header alone. */
  lemma {:induction false} AnswerFixedAfterFirstRead(header: Option<string>, m: Memo, c1: Option<string>, f1: string,
                                                     c2: Option<string>, f2: string)
    requires |f1| > 0 && |f2| > 0 && IsSet(m.secret)
    ensures SecretBasedSecurity(header, m, c1, f1) == SecretBasedSecurity(header, m, c2, f2)
  {
  }
}

=== FILE: seqs.dfy ===
/**
  Sequence vocabulary used by the reconciliation passes: order-preserving
  filtering (Python list comprehensions with an `if`), the subsequence
  relation, and a stable descending sort by an integer key (Python's
  `list.sort(key=..., reverse=True)`).
 */
module Seqs {
  import opened Wrappers

  /** `xs` occurs in `ys` in the same order, possibly with gaps. */
  predicate IsSubsequence<T(==)>(xs: seq<T>, ys: seq<T>)
    decreases |ys|
  {
    if |xs| == 0 then true
    else if |ys| == 0 then false
    else if xs[0] == ys[0] then IsSubsequence(xs[1..], ys[1..])
    else IsSubsequence(xs, ys[1..])
  }

  /** `[x for x in xs if p(x)]`. */
  function Filter<T>(xs: seq<T>, p: T -> bool): (r: seq<T>)
    ensures |r| <= |xs|
    ensures forall i :: 0 <= i < |r| ==> p(r[i])
    decreases |xs|
  {
    if |xs| == 0 then []
    else if p(xs[0]) then [xs[0]] + Filter(xs[1..], p)
    else Filter(xs[1..], p)
  }

  /** An element survives the filter iff it was present and passes the test. */
  lemma {:induction false} FilterMembership<T>(xs: seq<T>, p: T -> bool, x: T)
    ensures x in Filter(xs, p) <==> x in xs && p(x)
    decreases |xs|
  {
    if |xs| > 0 {
      FilterMembership(xs[1..], p, x);
      assert xs == [xs[0]] + xs[1..];
    }
  }

  /** The filter keeps every copy of a passing element and no copy of a failing one. */
  lemma {:induction false} FilterMultiset<T>(xs: seq<T>, p: T -> bool, x: T)
    ensures multiset(Filter(xs, p))[x] == if p(x) then multiset(xs)[x] else 0
    decreases |xs|
  {
    if |xs| > 0 {
      FilterMultiset(xs[1..], p, x);
      assert xs == [xs[0]] + xs[1..];
    }
  }

  lemma {:induction false} FilterMultisetAll<T>(xs: seq<T>, p: T -> bool)
    ensures forall x :: multiset(Filter(xs, p))[x] == if p(x) then multiset(xs)[x] else 0
  {
    forall x ensures multiset(Filter(xs, p))[x] == if p(x) then multiset(xs)[x] else 0 {
      FilterMultiset(xs, p, x);
    }
  }

  /** The filter keeps the survivors in their original order. */
  lemma {:induction false} FilterIsSubsequence<T>(xs: seq<T>, p: T -> bool)
    ensures IsSubsequence(Filter(xs, p), xs)
    decreases |xs|
  {
    if |xs| > 0 {
      FilterIsSubsequence(xs[1..], p);
      if p(xs[0]) {
        var r := Filter(xs, p);
        assert r[0] == xs[0] && r[1..] == Filter(xs[1..], p);
      } else {
        SubsequenceOfTail(Filter(xs[1..], p), xs);
      }
    }
  }

  /** A subsequence of the tail is a subsequence of the whole. */
  lemma {:induction false} SubsequenceOfTail<T>(xs: seq<T>, ys: seq<T>)
    requires |ys| > 0
    requires IsSubsequence(xs, ys[1..])
    ensures IsSubsequence(xs, ys)
    decreases |ys|, 0
  {
    if |xs| > 0 && xs[0] == ys[0] {
      // ys[1..] must contain xs[1..] after the occurrence of xs[0]
      SubsequenceDropHead(xs, ys[1..]);
    }
  }

  /** Dropping the first element of a subsequence keeps it a subsequence. */
  lemma {:induction false} SubsequenceDropHead<T>(xs: seq<T>, ys: seq<T>)
    requires |xs| > 0
    requires IsSubsequence(xs, ys)
    ensures IsSubsequence(xs[1..], ys)
    decreases |ys|, 1
  {
    assert |ys| > 0;
    if xs[0] == ys[0] {
      assert IsSubsequence(xs[1..], ys[1..]);
      if |xs[1..]| > 0 {
        SubsequenceOfTail(xs[1..], ys);
      }
    } else {
      SubsequenceDropHead(xs, ys[1..]);
      if |xs[1..]| > 0 {
        SubsequenceOfTail(xs[1..], ys);
      }
    }
  }

  /** When every element passes, the filter is the identity. */
  lemma {:induction false} FilterAllPass<T>(xs: seq<T>, p: T -> bool)
    requires forall i :: 0 <= i < |xs| ==> p(xs[i])
    ensures Filter(xs, p) == xs
    decreases |xs|
  {
    if |xs| > 0 {
      FilterAllPass(xs[1..], p);
      assert xs == [xs[0]] + xs[1..];
    }
  }

  /** When no element passes, the filter is empty. */
  lemma {:induction false} FilterNonePass<T>(xs: seq<T>, p: T -> bool)
    requires forall i :: 0 <= i < |xs| ==> !p(xs[i])
    ensures Filter(xs, p) == []
    decreases |xs|
  {
    if |xs| > 0 {
      FilterNonePass(xs[1..], p);
    }
  }

  /** Filtering distributes over concatenation. */
  lemma {:induction false} FilterConcat<T>(xs: seq<T>, ys: seq<T>, p: T -> bool)
    ensures Filter(xs + ys, p) == Filter(xs, p) + Filter(ys, p)
    decreases |xs|
  {
    if |xs| == 0 {
      assert xs + ys == ys;
    } else {
      assert (xs + ys)[1..] == xs[1..] + ys;
      FilterConcat(xs[1..], ys, p);
    }
  }

  /** `xs` is ordered by `key`, largest first. */
  ghost predicate SortedDesc<T>(xs: seq<T>, key: T -> int) {
    forall i, j :: 0 <= i < j < |xs| ==> key(xs[i]) >= key(xs[j])
  }

  /**
    Inserts `x` in front of the first element whose key is not larger than
    `x`'s, so that `x` stays ahead of later elements with an equal key.
   */
  function InsertDesc<T>(x: T, xs: seq<T>, key: T -> int): (r: seq<T>)
    ensures |r| == |xs| + 1
    ensures multiset(r) == multiset(xs) + multiset{x}
    decreases |xs|
  {
    if |xs| == 0 || key(xs[0]) <= key(x) then [x] + xs
    else
      var rest := InsertDesc(x, xs[1..], key);
      assert xs == [xs[0]] + xs[1..];
      [xs[0]] + rest
  }

  /** A stable descending sort (insertion sort from the back). */
  function SortDesc<T>(xs: seq<T>, key: T -> int): (r: seq<T>)
    ensures |r| == |xs|
    ensures multiset(r) == multiset(xs)
    decreases |xs|
  {
    if |xs| == 0 then []
    else
      assert xs == [xs[0]] + xs[1..];
      InsertDesc(xs[0], SortDesc(xs[1..], key), key)
  }

  lemma {:induction false} InsertDescSorted<T>(x: T, xs: seq<T>, key: T -> int)
    requires SortedDesc(xs, key)
    ensures SortedDesc(InsertDesc(x, xs, key), key)
    decreases |xs|
  {
    if |xs| > 0 && key(xs[0]) > key(x) {
      InsertDescSorted(x, xs[1..], key);
      var rest := InsertDesc(x, xs[1..], key);
      InsertDescHead(x, xs[1..], key);
      var r := [xs[0]] + rest;
      forall i, j | 0 <= i < j < |r|
        ensures key(r[i]) >= key(r[j])
      {
        if i == 0 {
          assert r[j] == rest[j - 1];
          assert rest[j - 1] in multiset(rest);
          assert rest[j - 1] in multiset(xs[1..]) + multiset{x};
          if rest[j - 1] in multiset(xs[1..]) {
            var k :| 0 <= k < |xs[1..]| && xs[1..][k] == rest[j - 1];
            assert xs[1..][k] == xs[k + 1];
          }
        }
      }
    }
  }

  /** The head of an insertion is either the inserted element or the old head. */
  lemma {:induction false} InsertDescHead<T>(x: T, xs: seq<T>, key: T -> int)
    ensures |xs| == 0 ==> InsertDesc(x, xs, key)[0] == x
    ensures |xs| > 0 ==> InsertDesc(x, xs, key)[0] in {x, xs[0]}
  {
  }

  /** The sort's output is ordered largest key first. */
  lemma {:induction false} SortDescSorted<T>(xs: seq<T>, key: T -> int)
    ensures SortedDesc(SortDesc(xs, key), key)
    decreases |xs|
  {
    if |xs| > 0 {
      SortDescSorted(xs[1..], key);
      InsertDescSorted(xs[0], SortDesc(xs[1..], key), key);
    }
  }

  /** The test "has key `k`", as one function value per key. */
  function KeyIs<T>(key: T -> int, k: int): T -> bool {
    (x: T) => key(x) == k
  }

  /**
    The sort is stable: the elements sharing any one key come out in the
    order they went in.
   */
  lemma {:induction false} SortDescStable<T>(xs: seq<T>, key: T -> int, k: int)
    ensures Filter(SortDesc(xs, key), KeyIs(key, k)) == Filter(xs, KeyIs(key, k))
    decreases |xs|
  {
    if |xs| > 0 {
      SortDescStable(xs[1..], key, k);
      InsertDescStable(xs[0], SortDesc(xs[1..], key), key, k);
    }
  }

  /** Inserting keeps the order among the elements of any one key, with the new one first. */
  lemma {:induction false} InsertDescStable<T>(x: T, ys: seq<T>, key: T -> int, k: int)
    ensures Filter(InsertDesc(x, ys, key), KeyIs(key, k))
         == (if key(x) == k then [x] else []) + Filter(ys, KeyIs(key, k))
    decreases |ys|
  {
    var p := KeyIs(key, k);
    if |ys| == 0 || key(ys[0]) <= key(x) {
      assert ([x] + ys)[1..] == ys;
    } else {
      var rest := InsertDesc(x, ys[1..], key);
      InsertDescStable(x, ys[1..], key, k);
      assert ([ys[0]] + rest)[1..] == rest;
    }
  }

  /** `[f(x) for x in xs]`. */
  function Map<T, U>(xs: seq<T>, f: T -> U): (r: seq<U>)
    ensures |r| == |xs|
    ensures forall i :: 0 <= i < |xs| ==> r[i] == f(xs[i])
  {
    seq(|xs|, i requires 0 <= i < |xs| => f(xs[i]))
  }

  /** Mapping distributes over concatenation. */
  lemma {:induction false} MapConcat<T, U>(xs: seq<T>, ys: seq<T>, f: T -> U)
    ensures Map(xs + ys, f) == Map(xs, f) + Map(ys, f)
  {
    var l := Map(xs + ys, f);
    var r := Map(xs, f) + Map(ys, f);
    forall i | 0 <= i < |l| ensures l[i] == r[i] {
      if i >= |xs| {
        assert (xs + ys)[i] == ys[i - |xs|];
      }
    }
  }

  /** The position of the first element passing `p` (SQL `.first()` over rows in order). */
  function FirstIndex<T>(xs: seq<T>, p: T -> bool): (r: Option<nat>)
    ensures r.Some? ==> r.value < |xs| && p(xs[r.value])
    ensures r.Some? ==> forall j :: 0 <= j < r.value ==> !p(xs[j])
    ensures r.None? <==> forall j :: 0 <= j < |xs| ==> !p(xs[j])
    decreases |xs|
  {
    if |xs| == 0 then None
    else if p(xs[0]) then Some(0)
    else
      match FirstIndex(xs[1..], p)
      case None => None
      case Some(k) => Some(k + 1)
  }

  /** The first element passing `p`, if any. */
  function First<T>(xs: seq<T>, p: T -> bool): (r: Option<T>)
    ensures r.Some? ==> r.value in xs && p(r.value)
    ensures r.None? <==> forall j :: 0 <= j < |xs| ==> !p(xs[j])
  {
    match FirstIndex(xs, p)
    case None => None
    case Some(k) => Some(xs[k])
  }

  /** No element occurs twice. */
  ghost predicate Distinct<T>(xs: seq<T>) {
    forall i, j :: 0 <= i < j < |xs| ==> xs[i] != xs[j]
  }

  /**
    `{key(x): val(x) for x in xs}`: a dict comprehension, in which a later
    element overwrites an earlier one with the same key.
   */
  function LastWinsMap<T, K(!new), V>(xs: seq<T>, key: T -> K, val: T -> V): (r: map<K, V>)
    ensures forall k :: k in r <==> exists i :: 0 <= i < |xs| && key(xs[i]) == k
    decreases |xs|
  {
    if |xs| == 0 then map[]
    else
      var init := LastWinsMap(xs[..|xs| - 1], key, val);
      var x := xs[|xs| - 1];
      assert forall i :: 0 <= i < |xs| - 1 ==> xs[..|xs| - 1][i] == xs[i];
      init[key(x) := val(x)]
  }

  /** Each key maps to the value of its last occurrence. */
  lemma {:induction false} LastWinsMapValue<T, K(!new), V>(xs: seq<T>, key: T -> K, val: T -> V, i: nat)
    requires i < |xs|
    requires forall j :: i < j < |xs| ==> key(xs[j]) != key(xs[i])
    ensures LastWinsMap(xs, key, val)[key(xs[i])] == val(xs[i])
    decreases |xs|
  {
    if i < |xs| - 1 {
      var init := xs[..|xs| - 1];
      assert init[i] == xs[i];
      LastWinsMapValue(init, key, val, i);
    }
  }

  /** The sequences of `xss` one after another. */
  /** A non-empty prefix is its first element followed by a prefix of the tail. */
  lemma TakeCons<T>(xs: seq<T>, k: nat)
    requires 0 < k <= |xs|
    ensures xs[..k] == [xs[0]] + xs[1..][..k - 1]
  {
  }

  function Concat<T>(xss: seq<seq<T>>): (r: seq<T>)
    decreases |xss|
  {
    if |xss| == 0 then [] else xss[0] + Concat(xss[1..])
  }

  lemma AppendAssoc<T>(a: seq<T>, b: seq<T>, c: seq<T>)
    ensures (a + b) + c == a + (b + c)
  {
  }

  /** The dict comprehension depends only on each element's key and value. */
  lemma {:induction false} LastWinsMapCongruent<T, K(!new), V>(xs: seq<T>, ys: seq<T>, key: T -> K, val: T -> V)
    requires |xs| == |ys|
    requires forall i :: 0 <= i < |xs| ==> key(xs[i]) == key(ys[i]) && val(xs[i]) == val(ys[i])
    ensures LastWinsMap(xs, key, val) == LastWinsMap(ys, key, val)
    decreases |xs|
  {
    if |xs| > 0 {
      LastWinsMapCongruent(xs[..|xs| - 1], ys[..|ys| - 1], key, val);
    }
  }

  /** A sequence without members is empty. */
  lemma {:induction false} NoMemberEmpty<T>(xs: seq<T>)
    requires forall x :: x !in xs
    ensures xs == []
  {
    HeadIsMember(xs);
  }

  lemma HeadIsMember<T>(xs: seq<T>)
    ensures |xs| > 0 ==> xs[0] in xs
  {
  }
}

=== FILE: sqlite_access.dfy ===
/**
  The API-key table (`services/security_db/_sqlite_access.py`): keys are
  created active with an expiry some days ahead, revoked, renewed and
  checked; a successful check counts the query and stamps its time. Times
  are whole seconds since the epoch (the table stores them as ISO-8601
  text truncated to the second); `now` is a parameter.
 */
module SqliteAccess {
  import opened Wrappers
  import opened Seqs

  type Time = nat

  const SecondsPerDay: nat := 86400

  /** The expiry used when the setting cannot be read. */
  const DefaultExpirationDays: nat := 15

  /** One row of `rd_syncrr_security`; `api_key` is the primary key. */
  datatype Record = Record(
    apiKey: string,
    active: bool,
    neverExpire: bool,
    expiration: Time,
    latestQuery: Option<Time>,
    totalQueries: nat,
    name: Option<string>)

  /** The time `days` whole days after `now` (`now + timedelta(days=days)`). */
  function DaysAfter(now: Time, days: nat): Time {
    now + days * SecondsPerDay
  }

  /** The rows of the table, in insertion order. */
  type Table = seq<Record>

  /** The parts of the message `renew_key` joins with spaces. */
  datatype Line = ReactivatedNotice | NewExpiration(date: Time)

  function Keys(t: Table): seq<string> {
    Map(t, (r: Record) => r.apiKey)
  }

  /** The primary key holds: no key occurs twice. */
  ghost predicate Valid(t: Table) {
    Distinct(Keys(t))
  }

  /** `SELECT ... WHERE api_key = ?` followed by `fetchone()`. */
  function Lookup(t: Table, key: string): (r: Option<Record>)
    ensures r.Some? ==> r.value in t && r.value.apiKey == key
    ensures r.None? <==> forall i :: 0 <= i < |t| ==> t[i].apiKey != key
  {
    First(t, (r: Record) => r.apiKey == key)
  }

  /** `UPDATE ... WHERE api_key = ?`: `f` applied to the rows with that key. */
  function UpdateWhere(t: Table, key: string, f: Record -> Record): (r: Table)
    ensures |r| == |t|
    ensures forall i :: 0 <= i < |t| ==> r[i] == if t[i].apiKey == key then f(t[i]) else t[i]
  {
    Map(t, (x: Record) => if x.apiKey == key then f(x) else x)
  }

  /** An update that keeps every row's key keeps the primary key intact. */
  lemma {:induction false} UpdateWhereValid(t: Table, key: string, f: Record -> Record)
    requires Valid(t)
    requires forall x :: f(x).apiKey == x.apiKey
    ensures Valid(UpdateWhere(t, key, f))
    ensures Keys(UpdateWhere(t, key, f)) == Keys(t)
  {
    var r := UpdateWhere(t, key, f);
    assert forall i :: 0 <= i < |t| ==> Keys(r)[i] == Keys(t)[i];
  }

  /** With the primary key intact, the row found for `key` is the updated one. */
  lemma {:induction false} LookupAfterUpdate(t: Table, key: string, f: Record -> Record, other: string)
    requires Valid(t)
    requires forall x :: f(x).apiKey == x.apiKey
    ensures other != key ==> Lookup(UpdateWhere(t, key, f), other) == Lookup(t, other)
    ensures Lookup(t, key).None? ==> UpdateWhere(t, key, f) == t
    ensures Lookup(t, key).Some? ==> Lookup(UpdateWhere(t, key, f), key) == Some(f(Lookup(t, key).value))
  {
    var r := UpdateWhere(t, key, f);
    FirstIndexPointwiseKey(t, r, other);
    FirstIndexPointwiseKey(t, r, key);
    var atOther := FirstIndex(t, (x: Record) => x.apiKey == other);
    var atKey := FirstIndex(t, (x: Record) => x.apiKey == key);
    if other != key && atOther.Some? {
      assert r[atOther.value] == t[atOther.value];
    }
    if atKey.None? {
      assert forall i :: 0 <= i < |t| ==> r[i] == t[i];
    } else {
      assert r[atKey.value] == f(t[atKey.value]);
    }
  }

  /** Updates that keep keys do not move the row a key is found at. */
  lemma {:induction false} FirstIndexPointwiseKey(t: Table, r: Table, key: string)
    requires |r| == |t|
    requires forall i :: 0 <= i < |t| ==> r[i].apiKey == t[i].apiKey
    ensures FirstIndex(r, (x: Record) => x.apiKey == key) == FirstIndex(t, (x: Record) => x.apiKey == key)
    decreases |t|
  {
    if |t| > 0 {
      FirstIndexPointwiseKey(t[1..], r[1..], key);
    }
  }

  // ---------------------------------------------------------------------
  // create_key
  // ---------------------------------------------------------------------

  /**
    `create_key` with the generated key `key`: one active row with no
    query yet and an expiry `days` days from `now`; inserting a key already
    present violates the primary key and fails.
   */
  function CreateKey(t: Table, key: string, name: Option<string>, neverExpire: bool, days: nat, now: Time): (r: Result<Table, string>)
    ensures r.Err? <==> exists i :: 0 <= i < |t| && t[i].apiKey == key
    ensures r.Ok? ==> r.value == t + [Record(key, true, neverExpire, DaysAfter(now, days), None, 0, name)]
  {
    if Lookup(t, key).Some? then Err("UNIQUE constraint failed: rd_syncrr_security.api_key")
    else Ok(t + [Record(key, true, neverExpire, DaysAfter(now, days), None, 0, name)])
  }

  /** Creation keeps the primary key and leaves every other key's row as it was. */
  lemma {:induction false} CreateKeyValid(t: Table, key: string, name: Option<string>, neverExpire: bool, days: nat, now: Time, other: string)
    requires Valid(t) && CreateKey(t, key, name, neverExpire, days, now).Ok?
    ensures var r := CreateKey(t, key, name, neverExpire, days, now).value;
            Valid(r) && (other != key ==> Lookup(r, other) == Lookup(t, other))
  {
    var r := CreateKey(t, key, name, neverExpire, days, now).value;
    forall i, j | 0 <= i < j < |r| ensures Keys(r)[i] != Keys(r)[j] {
      if j == |t| {
        assert Keys(r)[j] == key;
        assert t[i].apiKey != key;
      } else {
        assert Keys(t)[i] != Keys(t)[j];
      }
    }
    var p := (x: Record) => x.apiKey == other;
    if other != key {
      FirstIndexAppend(t, r[|t|], p);
    }
  }

  /** Appending a row that fails the test does not change where the test is first met. */
  lemma {:induction false} FirstIndexAppend(t: Table, x: Record, p: Record -> bool)
    requires !p(x)
    ensures FirstIndex(t + [x], p) == FirstIndex(t, p)
    decreases |t|
  {
    if |t| > 0 {
      assert (t + [x])[1..] == t[1..] + [x];
      FirstIndexAppend(t[1..], x, p);
    }
  }

  // ---------------------------------------------------------------------
  // revoke_key
  // ---------------------------------------------------------------------

  function Deactivate(x: Record): Record {
    x.(active := false)
  }

  /** `revoke_key`: the key's row becomes inactive; an unknown key changes nothing. */
  function RevokeKey(t: Table, key: string): (r: Table)
    ensures |r| == |t|
    ensures forall i :: 0 <= i < |t| && t[i].apiKey != key ==> r[i] == t[i]
    ensures forall i :: 0 <= i < |t| && t[i].apiKey == key ==> !r[i].active && r[i] == t[i].(active := false)
  {
    UpdateWhere(t, key, Deactivate)
  }

  // ---------------------------------------------------------------------
  // renew_key
  // ---------------------------------------------------------------------

  /** The outcome of a successful renewal: the new table and the message lines. */
  datatype Renewal = Renewal(table: Table, message: seq<Line>)

  function Reactivate(date: Time): Record -> Record {
    (x: Record) => x.(expiration := date, active := true)
  }

  const NotFoundDetail: string := "API key not found"

  const ParseErrorDetail: string := "The expiration date could not be parsed.                             Please use ISO 8601."

  /** The 422 refusal of a date `datetime.fromisoformat` rejects. */
  function ParseError(): (r: Result<Time, HttpError>)
    ensures r.Err? && r.error.status == 422
  {
    Err(HttpError(422, ParseErrorDetail))
  }

  /**
    The expiry a renewal sets: `days` days from `now` when no date is
    given, else the given date, which must parse (`parse` stands for
    `datetime.fromisoformat`).
   */
  function RenewDate(newDate: string, parse: string -> Option<Time>, days: nat, now: Time): (r: Result<Time, HttpError>)
    ensures |newDate| == 0 ==> r == Ok(DaysAfter(now, days))
    ensures |newDate| > 0 && parse(newDate).Some? ==> r == Ok(parse(newDate).value)
    ensures |newDate| > 0 && parse(newDate).None? ==> r.Err? && r.error.status == 422
  {
    if |newDate| == 0 then Ok(DaysAfter(now, days))
    else
      var parsed := parse(newDate);
      if parsed.None? then ParseError() else Ok(parsed.value)
  }

  /**
    `renew_key`: an unknown key fails with 404 and an unparseable date with
    422, both before anything is written; otherwise the key's row is made
    active with the new expiry, and the message opens with the reactivation
    notice exactly when the key had been revoked.
   */
  function RenewKey(t: Table, key: string, newDate: string, parse: string -> Option<Time>, days: nat, now: Time): (r: Result<Renewal, HttpError>)
    ensures Lookup(t, key).None? ==> r == Err(HttpError(404, NotFoundDetail))
    ensures Lookup(t, key).Some? && RenewDate(newDate, parse, days, now).Err? ==> r == Err(RenewDate(newDate, parse, days, now).error)
    ensures r.Ok? ==> Lookup(t, key).Some? && RenewDate(newDate, parse, days, now).Ok?
    ensures r.Ok? ==>
      var date := RenewDate(newDate, parse, days, now).value;
      && r.value.table == UpdateWhere(t, key, Reactivate(date))
      && |r.value.message| > 0 && r.value.message[|r.value.message| - 1] == NewExpiration(date)
      && (r.value.message[0] == ReactivatedNotice <==> !Lookup(t, key).value.active)
  {
    match Lookup(t, key)
    case None => Err(HttpError(404, NotFoundDetail))
    case Some(row) =>
      var notice := if !row.active then [ReactivatedNotice] else [];
      match RenewDate(newDate, parse, days, now)
      case Err(e) => Err(e)
      case Ok(date) => Ok(Renewal(UpdateWhere(t, key, Reactivate(date)), notice + [NewExpiration(date)]))
  }

  // ---------------------------------------------------------------------
  // check_key and _update_usage
  // ---------------------------------------------------------------------

  /** The key's row exists, is active, and never expires or has not yet expired at `now`. */
  predicate Usable(t: Table, key: string, now: Time) {
    Lookup(t, key).Some? && Lookup(t, key).value.active
    && (Lookup(t, key).value.neverExpire || Lookup(t, key).value.expiration >= now)
  }

  function CountQuery(count: nat, now: Time): Record -> Record {
    (x: Record) => x.(totalQueries := count + 1, latestQuery := Some(now))
  }

  /** `_update_usage`: the count read at check time plus one, and the query time. */
  function UpdateUsage(t: Table, key: string, count: nat, now: Time): Table {
    UpdateWhere(t, key, CountQuery(count, now))
  }

  /** The outcome of a check: the verdict and the table after the usage update. */
  datatype Check = Check(ok: bool, table: Table)

  /**
    `check_key`: true exactly for a usable key, whose usage is then
    counted; a refused key leaves the table unchanged.
   */
  function CheckKey(t: Table, key: string, now: Time): (r: Check)
    ensures r.ok <==> Usable(t, key, now)
    ensures !r.ok ==> r.table == t
  {
    match Lookup(t, key)
    case None => Check(false, t)
    case Some(row) =>
      if !row.active || (!row.neverExpire && row.expiration < now) then Check(false, t)
      else Check(true, UpdateUsage(t, key, row.totalQueries, now))
  }

  /** A successful check adds one to the key's query count, stamps `now`, and touches nothing else. */
  lemma {:induction false} CheckKeyCounts(t: Table, key: string, now: Time, other: string)
    requires Valid(t) && CheckKey(t, key, now).ok
    ensures var r := CheckKey(t, key, now).table;
            var before := Lookup(t, key).value;
            && Valid(r)
            && Lookup(r, key) == Some(before.(totalQueries := before.totalQueries + 1, latestQuery := Some(now)))
            && (other != key ==> Lookup(r, other) == Lookup(t, other))
  {
    var before := Lookup(t, key).value;
    UpdateWhereValid(t, key, CountQuery(before.totalQueries, now));
    LookupAfterUpdate(t, key, CountQuery(before.totalQueries, now), other);
  }

  // ---------------------------------------------------------------------
  // The lifecycle
  // ---------------------------------------------------------------------

  /** A new key passes a check until its expiry, or always when it never expires. */
  lemma {:induction false} CreatedKeyChecks(t: Table, key: string, name: Option<string>, neverExpire: bool, days: nat, now: Time, later: Time)
    requires Valid(t) && CreateKey(t, key, name, neverExpire, days, now).Ok?
    requires neverExpire || later <= DaysAfter(now, days)
    ensures CheckKey(CreateKey(t, key, name, neverExpire, days, now).value, key, later).ok
  {
    var r := CreateKey(t, key, name, neverExpire, days, now).value;
    var p := (x: Record) => x.apiKey == key;
    FirstIndexAfterAbsent(t, r[|t|], p);
  }

  /** A row appended after rows that all fail the test is the first to pass it. */
  lemma {:induction false} FirstIndexAfterAbsent(t: Table, x: Record, p: Record -> bool)
    requires p(x)
    requires forall i :: 0 <= i < |t| ==> !p(t[i])
    ensures FirstIndex(t + [x], p) == Some(|t|)
  {
    assert (t + [x])[|t|] == x;
  }

  /** A revoked key fails every check until it is renewed. */
  lemma {:induction false} RevokedKeyFails(t: Table, key: string, now: Time)
    requires Valid(t)
    ensures !CheckKey(RevokeKey(t, key), key, now).ok
  {
    LookupAfterUpdate(t, key, Deactivate, key);
  }

  /** Revoking twice is revoking once. */
  lemma {:induction false} RevokeIdempotent(t: Table, key: string)
    ensures RevokeKey(RevokeKey(t, key), key) == RevokeKey(t, key)
  {
    var r := RevokeKey(t, key);
    assert forall i :: 0 <= i < |t| ==> RevokeKey(r, key)[i] == r[i];
  }

  /** A renewed key, revoked or not before, passes a check until its new expiry. */
  lemma {:induction false} RenewedKeyChecks(t: Table, key: string, newDate: string, parse: string -> Option<Time>, days: nat, now: Time, later: Time)
    requires Valid(t) && RenewKey(t, key, newDate, parse, days, now).Ok?
    requires later <= RenewDate(newDate, parse, days, now).value
    ensures CheckKey(RenewKey(t, key, newDate, parse, days, now).value.table, key, later).ok
  {
    LookupAfterUpdate(t, key, Reactivate(RenewDate(newDate, parse, days, now).value), key);
  }

  // ---------------------------------------------------------------------
  // get_usage_stats
  // ---------------------------------------------------------------------

  /** The sort key of `ORDER BY latest_query_date DESC`: SQLite puts NULL below every date. */
  function QueryOrder(x: Record): int {
    match x.latestQuery
    case None => -1
    case Some(d) => d
  }

  /**
    `get_usage_stats`: every row, most recently queried first and the
    never queried ones last (rows with equal dates keep insertion order).
   */
  function UsageStats(t: Table): (r: Table)
    ensures multiset(r) == multiset(t)
  {
    SortDesc(t, QueryOrder)
  }

  /** The stats are ordered by last query date, newest first, never-queried keys after all others. */
  lemma {:induction false} UsageStatsOrdered(t: Table)
    ensures var r := UsageStats(t);
            && (forall i, j :: 0 <= i < j < |r| && r[i].latestQuery.Some? && r[j].latestQuery.Some? ==>
                  r[i].latestQuery.value >= r[j].latestQuery.value)
            && (forall i, j :: 0 <= i < j < |r| && r[i].latestQuery.None? ==> r[j].latestQuery.None?)
  {
    var r := UsageStats(t);
    SortDescSorted(t, QueryOrder);
    forall i, j | 0 <= i < j < |r| && r[i].latestQuery.None? ensures r[j].latestQuery.None? {
      assert QueryOrder(r[i]) >= QueryOrder(r[j]);
    }
    forall i, j | 0 <= i < j < |r| && r[i].latestQuery.Some? && r[j].latestQuery.Some?
      ensures r[i].latestQuery.value >= r[j].latestQuery.value
    {
      assert QueryOrder(r[i]) >= QueryOrder(r[j]);
    }
  }
}

=== FILE: symlink_process.dfy ===
/**
  Symlink sync (`tasks/symlink_process.py`): the links found under the
  library root are resolved, the ones not stored yet are inserted when
  their target names a known torrent file, and attached to that file.

  The directory walk and `readlink` are inputs: the walk is the sequence of
  entries it meets, and each entry carries the answer `readlink` gives (None
  when it raised). The process's working directory, which `abspath` uses
  for a relative path, is a parameter.
 */
module SymlinkProcess {
  import opened Wrappers
  import opened Seqs
  import opened Paths
  import opened MediaModel
  import opened MediaDao

  /** A file met by `os.walk`: its directory, its name, whether it is a link, and what `readlink` answers. */
  datatype Entry = Entry(root: string, name: string, isLink: bool, readlink: Option<string>)

  /**
    `_get_symlink_info`: the target is the link's directory joined with what
    the link points to, made absolute and normal.
   */
  function SymlinkInfo(link: string, readlink: Option<string>, cwd: string): (r: Option<SymlinkData>)
    ensures r.None? <==> readlink.None?
    ensures r.Some? ==>
      && r.value.target == AbsPath(Join(Dirname(link), readlink.value), cwd)
      && r.value.targetFilename == Basename(r.value.target)
      && r.value.destination == link
      && r.value.destinationFilename == Basename(link)
  {
    match readlink
    case None => None
    case Some(t) =>
      var target := AbsPath(Join(Dirname(link), t), cwd);
      Some(SymlinkData(target, Basename(target), link, Basename(link)))
  }

  /** An absolute link target replaces the link's directory: the working directory plays no part. */
  lemma {:induction false} AbsoluteTargetIgnoresDirectory(link: string, t: string, cwd: string, cwd': string)
    requires IsAbs(t)
    ensures SymlinkInfo(link, Some(t), cwd).value.target == NormPath(t)
    ensures SymlinkInfo(link, Some(t), cwd) == SymlinkInfo(link, Some(t), cwd')
  {
  }

  /** A link under an absolute directory resolves to an absolute target. */
  lemma {:induction false} TargetIsAbsolute(link: string, t: string, cwd: string)
    requires IsAbs(link)
    ensures IsAbs(SymlinkInfo(link, Some(t), cwd).value.target)
  {
    var joined := Join(Dirname(link), t);
    assert IsAbs(joined);
    NormPathKeepsRoot(joined);
  }

  /**
    A link pointing at an already normal absolute path `/c1/.../cn` targets
    exactly that path, and the target filename is `cn`.
   */
  lemma {:induction false} NormalTargetKept(link: string, cs: seq<string>, cwd: string)
    requires |cs| >= 1 && forall i :: 0 <= i < |cs| ==> IsName(cs[i])
    ensures var info := SymlinkInfo(link, Some([Sep] + JoinWith(cs)), cwd).value;
            info.target == [Sep] + JoinWith(cs) && info.targetFilename == cs[|cs| - 1]
  {
    NormPathOfNormal(cs);
    BasenameOfNormal(cs);
  }

  /** The entries the scan reports: links whose `readlink` did not raise. */
  predicate Readable(e: Entry) {
    e.isLink && e.readlink.Some?
  }

  function EntryInfo(e: Entry, cwd: string): SymlinkData
    requires e.readlink.Some?
  {
    SymlinkInfo(Join(e.root, e.name), e.readlink, cwd).value
  }

  /** The loop of `_scan_link_directory`. */
  function ScanLoop(entries: seq<Entry>, cwd: string): (r: seq<SymlinkData>)
    ensures |r| == |Filter(entries, Readable)|
    ensures forall i :: 0 <= i < |r| ==> r[i] == EntryInfo(Filter(entries, Readable)[i], cwd)
    decreases |entries|
  {
    if |entries| == 0 then []
    else
      var rest := ScanLoop(entries[1..], cwd);
      if Readable(entries[0]) then [EntryInfo(entries[0], cwd)] + rest else rest
  }

  /** `_scan_link_directory`: the resolved links in walk order, or None when there are none. */
  function Scan(entries: seq<Entry>, cwd: string): (r: Option<seq<SymlinkData>>)
    ensures r.None? <==> forall i :: 0 <= i < |entries| ==> !Readable(entries[i])
    ensures r.Some? ==> r.value == ScanLoop(entries, cwd) && |r.value| > 0
  {
    var found := ScanLoop(entries, cwd);
    if |found| == 0 then
      ReadableFiltered(entries);
      None
    else
      ReadableFiltered(entries);
      Some(found)
  }

  lemma {:induction false} ReadableFiltered(entries: seq<Entry>)
    ensures |Filter(entries, Readable)| == 0 <==> forall i :: 0 <= i < |entries| ==> !Readable(entries[i])
  {
    FilterMembershipAll(entries, Readable);
    NoMemberEmptyIff(Filter(entries, Readable));
    if exists i :: 0 <= i < |entries| && Readable(entries[i]) {
      var i :| 0 <= i < |entries| && Readable(entries[i]);
      assert entries[i] in entries;
    }
  }

  lemma {:induction false} NoMemberEmptyIff<T>(xs: seq<T>)
    ensures |xs| == 0 <==> forall x :: x !in xs
  {
    if forall x :: x !in xs {
      NoMemberEmpty(xs);
    }
  }

  /** Scanned links whose destination filename is not among the stored ones. */
  function Unstored(infos: seq<SymlinkData>, stored: map<string, Key>): (r: seq<SymlinkData>)
    ensures forall x :: x in r <==> x in infos && x.destinationFilename !in stored
    ensures IsSubsequence(r, infos)
  {
    var isNew := (x: SymlinkData) => x.destinationFilename !in stored;
    FilterMembershipAll(infos, isNew);
    FilterIsSubsequence(infos, isNew);
    Filter(infos, isNew)
  }

  /** A link whose target filename names a stored file. */
  predicate KnownTarget(dict: map<string, Key>, info: SymlinkData) {
    info.targetFilename in dict
  }

  /**
    The loop of `_update_symlink_db` against the filename dict read once
    before it: a link is inserted iff its target filename is known, and
    attached to the file the dict names.
   */
  function InsertKnown(s: Store, infos: seq<SymlinkData>, dict: map<string, Key>, now: Time): (r: Store)
    requires Valid(s)
    ensures Valid(r)
    ensures r.torrents == s.torrents && r.movies == s.movies && r.episodes == s.episodes
    ensures SameFileKeys(s, r)
    ensures |s.symlinks| <= |r.symlinks| && r.symlinks[..|s.symlinks|] == s.symlinks
    decreases |infos|
  {
    if |infos| == 0 then s
    else
      var info := infos[0];
      var s1 := if KnownTarget(dict, info) then CreateSymlink(s, info, Some(dict[info.targetFilename]), now) else s;
      assert s1.symlinks[..|s.symlinks|] == s.symlinks;
      var r := InsertKnown(s1, infos[1..], dict, now);
      LinksOnlyGrowTrans(s, s1, r);
      r
  }

  /** Stores that only gain symlink rows, composed. */
  lemma {:induction false} LinksOnlyGrowTrans(a: Store, b: Store, c: Store)
    requires b.torrents == a.torrents && b.movies == a.movies && b.episodes == a.episodes && SameFileKeys(a, b)
    requires |a.symlinks| <= |b.symlinks| && b.symlinks[..|a.symlinks|] == a.symlinks
    requires c.torrents == b.torrents && c.movies == b.movies && c.episodes == b.episodes && SameFileKeys(b, c)
    requires |b.symlinks| <= |c.symlinks| && c.symlinks[..|b.symlinks|] == b.symlinks
    ensures c.torrents == a.torrents && c.movies == a.movies && c.episodes == a.episodes && SameFileKeys(a, c)
    ensures |a.symlinks| <= |c.symlinks| && c.symlinks[..|a.symlinks|] == a.symlinks
  {
    assert c.symlinks[..|a.symlinks|] == c.symlinks[..|b.symlinks|][..|a.symlinks|];
  }

  /** Same files in the same order, with the same paths and keys. */
  predicate SameFileKeys(a: Store, b: Store) {
    |a.files| == |b.files| && forall i :: 0 <= i < |a.files| ==> a.files[i].path == b.files[i].path && a.files[i].id == b.files[i].id
  }

  /** The filename dict only depends on the files' paths and keys. */
  lemma {:induction false} FilenameDictOfSameKeys(a: Store, b: Store)
    requires SameFileKeys(a, b)
    ensures FilenameDict(a) == FilenameDict(b)
  {
    LastWinsMapCongruent(a.files, b.files, FileBasename, (f: TorrentFile) => f.id);
  }

  /** `_update_symlink_db`: nothing happens when no file is stored. */
  function UpdateSymlinkDb(s: Store, infos: seq<SymlinkData>, now: Time): (r: Store)
    requires Valid(s)
    ensures Valid(r)
    ensures |s.files| == 0 ==> r == s
    ensures r.torrents == s.torrents && r.movies == s.movies && r.episodes == s.episodes
    ensures SameFileKeys(s, r)
    ensures |s.symlinks| <= |r.symlinks| && r.symlinks[..|s.symlinks|] == s.symlinks
  {
    match FilenameDict(s)
    case None => s
    case Some(dict) => InsertKnown(s, infos, dict, now)
  }

  /** The symlink rows stored for `ds`, keyed from `from` on. */
  function SymlinkRows(ds: seq<SymlinkData>, from: Key, now: Time): (r: seq<Symlink>)
    ensures |r| == |ds|
    ensures forall i :: 0 <= i < |ds| ==> r[i] == Symlink(from + i, now, ds[i])
  {
    seq(|ds|, i requires 0 <= i < |ds| => Symlink(from + i, now, ds[i]))
  }

  /**
    Exactly the links with a known target filename are inserted, in scan
    order, under consecutive fresh keys.
   */
  lemma {:induction false} InsertKnownEffect(s: Store, infos: seq<SymlinkData>, dict: map<string, Key>, now: Time)
    requires Valid(s)
    ensures var r := InsertKnown(s, infos, dict, now);
            var known := Filter(infos, (x: SymlinkData) => KnownTarget(dict, x));
            r.symlinks == s.symlinks + SymlinkRows(known, s.nextKey, now) && r.nextKey == s.nextKey + |known|
    decreases |infos|
  {
    if |infos| > 0 {
      var p := (x: SymlinkData) => KnownTarget(dict, x);
      var info := infos[0];
      var s1 := if KnownTarget(dict, info) then CreateSymlink(s, info, Some(dict[info.targetFilename]), now) else s;
      assert InsertKnown(s, infos, dict, now) == InsertKnown(s1, infos[1..], dict, now);
      InsertKnownEffect(s1, infos[1..], dict, now);
      if p(info) {
        InsertKnownKept(s, s1, infos, p, now);
      }
    }
  }

  lemma {:induction false} InsertKnownKept(s: Store, s1: Store, infos: seq<SymlinkData>, p: SymlinkData -> bool, now: Time)
    requires |infos| > 0 && p(infos[0])
    requires s1.symlinks == s.symlinks + [Symlink(s.nextKey, now, infos[0])] && s1.nextKey == s.nextKey + 1
    ensures var rest := Filter(infos[1..], p);
            && Filter(infos, p) == [infos[0]] + rest
            && s1.symlinks + SymlinkRows(rest, s1.nextKey, now) == s.symlinks + SymlinkRows([infos[0]] + rest, s.nextKey, now)
  {
    var rest := Filter(infos[1..], p);
    var row := Symlink(s.nextKey, now, infos[0]);
    assert SymlinkRows([infos[0]] + rest, s.nextKey, now) == [row] + SymlinkRows(rest, s.nextKey + 1, now);
    AppendAssoc(s.symlinks, [row], SymlinkRows(rest, s.nextKey + 1, now));
  }

  /** Some stored symlink has this destination filename. */
  predicate DestinationStored(s: Store, name: string) {
    exists i :: 0 <= i < |s.symlinks| && s.symlinks[i].data.destinationFilename == name
  }

  /** After the insert loop, every link with a known target has its destination filename stored. */
  lemma {:induction false} InsertKnownStores(s: Store, infos: seq<SymlinkData>, dict: map<string, Key>, now: Time)
    requires Valid(s)
    ensures forall x :: x in infos && KnownTarget(dict, x) ==> DestinationStored(InsertKnown(s, infos, dict, now), x.destinationFilename)
  {
    var p := (x: SymlinkData) => KnownTarget(dict, x);
    var r := InsertKnown(s, infos, dict, now);
    var known := Filter(infos, p);
    InsertKnownEffect(s, infos, dict, now);
    forall x | x in infos && KnownTarget(dict, x)
      ensures DestinationStored(r, x.destinationFilename)
    {
      FilterMembership(infos, p, x);
      var k :| 0 <= k < |known| && known[k] == x;
      assert r.symlinks[|s.symlinks| + k] == SymlinkRows(known, s.nextKey, now)[k];
    }
  }

  /** Links with unknown targets only: the insert loop changes nothing. */
  lemma {:induction false} InsertKnownNone(s: Store, infos: seq<SymlinkData>, dict: map<string, Key>, now: Time)
    requires Valid(s)
    requires forall i :: 0 <= i < |infos| ==> !KnownTarget(dict, infos[i])
    ensures InsertKnown(s, infos, dict, now) == s
    decreases |infos|
  {
    if |infos| > 0 {
      InsertKnownNone(s, infos[1..], dict, now);
    }
  }

  /**
    `process_symlink`: scan, drop the links whose destination filename is
    stored, insert the rest; an empty scan or an empty remainder touches
    nothing.
   */
  function ProcessSymlink(s: Store, entries: seq<Entry>, cwd: string, now: Time): (r: Store)
    requires Valid(s)
    ensures Valid(r)
    ensures Scan(entries, cwd).None? ==> r == s
    ensures r.torrents == s.torrents && r.movies == s.movies && r.episodes == s.episodes
    ensures SameFileKeys(s, r)
    ensures |s.symlinks| <= |r.symlinks| && r.symlinks[..|s.symlinks|] == s.symlinks
  {
    match Scan(entries, cwd)
    case None => s
    case Some(infos) =>
      match DestinationFilenameDict(s)
      case None => UpdateSymlinkDb(s, infos, now)
      case Some(stored) =>
        var unseen := Unstored(infos, stored);
        if |unseen| == 0 then s else UpdateSymlinkDb(s, unseen, now)
  }

  lemma {:induction false} DestinationDictMembership(s: Store, name: string)
    ensures DestinationFilenameDict(s).Some? && name in DestinationFilenameDict(s).value <==> DestinationStored(s, name)
  {
  }

  /**
    The links a run hands to the insert loop: all scanned ones with nothing
    stored, otherwise the ones whose destination filename is not stored.
   */
  function Candidates(s: Store, infos: seq<SymlinkData>): seq<SymlinkData> {
    match DestinationFilenameDict(s)
    case None => infos
    case Some(stored) => Unstored(infos, stored)
  }

  /** A link whose destination filename is already stored is never inserted again. */
  lemma {:induction false} StoredDestinationSkipped(s: Store, infos: seq<SymlinkData>, x: SymlinkData)
    requires DestinationStored(s, x.destinationFilename)
    ensures x !in Candidates(s, infos)
  {
    DestinationDictMembership(s, x.destinationFilename);
  }

  /** Symlinks are only appended, so a stored destination filename stays stored. */
  lemma {:induction false} StoredPersists(s: Store, r: Store, name: string)
    requires |s.symlinks| <= |r.symlinks| && r.symlinks[..|s.symlinks|] == s.symlinks
    ensures DestinationStored(s, name) ==> DestinationStored(r, name)
  {
    if DestinationStored(s, name) {
      var j :| 0 <= j < |s.symlinks| && s.symlinks[j].data.destinationFilename == name;
      assert r.symlinks[j] == r.symlinks[..|s.symlinks|][j];
    }
  }

  /** A second run over the same scan changes nothing. */
  lemma {:induction false} ProcessSymlinkIdempotent(s: Store, entries: seq<Entry>, cwd: string, now: Time, later: Time)
    requires Valid(s)
    ensures var r := ProcessSymlink(s, entries, cwd, now);
            ProcessSymlink(r, entries, cwd, later) == r
  {
    var r := ProcessSymlink(s, entries, cwd, now);
    var scan := Scan(entries, cwd);
    if scan.Some? && |s.files| > 0 {
      var infos := scan.value;
      var dict := FilenameDict(s).value;
      var first := Candidates(s, infos);
      InsertKnownStores(s, first, dict, now);
      FilenameDictOfSameKeys(s, r);
      var second := Candidates(r, infos);
      forall i | 0 <= i < |second| ensures !KnownTarget(dict, second[i]) {
        var x := second[i];
        assert x in second;
        DestinationDictMembership(r, x.destinationFilename);
        assert x in infos && !DestinationStored(r, x.destinationFilename);
        DestinationDictMembership(s, x.destinationFilename);
        StoredPersists(s, r, x.destinationFilename);
        assert x in first;
      }
      InsertKnownNone(r, second, dict, later);
    }
  }
}

=== FILE: sync_instance.dfy ===
/**
  Syncing one debrid account from another instance (`tasks/sync_instance.py`):
  the list of torrents the other instance exposes is compared with this
  instance's own export file, and the difference is what gets added. Only
  the reading of the export file and the comparison are modelled.
 */
module SyncInstance {
  import opened Wrappers
  import opened Seqs

  /** A torrent object of an export file, as far as the sync reads it. */
  datatype Item = Item(id: string, hash: string, name: string)

  /** The local export file: absent, or present with contents that parse or not. */
  datatype LocalFile = NoFile | OnDisk(parsed: Result<seq<Item>, string>)

  function Ids(items: seq<Item>): set<string> {
    set x | x in items :: x.id
  }

  // ---------------------------------------------------------------------
  // The diff
  // ---------------------------------------------------------------------

  /**
    `_list_wanted_torrents` as written: without a local list every synced
    item is wanted; with one, an empty synced list means nothing to do, and
    otherwise the local items whose id the synced list lacks are wanted.
   */
  function ListWanted(synced: seq<Item>, local: Option<seq<Item>>): (r: Option<seq<Item>>)
    ensures local.None? ==> r == Some(synced)
    ensures local.Some? && |synced| == 0 ==> r.None?
    ensures local.Some? && |synced| > 0 ==> r.Some?
  {
    if local.None? then Some(synced)
    else if |synced| == 0 then None
    else
      var ids := Ids(synced);
      Some(Filter(local.value, (x: Item) => x.id !in ids))
  }

  /** In the comparing branch the result is exactly the local items with an id the synced list lacks. */
  lemma {:induction false} ListWantedMembership(synced: seq<Item>, local: seq<Item>, x: Item)
    requires |synced| > 0
    ensures x in ListWanted(synced, Some(local)).value <==>
      x in local && forall y :: y in synced ==> y.id != x.id
  {
    var ids := Ids(synced);
    FilterMembership(local, (z: Item) => z.id !in ids, x);
  }

  /** In the comparing branch the result keeps the local order and shares no id with the synced list. */
  lemma {:induction false} ListWantedOrderAndDisjoint(synced: seq<Item>, local: seq<Item>)
    requires |synced| > 0
    ensures IsSubsequence(ListWanted(synced, Some(local)).value, local)
    ensures Ids(ListWanted(synced, Some(local)).value) !! Ids(synced)
  {
    var ids := Ids(synced);
    var r := ListWanted(synced, Some(local)).value;
    FilterIsSubsequence(local, (z: Item) => z.id !in ids);
    forall id | id in Ids(r) ensures id !in ids {
      var x :| x in r && x.id == id;
      ListWantedMembership(synced, local, x);
    }
  }

  /**
    The diff with its sides the evidently intended way round: the synced
    items whose id the local list lacks, so that what is added to the local
    account is what it does not have yet.
   */
  function ListWantedCorrected(synced: seq<Item>, local: Option<seq<Item>>): (r: Option<seq<Item>>)
    ensures local.None? ==> r == Some(synced)
    ensures local.Some? && |synced| == 0 ==> r.None?
    ensures local.Some? && |synced| > 0 ==> r.Some?
  {
    if local.None? then Some(synced)
    else if |synced| == 0 then None
    else
      var ids := Ids(local.value);
      Some(Filter(synced, (x: Item) => x.id !in ids))
  }

  /** The corrected diff wants exactly the synced items not already held locally. */
  lemma {:induction false} ListWantedCorrectedMembership(synced: seq<Item>, local: seq<Item>, x: Item)
    requires |synced| > 0
    ensures x in ListWantedCorrected(synced, Some(local)).value <==>
      x in synced && forall y :: y in local ==> y.id != x.id
  {
    var ids := Ids(local);
    FilterMembership(synced, (z: Item) => z.id !in ids, x);
  }

  /** The diff as written re-adds a torrent the local account already has and skips the one it lacks. */
  lemma {:induction false} ListWantedWrongWayRound()
    ensures var a := Item("a", "ha", "held");
            var b := Item("b", "hb", "missing");
            ListWanted([b], Some([a])) == Some([a])
            && ListWantedCorrected([b], Some([a])) == Some([b])
  {
    var a := Item("a", "ha", "held");
    var b := Item("b", "hb", "missing");
    assert "a" != "b" by { assert "a"[0] != "b"[0]; }
    assert Ids([b]) == {"b"};
    assert Ids([a]) == {"a"};
    assert Filter([a], (x: Item) => x.id !in Ids([b])) == [a];
    assert Filter([b], (x: Item) => x.id !in Ids([a])) == [b];
  }

  // ---------------------------------------------------------------------
  // Reading the local export
  // ---------------------------------------------------------------------

  /**
    `_get_all_local_torrents` as written: the file is opened only when it
    does not exist, which raises; an existing file gives None.
   */
  function ReadLocalAsWritten(file: LocalFile): (r: Result<Option<seq<Item>>, string>)
    ensures file.NoFile? <==> r.Err?
    ensures r.Ok? ==> r.value.None?
  {
    match file
    case NoFile => Err("No such file or directory")
    case OnDisk(_) => Ok(None)
  }

  /** As written, the local list is never read, so the sync either fails or wants every synced item. */
  lemma {:induction false} AsWrittenNeverCompares(file: LocalFile, synced: seq<Item>)
    ensures ReadLocalAsWritten(file).Ok? ==>
      ListWanted(synced, ReadLocalAsWritten(file).value) == Some(synced)
  {
  }

  /** The reader with the existence test the evidently intended way round. */
  function ReadLocal(file: LocalFile): (r: Result<Option<seq<Item>>, string>)
    ensures file.NoFile? ==> r == Ok(None)
    ensures file.OnDisk? && file.parsed.Ok? ==> r == Ok(Some(file.parsed.value))
    ensures file.OnDisk? && file.parsed.Err? ==> r.Err?
  {
    match file
    case NoFile => Ok(None)
    case OnDisk(Ok(items)) => Ok(Some(items))
    case OnDisk(Err(e)) => Err(e)
  }

  /** A readable export file reaches the diff with its contents, where the as-written reader drops them. */
  lemma {:induction false} ReadLocalKeepsContents(items: seq<Item>)
    ensures ReadLocal(OnDisk(Ok(items))) == Ok(Some(items))
    ensures ReadLocalAsWritten(OnDisk(Ok(items))) == Ok(None)
  {
  }

  /**
    What one sync run adds, with both corrections: an unreadable export
    stops the run, and otherwise the synced items the local export lacks
    are added, in the synced list's order.
   */
  function Wanted(file: LocalFile, synced: seq<Item>): (r: Result<Option<seq<Item>>, string>)
    ensures file.OnDisk? && file.parsed.Err? ==> r.Err?
    ensures file.NoFile? ==> r == Ok(Some(synced))
  {
    match ReadLocal(file)
    case Err(e) => Err(e)
    case Ok(local) => Ok(ListWantedCorrected(synced, local))
  }

  /** A run only ever wants synced items, in their order, and none the local export already holds. */
  lemma {:induction false} WantedFromSynced(file: LocalFile, synced: seq<Item>)
    ensures var r := Wanted(file, synced);
            r.Ok? && r.value.Some? ==> IsSubsequence(r.value.value, synced)
    ensures var r := Wanted(file, synced);
            file.OnDisk? && file.parsed.Ok? && |synced| > 0 ==>
              r.Ok? && r.value.Some? && forall x :: x in r.value.value ==> x.id !in Ids(file.parsed.value)
  {
    var r := Wanted(file, synced);
    if file.OnDisk? && file.parsed.Ok? && |synced| > 0 {
      var ids := Ids(file.parsed.value);
      FilterIsSubsequence(synced, (x: Item) => x.id !in ids);
      forall x | x in r.value.value ensures x.id !in ids {
        ListWantedCorrectedMembership(synced, file.parsed.value, x);
      }
    } else {
      SubsequenceRefl(synced);
    }
  }

  lemma {:induction false} SubsequenceRefl(xs: seq<Item>)
    ensures IsSubsequence(xs, xs)
    decreases |xs|
  {
    if |xs| > 0 {
      SubsequenceRefl(xs[1..]);
    }
  }
}

=== FILE: torrents_process.dfy ===
/**
  Torrent sync: the debrid account's torrent list is paged in, reduced to
  the downloaded torrents, compared against the hashes already stored, and
  each new torrent is stored together with its selected files.

  Provider responses are inputs: `pages[p]` is the response to the request
  for page `p + 1` (None when that request raised), and `listing` maps a
  torrent id to its file list (an id without an entry is a request that
  raised).
 */
module TorrentsProcess {
  import opened Wrappers
  import opened Seqs
  import opened MediaModel
  import opened MediaDao

  /** One item of the provider's torrent list. */
  datatype RdTorrent = RdTorrent(
    status: Field<string>,
    filename: Field<string>,
    id: Field<string>,
    hash: Field<string>)

  /** One entry of a torrent's file list. */
  datatype RdFile = RdFile(selected: Field<int>, path: Field<string>, bytes: Field<int>)

  /**
    A downloaded torrent reduced to the three fields that are stored; a JSON
    `null` is carried along as None.
   */
  datatype Candidate = Candidate(filename: Option<string>, id: Option<string>, hash: Option<string>)

  /** The `path` and `bytes` of a selected file; a JSON `null` is None. */
  datatype FileData = FileData(path: Option<string>, bytes: Option<int>)

  /** A file row that the NOT NULL columns accept. */
  datatype FileRow = FileRow(path: string, bytes: int)

  /** The page size `_get_all_torrents` is called with. */
  const PageLimit: nat := 1000

  /**
    The paging loop as written: the page length is compared with a counter
    that grows by `limit` per page, so a second page (at most `limit` long)
    always ends the loop. A raised request ends it too, keeping what was
    gathered.
   */
  function FetchAsWritten(pages: seq<Option<seq<RdTorrent>>>, limit: nat): seq<RdTorrent> {
    FetchFrom(pages, limit, 0, limit, [], false)
  }

  /**
    The paging loop as evidently intended: it stops at the first page
    shorter than `limit`.
   */
  function FetchCorrected(pages: seq<Option<seq<RdTorrent>>>, limit: nat): seq<RdTorrent> {
    FetchFrom(pages, limit, 0, limit, [], true)
  }

  /**
    The loop from the request for page `page + 1` on. The stop test compares
    the page length with `counter`; the corrected loop keeps `counter` at
    `limit`, the loop as written adds `limit` to it per page.
   */
  function FetchFrom(pages: seq<Option<seq<RdTorrent>>>, limit: nat, page: nat, counter: nat,
                     acc: seq<RdTorrent>, corrected: bool): (r: seq<RdTorrent>)
    ensures |acc| <= |r| && r[..|acc|] == acc
    decreases |pages| - page
  {
    if page >= |pages| || pages[page].None? then acc
    else
      var ts := pages[page].value;
      if |ts| < counter then acc + ts
      else
        var r := FetchFrom(pages, limit, page + 1, if corrected then counter else counter + limit, acc + ts, corrected);
        assert (acc + ts)[..|acc|] == acc;
        r
  }

  /** Every page request answered, in order. */
  function Answered(pages: seq<seq<RdTorrent>>): seq<Option<seq<RdTorrent>>> {
    Map(pages, (p: seq<RdTorrent>) => Some(p))
  }

  /**
    As written, with full first and second pages, the loop stops after the
    second page and every later page is lost.
   */
  lemma {:induction false} FetchAsWrittenStopsAtTwo(pages: seq<seq<RdTorrent>>, limit: nat)
    requires limit > 0 && |pages| >= 3
    requires |pages[0]| == limit && |pages[1]| == limit && |pages[2]| > 0
    ensures FetchAsWritten(Answered(pages), limit) == pages[0] + pages[1]
    ensures |FetchAsWritten(Answered(pages), limit)| < |Concat(pages)|
  {
    var ps := Answered(pages);
    assert ps[0] == Some(pages[0]) && ps[1] == Some(pages[1]) && |ps| >= 3;
    assert [] + pages[0] == pages[0];
    assert FetchAsWritten(ps, limit) == FetchFrom(ps, limit, 1, limit + limit, pages[0], false);
    assert FetchFrom(ps, limit, 1, limit + limit, pages[0], false) == pages[0] + pages[1];
    calc {
      Concat(pages);
      pages[0] + Concat(pages[1..]);
      { assert pages[1..][0] == pages[1]; assert pages[1..][1..] == pages[2..]; }
      pages[0] + (pages[1] + Concat(pages[2..]));
      { assert pages[2..][0] == pages[2]; }
      pages[0] + (pages[1] + (pages[2] + Concat(pages[3..])));
    }
  }

  /** A concrete case: one-item pages, three of them; the third item is never fetched. */
  lemma {:induction false} FetchAsWrittenLosesThirdPage(a: RdTorrent, b: RdTorrent, c: RdTorrent)
    ensures FetchAsWritten([Some([a]), Some([b]), Some([c])], 1) == [a, b]
    ensures FetchCorrected([Some([a]), Some([b]), Some([c])], 1) == [a, b, c]
  {
    var ps := [Some([a]), Some([b]), Some([c])];
    assert [] + [a] == [a] && [a] + [b] == [a, b] && [a, b] + [c] == [a, b, c];
    assert FetchFrom(ps, 1, 1, 2, [a], false) == [a, b];
    assert FetchFrom(ps, 1, 3, 1, [a, b, c], true) == [a, b, c];
    assert FetchFrom(ps, 1, 2, 1, [a, b], true) == [a, b, c];
    assert FetchFrom(ps, 1, 1, 1, [a], true) == [a, b, c];
  }

  /**
    As written, with pages no longer than `limit`, the loop never requests
    a third page: its result is one or two pages.
   */
  lemma {:induction false} FetchAsWrittenAtMostTwoPages(pages: seq<Option<seq<RdTorrent>>>, limit: nat)
    requires limit > 0
    requires forall i :: 0 <= i < |pages| ==> pages[i].Some? ==> |pages[i].value| <= limit
    ensures |pages| == 0 || pages[0].None? ==> FetchAsWritten(pages, limit) == []
    ensures |pages| > 0 && pages[0].Some? && |pages[0].value| < limit ==> FetchAsWritten(pages, limit) == pages[0].value
    ensures |pages| > 1 && pages[0].Some? && |pages[0].value| == limit ==>
      FetchAsWritten(pages, limit) == pages[0].value + (if pages[1].Some? then pages[1].value else [])
    ensures FetchAsWritten(pages, limit) == FirstTwoPages(pages, limit)
  {
    if |pages| > 0 && pages[0].Some? {
      assert [] + pages[0].value == pages[0].value;
      if |pages[0].value| == limit {
        assert FetchAsWritten(pages, limit) == FetchFrom(pages, limit, 1, limit + limit, pages[0].value, false);
        if |pages| > 1 && pages[1].Some? {
          assert |pages[1].value| < limit + limit;
        }
      }
    }
  }

  /** The first page, followed by the second when the first is full. */
  function FirstTwoPages(pages: seq<Option<seq<RdTorrent>>>, limit: nat): seq<RdTorrent> {
    if |pages| == 0 || pages[0].None? then []
    else if |pages[0].value| < limit || |pages| == 1 || pages[1].None? then pages[0].value
    else pages[0].value + pages[1].value
  }

  /** Every item of the first two pages sits on page one or two. */
  lemma {:induction false} FirstTwoPagesMembership(pages: seq<Option<seq<RdTorrent>>>, limit: nat, m: nat)
    requires m < |FirstTwoPages(pages, limit)|
    ensures exists i, j :: 0 <= i < 2 && i < |pages| && pages[i].Some? && 0 <= j < |pages[i].value|
              && pages[i].value[j] == FirstTwoPages(pages, limit)[m]
  {
    var xs := FirstTwoPages(pages, limit);
    if m < |pages[0].value| {
      assert pages[0].value[m] == xs[m];
    } else {
      assert pages[1].value[m - |pages[0].value|] == xs[m];
    }
  }

  /**
    The corrected loop returns every page when all requests succeed, each
    page but the last is full and the last is short.
   */
  lemma {:induction false} FetchCorrectedGetsAll(pages: seq<seq<RdTorrent>>, limit: nat)
    requires |pages| > 0
    requires forall i :: 0 <= i < |pages| - 1 ==> |pages[i]| == limit
    requires |pages[|pages| - 1]| < limit
    ensures FetchCorrected(Answered(pages), limit) == Concat(pages)
  {
    FetchCorrectedFrom(pages, limit, 0, []);
    assert pages[0..] == pages;
  }

  lemma {:induction false} FetchCorrectedFrom(pages: seq<seq<RdTorrent>>, limit: nat, page: nat, acc: seq<RdTorrent>)
    requires page < |pages|
    requires forall i :: 0 <= i < |pages| - 1 ==> |pages[i]| == limit
    requires |pages[|pages| - 1]| < limit
    ensures FetchFrom(Answered(pages), limit, page, limit, acc, true) == acc + Concat(pages[page..])
    decreases |pages| - page
  {
    var ps := Answered(pages);
    assert ps[page] == Some(pages[page]);
    var rest := pages[page..];
    assert rest[0] == pages[page];
    if page == |pages| - 1 {
      assert rest[1..] == [];
    } else {
      FetchCorrectedFrom(pages, limit, page + 1, acc + pages[page]);
      assert rest[1..] == pages[page + 1..];
    }
  }

  predicate Downloaded(t: RdTorrent) {
    t.status == Present("downloaded")
  }

  /**
    The comprehensions of `_update_torrent_db` raise, and the run is
    abandoned, when an item has no `status` key, or a downloaded item has no
    `filename`, `id` or `hash` key. A `null` raises nothing: a null status is
    not "downloaded", and a null column is carried into the candidate.
   */
  predicate WellFormed(items: seq<RdTorrent>) {
    forall i :: 0 <= i < |items| ==>
      !items[i].status.Missing?
      && (Downloaded(items[i]) ==> !items[i].filename.Missing? && !items[i].id.Missing? && !items[i].hash.Missing?)
  }

  /** `{"filename": item["filename"], "id": item["id"], "hash": item["hash"]}`. */
  function Project(t: RdTorrent): Candidate {
    Candidate(t.filename.Read(), t.id.Read(), t.hash.Read())
  }

  /** None of the three NOT NULL columns of the torrent row is null. */
  predicate Storable(c: Candidate) {
    c.filename.Some? && c.id.Some? && c.hash.Some?
  }

  /** The torrent row a committed `create_torrent_model` adds for `c`. */
  function RowOf(c: Candidate, now: Time): Torrent
    requires Storable(c)
  {
    Torrent(c.id.value, c.hash.value, c.filename.value, now)
  }

  /** The downloaded items, projected to filename, id and hash, in response order. */
  function Candidates(items: seq<RdTorrent>): (r: seq<Candidate>)
    ensures r == Map(Filter(items, Downloaded), Project)
    ensures forall c :: c in r <==> exists i :: 0 <= i < |items| && Downloaded(items[i]) && Project(items[i]) == c
    decreases |items|
  {
    if |items| == 0 then []
    else
      var rest := Candidates(items[1..]);
      assert forall i :: 1 <= i < |items| ==> items[1..][i - 1] == items[i];
      if Downloaded(items[0]) then
        var r := [Project(items[0])] + rest;
        MapConcat([items[0]], Filter(items[1..], Downloaded), Project);
        assert Map([items[0]], Project) == [Project(items[0])];
        r
      else rest
  }

  /** A stored hash is never null, so a candidate with a null hash is always new. */
  predicate Unseen(c: Candidate, stored: seq<string>) {
    c.hash.None? || c.hash.value !in stored
  }

  /** Candidates whose hash is not among the stored ones, in order. */
  function NewCandidates(cands: seq<Candidate>, stored: seq<string>): (r: seq<Candidate>)
    ensures forall c :: c in r <==> c in cands && (c.hash.None? || c.hash.value !in stored)
    ensures IsSubsequence(r, cands)
  {
    var isNew := (c: Candidate) => Unseen(c, stored);
    FilterMembershipAll(cands, isNew);
    FilterIsSubsequence(cands, isNew);
    Filter(cands, isNew)
  }

  /**
    What `_add_files_to_torrent` reads from the listing, or None when the
    listing request raised or a comprehension hit a missing key: the
    `selected` test runs over every file first (a null `selected` is not 1,
    so that file alone is skipped), then path and bytes are read from the
    selected ones, a null read as None.
   */
  function SelectedRows(listing: map<string, seq<RdFile>>, id: string): (r: Option<seq<FileData>>)
    ensures r.Some? <==> id in listing && AllHaveSelected(listing[id]) && RowKeysPresent(Filter(listing[id], IsSelected))
    ensures r.Some? ==> |r.value| == |Filter(listing[id], IsSelected)|
    ensures r.Some? ==> forall i :: 0 <= i < |r.value| ==>
      Filter(listing[id], IsSelected)[i].path.Read() == r.value[i].path
      && Filter(listing[id], IsSelected)[i].bytes.Read() == r.value[i].bytes
  {
    if id !in listing || !AllHaveSelected(listing[id]) then None
    else
      var sel := Filter(listing[id], IsSelected);
      if !RowKeysPresent(sel) then None
      else Some(seq(|sel|, i requires 0 <= i < |sel| => FileData(sel[i].path.Read(), sel[i].bytes.Read())))
  }

  predicate IsSelected(f: RdFile) {
    f.selected == Present(1)
  }

  /** Every file has the `selected` key (null allowed). */
  predicate AllHaveSelected(files: seq<RdFile>) {
    forall i :: 0 <= i < |files| ==> !files[i].selected.Missing?
  }

  /** Every file has the `path` and `bytes` keys (null allowed). */
  predicate RowKeysPresent(files: seq<RdFile>) {
    forall i :: 0 <= i < |files| ==> !files[i].path.Missing? && !files[i].bytes.Missing?
  }

  /** Only files marked `selected == 1` are kept. */
  lemma {:induction false} SelectedRowsOnlySelected(listing: map<string, seq<RdFile>>, id: string, f: RdFile)
    requires SelectedRows(listing, id).Some?
    requires f in listing[id] && f.selected != Present(1)
    ensures f !in Filter(listing[id], IsSelected)
  {
    FilterMembership(listing[id], IsSelected, f);
  }

  /**
    A file whose `selected` is null is skipped on its own: adding it to a
    listing leaves the rows read from that listing as they were.
   */
  lemma {:induction false} NullSelectedSkipped(listing: map<string, seq<RdFile>>, id: string, f: RdFile)
    requires id in listing && f.selected == Null
    ensures SelectedRows(listing[id := listing[id] + [f]], id) == SelectedRows(listing, id)
  {
    var files := listing[id];
    var l2 := listing[id := files + [f]];
    FilterConcat(files, [f], IsSelected);
    assert Filter([f], IsSelected) == [] by { assert [f][1..] == []; }
    assert Filter(l2[id], IsSelected) == Filter(files, IsSelected);
    assert AllHaveSelected(l2[id]) <==> AllHaveSelected(files) by {
      assert forall i :: 0 <= i < |files| ==> l2[id][i] == files[i];
      assert l2[id][|files|] == f;
    }
  }

  /**
    The rows whose path and size are both non-null, in order: the ones the
    NOT NULL columns accept.
   */
  function StoredRows(rows: seq<FileData>): (r: seq<FileRow>)
    ensures |r| <= |rows|
    decreases |rows|
  {
    if |rows| == 0 then []
    else if rows[0].path.Some? && rows[0].bytes.Some? then [FileRow(rows[0].path.value, rows[0].bytes.value)] + StoredRows(rows[1..])
    else StoredRows(rows[1..])
  }

  /** The file rows stored for torrent `tid`, keyed from `from` on. */
  function FileRowsAsFiles(tid: string, rows: seq<FileRow>, from: Key, now: Time): (r: seq<TorrentFile>)
    ensures |r| == |rows|
    ensures forall i :: 0 <= i < |rows| ==>
      r[i] == TorrentFile(from + i, rows[i].path, rows[i].bytes, now, Some(tid), None, None, None)
  {
    seq(|rows|, i requires 0 <= i < |rows| => TorrentFile(from + i, rows[i].path, rows[i].bytes, now, Some(tid), None, None, None))
  }

  /** One `create_file_model` call per row, in order. */
  function CreateFiles(s: Store, tid: string, rows: seq<FileData>, now: Time): (r: Store)
    requires Valid(s)
    ensures Valid(r)
    decreases |rows|
  {
    if |rows| == 0 then s
    else CreateFiles(CreateFile(s, tid, rows[0].path, rows[0].bytes, now), tid, rows[1..], now)
  }

  /** Files of an unknown torrent are all refused. */
  lemma {:induction false} CreateFilesUnknownTorrent(s: Store, tid: string, rows: seq<FileData>, now: Time)
    requires Valid(s) && !HasTorrent(s, tid)
    ensures CreateFiles(s, tid, rows, now) == s
    decreases |rows|
  {
    if |rows| > 0 {
      CreateFilesUnknownTorrent(s, tid, rows[1..], now);
    }
  }

  /**
    The files of a stored torrent whose path and size are non-null are
    appended in order under consecutive fresh keys, and nothing else
    changes.
   */
  lemma {:induction false} CreateFilesAppends(s: Store, tid: string, rows: seq<FileData>, now: Time)
    requires Valid(s) && HasTorrent(s, tid)
    ensures var r := CreateFiles(s, tid, rows, now);
            && r.files == s.files + FileRowsAsFiles(tid, StoredRows(rows), s.nextKey, now)
            && r.nextKey == s.nextKey + |StoredRows(rows)|
            && r.torrents == s.torrents && r.symlinks == s.symlinks
            && r.movies == s.movies && r.episodes == s.episodes
  {
    CreateFilesRows(s, tid, rows, now);
    CreateFilesFrame(s, tid, rows, now);
  }

  /** Only the file table and the key counter change. */
  lemma {:induction false} CreateFilesFrame(s: Store, tid: string, rows: seq<FileData>, now: Time)
    requires Valid(s)
    ensures var r := CreateFiles(s, tid, rows, now);
            r.torrents == s.torrents && r.symlinks == s.symlinks && r.movies == s.movies && r.episodes == s.episodes
    decreases |rows|
  {
    if |rows| > 0 {
      CreateFilesFrame(CreateFile(s, tid, rows[0].path, rows[0].bytes, now), tid, rows[1..], now);
    }
  }

  /** The file rows and the key counter after storing the rows of a stored torrent. */
  lemma {:induction false} CreateFilesRows(s: Store, tid: string, rows: seq<FileData>, now: Time)
    requires Valid(s) && HasTorrent(s, tid)
    ensures var r := CreateFiles(s, tid, rows, now);
            && r.files == s.files + FileRowsAsFiles(tid, StoredRows(rows), s.nextKey, now)
            && r.nextKey == s.nextKey + |StoredRows(rows)|
    decreases |rows|
  {
    if |rows| > 0 {
      var s1 := CreateFile(s, tid, rows[0].path, rows[0].bytes, now);
      assert HasTorrent(s1, tid) by { assert s1.torrents == s.torrents; }
      CreateFilesRows(s1, tid, rows[1..], now);
      if rows[0].path.Some? && rows[0].bytes.Some? {
        CreateFilesHead(s, tid, rows, now);
      } else {
        StoredRowsSkip(rows);
      }
    } else {
      assert FileRowsAsFiles(tid, StoredRows(rows), s.nextKey, now) == [];
      assert s.files + [] == s.files;
    }
  }

  /** A first row with a path and a size is stored under the next key, ahead of the rest. */
  lemma {:induction false} CreateFilesHead(s: Store, tid: string, rows: seq<FileData>, now: Time)
    requires Valid(s) && HasTorrent(s, tid)
    requires |rows| > 0 && rows[0].path.Some? && rows[0].bytes.Some?
    requires var s1 := CreateFile(s, tid, rows[0].path, rows[0].bytes, now);
             var r := CreateFiles(s1, tid, rows[1..], now);
             && r.files == s1.files + FileRowsAsFiles(tid, StoredRows(rows[1..]), s1.nextKey, now)
             && r.nextKey == s1.nextKey + |StoredRows(rows[1..])|
    ensures var r := CreateFiles(s, tid, rows, now);
            && r.files == s.files + FileRowsAsFiles(tid, StoredRows(rows), s.nextKey, now)
            && r.nextKey == s.nextKey + |StoredRows(rows)|
  {
    var row := FileRow(rows[0].path.value, rows[0].bytes.value);
    StoredRowsCons(rows);
    FilesAfterStep(s.files, tid, row, StoredRows(rows[1..]), s.nextKey, now);
  }

  /** A row with a null path or size is not stored. */
  lemma {:induction false} StoredRowsSkip(rows: seq<FileData>)
    requires |rows| > 0 && !(rows[0].path.Some? && rows[0].bytes.Some?)
    ensures StoredRows(rows) == StoredRows(rows[1..])
  {
  }

  /** A row with a path and a size heads the stored rows. */
  lemma {:induction false} StoredRowsCons(rows: seq<FileData>)
    requires |rows| > 0 && rows[0].path.Some? && rows[0].bytes.Some?
    ensures StoredRows(rows) == [FileRow(rows[0].path.value, rows[0].bytes.value)] + StoredRows(rows[1..])
  {
  }

  /** Storing one row and then the rest is storing them all. */
  lemma {:induction false} FilesAfterStep(prefix: seq<TorrentFile>, tid: string, row: FileRow, rest: seq<FileRow>, from: Key, now: Time)
    ensures prefix + [TorrentFile(from, row.path, row.bytes, now, Some(tid), None, None, None)]
              + FileRowsAsFiles(tid, rest, from + 1, now)
         == prefix + FileRowsAsFiles(tid, [row] + rest, from, now)
  {
    FileRowsStep(tid, [row] + rest, from, now);
    assert ([row] + rest)[1..] == rest;
    AppendAssoc(prefix, [TorrentFile(from, row.path, row.bytes, now, Some(tid), None, None, None)],
                FileRowsAsFiles(tid, rest, from + 1, now));
  }

  lemma {:induction false} FileRowsStep(tid: string, rows: seq<FileRow>, from: Key, now: Time)
    requires |rows| > 0
    ensures FileRowsAsFiles(tid, rows, from, now)
         == [TorrentFile(from, rows[0].path, rows[0].bytes, now, Some(tid), None, None, None)]
            + FileRowsAsFiles(tid, rows[1..], from + 1, now)
  {
  }

  /**
    `_add_files_to_torrent`: stores the selected files of the torrent under
    its id; a failed listing or a missing key stores none of them. With a
    null id, `session.get` finds no torrent and every file is skipped.
   */
  function AddFiles(s: Store, c: Candidate, listing: map<string, seq<RdFile>>, now: Time): (r: Store)
    requires Valid(s)
    ensures Valid(r)
    ensures r.torrents == s.torrents
    ensures r.symlinks == s.symlinks && r.movies == s.movies && r.episodes == s.episodes
  {
    match c.id
    case None => s
    case Some(tid) =>
      match SelectedRows(listing, tid)
      case None => s
      case Some(rows) =>
        if HasTorrent(s, tid) then
          CreateFilesAppends(s, tid, rows, now);
          CreateFiles(s, tid, rows, now)
        else
          CreateFilesUnknownTorrent(s, tid, rows, now);
          CreateFiles(s, tid, rows, now)
  }

  /**
    Exactly the selected files with a non-null path and size are stored, in
    order, under the torrent's id.
   */
  lemma {:induction false} AddFilesEffect(s: Store, c: Candidate, listing: map<string, seq<RdFile>>, now: Time)
    requires Valid(s)
    ensures var r := AddFiles(s, c, listing, now);
            && (c.id.None? || SelectedRows(listing, c.id.value).None? || !HasTorrent(s, c.id.value) ==> r == s)
            && (c.id.Some? && SelectedRows(listing, c.id.value).Some? && HasTorrent(s, c.id.value) ==>
                  var stored := StoredRows(SelectedRows(listing, c.id.value).value);
                  && r.files == s.files + FileRowsAsFiles(c.id.value, stored, s.nextKey, now)
                  && r.nextKey == s.nextKey + |stored|
                  && r.symlinks == s.symlinks && r.movies == s.movies && r.episodes == s.episodes)
  {
    if c.id.Some? && SelectedRows(listing, c.id.value).Some? {
      if HasTorrent(s, c.id.value) {
        CreateFilesAppends(s, c.id.value, SelectedRows(listing, c.id.value).value, now);
      } else {
        CreateFilesUnknownTorrent(s, c.id.value, SelectedRows(listing, c.id.value).value, now);
      }
    }
  }

  /**
    One torrent of `_process_new_torrents`: the torrent row, then its files.
    A null column rolls the torrent row back; its files are still tried.
   */
  function ProcessOne(s: Store, c: Candidate, listing: map<string, seq<RdFile>>, now: Time): (r: Store)
    requires Valid(s)
    ensures Valid(r)
    ensures Storable(c) ==> HasTorrent(r, c.id.value)
    ensures c.id.None? ==> r == s
    ensures r.torrents == s.torrents || (Storable(c) && r.torrents == s.torrents + [RowOf(c, now)])
    ensures r.symlinks == s.symlinks && r.movies == s.movies && r.episodes == s.episodes
  {
    var s1 := CreateTorrent(s, c.hash, c.id, c.filename, now);
    CreateTorrentValid(s, c.hash, c.id, c.filename, now);
    assert Storable(c) ==> HasTorrent(s1, c.id.value) by {
      if Storable(c) && !HasTorrent(s, c.id.value) { assert s1.torrents[|s.torrents|].id == c.id.value; }
    }
    assert s1.torrents == s.torrents || (Storable(c) && s1.torrents == s.torrents + [RowOf(c, now)]) by {
      if s1 != s { assert s1.torrents == s1.torrents[..|s.torrents|] + [s1.torrents[|s.torrents|]]; }
    }
    AddFiles(s1, c, listing, now)
  }

  /** `_process_new_torrents`: every candidate in order; none stops the others. */
  function ProcessNew(s: Store, cs: seq<Candidate>, listing: map<string, seq<RdFile>>, now: Time): (r: Store)
    requires Valid(s)
    ensures Valid(r)
    ensures forall c :: c in cs && Storable(c) ==> HasTorrent(r, c.id.value)
    ensures |s.torrents| <= |r.torrents| && r.torrents[..|s.torrents|] == s.torrents
    ensures r.symlinks == s.symlinks && r.movies == s.movies && r.episodes == s.episodes
    decreases |cs|
  {
    if |cs| == 0 then s
    else
      var s1 := ProcessOne(s, cs[0], listing, now);
      var r := ProcessNew(s1, cs[1..], listing, now);
      assert Storable(cs[0]) ==> HasTorrent(r, cs[0].id.value) by {
        if Storable(cs[0]) {
          var k :| 0 <= k < |s1.torrents| && s1.torrents[k].id == cs[0].id.value;
          assert r.torrents[k] == s1.torrents[k];
        }
      }
      assert forall c :: c in cs ==> c == cs[0] || c in cs[1..];
      assert r.torrents[..|s.torrents|] == r.torrents[..|s1.torrents|][..|s.torrents|];
      r
  }

  /**
    `_update_torrent_db` over a fetched response: when hashes are stored,
    only the candidates with an unseen hash are processed (and an empty set
    of those changes nothing); when none are stored, every candidate is.
   */
  function UpdateTorrentDb(s: Store, items: seq<RdTorrent>, listing: map<string, seq<RdFile>>, now: Time): (r: Store)
    requires Valid(s)
    ensures Valid(r)
    ensures !WellFormed(items) ==> r == s
    ensures WellFormed(items) ==> forall c :: c in Candidates(items) && Storable(c) ==>
              HasTorrent(r, c.id.value) || HashStored(s, c.hash.value)
    ensures |s.torrents| <= |r.torrents| && r.torrents[..|s.torrents|] == s.torrents
    ensures r.symlinks == s.symlinks && r.movies == s.movies && r.episodes == s.episodes
  {
    if !WellFormed(items) then s
    else
      var cands := Candidates(items);
      match TorrentHashes(s)
      case Some(stored) =>
        var unseen := NewCandidates(cands, stored);
        StoredHashesCovered(s, cands, stored, unseen);
        if |unseen| > 0 then ProcessNew(s, unseen, listing, now) else s
      case None => ProcessNew(s, cands, listing, now)
  }

  lemma {:induction false} StoredHashesCovered(s: Store, cands: seq<Candidate>, stored: seq<string>, unseen: seq<Candidate>)
    requires TorrentHashes(s) == Some(stored)
    requires forall c :: c in unseen <==> c in cands && (c.hash.None? || c.hash.value !in stored)
    ensures forall c :: c in cands && Storable(c) ==> c in unseen || HashStored(s, c.hash.value)
  {
    forall c | c in cands && Storable(c) && c !in unseen ensures HashStored(s, c.hash.value) {
      TorrentHashesMembership(s, c.hash.value);
    }
  }

  /**
    An item whose status is null is skipped: it yields no candidate and the
    run goes on with the others.
   */
  lemma {:induction false} NullStatusSkipped(items: seq<RdTorrent>, t: RdTorrent)
    requires t.status == Null
    ensures WellFormed(items + [t]) <==> WellFormed(items)
    ensures Candidates(items + [t]) == Candidates(items)
  {
    FilterConcat(items, [t], Downloaded);
    assert Filter([t], Downloaded) == [] by { assert [t][1..] == []; }
    assert Filter(items + [t], Downloaded) == Filter(items, Downloaded);
    assert forall i :: 0 <= i < |items| ==> (items + [t])[i] == items[i];
    assert (items + [t])[|items|] == t;
  }

  /**
    `process_torrents`: one run of torrent sync, fetching with the paging
    loop as written and then updating the store from what was fetched.
   */
  function SyncTorrents(s: Store, pages: seq<Option<seq<RdTorrent>>>, listing: map<string, seq<RdFile>>, now: Time): (r: Store)
    requires Valid(s)
    ensures Valid(r)
    ensures |s.torrents| <= |r.torrents| && r.torrents[..|s.torrents|] == s.torrents
    ensures r.symlinks == s.symlinks && r.movies == s.movies && r.episodes == s.episodes
    ensures !WellFormed(FetchAsWritten(pages, PageLimit)) ==> r == s
    ensures var items := FetchAsWritten(pages, PageLimit);
            WellFormed(items) ==> forall c :: c in Candidates(items) && Storable(c) ==>
              HasTorrent(r, c.id.value) || HashStored(s, c.hash.value)
  {
    UpdateTorrentDb(s, FetchAsWritten(pages, PageLimit), listing, now)
  }

  /**
    With pages no longer than the page size, every torrent row a run adds
    comes from a downloaded item of the first two pages: a torrent listed
    only on a later page is never stored.
   */
  lemma {:induction false} SyncTorrentsStoresOnlyFirstTwoPages(s: Store, pages: seq<Option<seq<RdTorrent>>>,
                                                              listing: map<string, seq<RdFile>>, now: Time, k: nat)
    requires Valid(s)
    requires forall i :: 0 <= i < |pages| ==> pages[i].Some? ==> |pages[i].value| <= PageLimit
    requires |s.torrents| <= k < |SyncTorrents(s, pages, listing, now).torrents|
    ensures var t := SyncTorrents(s, pages, listing, now).torrents[k];
            exists i, j :: 0 <= i < 2 && i < |pages| && pages[i].Some? && 0 <= j < |pages[i].value|
              && Downloaded(pages[i].value[j]) && pages[i].value[j].id == Present(t.id) && pages[i].value[j].hash == Present(t.hash)
  {
    var items := FetchAsWritten(pages, PageLimit);
    var t := SyncTorrents(s, pages, listing, now).torrents[k];
    UpdateTorrentDbNewRows(s, items, listing, now, k);
    var m :| 0 <= m < |items| && Downloaded(items[m]) && items[m].id == Present(t.id) && items[m].hash == Present(t.hash);
    FetchAsWrittenAtMostTwoPages(pages, PageLimit);
    FirstTwoPagesMembership(pages, PageLimit, m);
  }

  /**
    Every torrent row a run adds carries the id, hash and filename of a
    downloaded item of the response, none of them null.
   */
  lemma {:induction false} UpdateTorrentDbNewRows(s: Store, items: seq<RdTorrent>, listing: map<string, seq<RdFile>>, now: Time, k: nat)
    requires Valid(s)
    requires |s.torrents| <= k < |UpdateTorrentDb(s, items, listing, now).torrents|
    ensures var t := UpdateTorrentDb(s, items, listing, now).torrents[k];
            exists m :: 0 <= m < |items| && Downloaded(items[m])
              && items[m].id == Present(t.id) && items[m].hash == Present(t.hash) && items[m].filename == Present(t.filename)
  {
    var cands := Candidates(items);
    var t := UpdateTorrentDb(s, items, listing, now).torrents[k];
    var c: Candidate;
    match TorrentHashes(s)
    case None =>
      ProcessNewTorrentHash(s, cands, listing, now, k);
      c :| c in cands && Storable(c) && t == RowOf(c, now);
    case Some(stored) =>
      var unseen := NewCandidates(cands, stored);
      ProcessNewTorrentHash(s, unseen, listing, now, k);
      c :| c in unseen && Storable(c) && t == RowOf(c, now);
    var m :| 0 <= m < |items| && Downloaded(items[m]) && Project(items[m]) == c;
    ReadPresent(items[m].id);
    ReadPresent(items[m].hash);
    ReadPresent(items[m].filename);
  }

  /** A field that reads as a value holds that value. */
  lemma {:induction false} ReadPresent<T>(f: Field<T>)
    ensures f.Read().Some? ==> f == Present(f.Read().value)
  {
  }

  /** With every candidate hash already stored, a run changes nothing. */
  lemma {:induction false} NothingNewIsNoop(s: Store, items: seq<RdTorrent>, listing: map<string, seq<RdFile>>, now: Time)
    requires Valid(s) && WellFormed(items) && |s.torrents| > 0
    requires forall c :: c in Candidates(items) ==> c.hash.Some? && c.hash.value in TorrentHashes(s).value
    ensures UpdateTorrentDb(s, items, listing, now) == s
  {
    var unseen := NewCandidates(Candidates(items), TorrentHashes(s).value);
    NoMemberEmpty(unseen);
  }

  /**
    Provider ids determine hashes: two candidates with the same id carry the
    same hash (a null one included), and a candidate whose id is stored
    carries the stored row's hash.
   */
  ghost predicate IdsAgree(s: Store, cs: seq<Candidate>) {
    (forall i, j :: 0 <= i < |cs| && 0 <= j < |cs| && cs[i].id.Some? && cs[i].id == cs[j].id ==> cs[i].hash == cs[j].hash)
    && (forall i, k :: 0 <= i < |cs| && 0 <= k < |s.torrents| && cs[i].id == Some(s.torrents[k].id) ==> cs[i].hash == Some(s.torrents[k].hash))
  }

  predicate HashStored(s: Store, h: string) {
    exists k :: 0 <= k < |s.torrents| && s.torrents[k].hash == h
  }

  /**
    After processing, the hash of every candidate without a null column is
    stored (given ids determine hashes).
   */
  lemma {:induction false} ProcessNewStoresHashes(s: Store, cs: seq<Candidate>, listing: map<string, seq<RdFile>>, now: Time)
    requires Valid(s) && IdsAgree(s, cs)
    ensures forall c :: c in cs && Storable(c) ==> HashStored(ProcessNew(s, cs, listing, now), c.hash.value)
  {
    var r := ProcessNew(s, cs, listing, now);
    forall c | c in cs && Storable(c) ensures HashStored(r, c.hash.value) {
      var i :| 0 <= i < |cs| && cs[i] == c;
      var k :| 0 <= k < |r.torrents| && r.torrents[k].id == c.id.value;
      ProcessNewTorrentHash(s, cs, listing, now, k);
      if k < |s.torrents| && r.torrents[k] == s.torrents[k] {
        assert cs[i].id == Some(s.torrents[k].id);
      } else {
        var c' :| c' in cs && Storable(c') && r.torrents[k] == RowOf(c', now);
        var j :| 0 <= j < |cs| && cs[j] == c';
        assert cs[i].id == cs[j].id;
      }
    }
  }

  /**
    Every torrent row after processing is an old row in its old place, or
    the row of a processed candidate without a null column.
   */
  lemma {:induction false} ProcessNewTorrentHash(s: Store, cs: seq<Candidate>, listing: map<string, seq<RdFile>>, now: Time, k: nat)
    requires Valid(s)
    requires k < |ProcessNew(s, cs, listing, now).torrents|
    ensures var t := ProcessNew(s, cs, listing, now).torrents[k];
            (k < |s.torrents| && t == s.torrents[k]) || exists c :: c in cs && Storable(c) && t == RowOf(c, now)
    decreases |cs|
  {
    if |cs| > 0 {
      var s1 := ProcessOne(s, cs[0], listing, now);
      ProcessNewTorrentHash(s1, cs[1..], listing, now, k);
      var t := ProcessNew(s, cs, listing, now).torrents[k];
      if k < |s1.torrents| && t == s1.torrents[k] {
        if k >= |s.torrents| {
          assert t == RowOf(cs[0], now);
          assert cs[0] in cs;
        }
      } else {
        var c :| c in cs[1..] && Storable(c) && t == RowOf(c, now);
        assert c in cs;
      }
    }
  }

  /**
    After a run, a candidate is settled: its hash is stored, or it has a
    null column and its id names no stored torrent, so processing it again
    changes nothing.
   */
  predicate Settled(r: Store, c: Candidate) {
    (c.hash.Some? && HashStored(r, c.hash.value))
    || (!Storable(c) && (c.id.None? || !HasTorrent(r, c.id.value)))
  }

  /**
    A second run with an unchanged response changes nothing: the first run
    has stored the hash of every candidate it could store, and a candidate
    with a null column finds no torrent to file under (given that provider
    ids determine hashes).
   */
  lemma {:induction false} UpdateTorrentDbIdempotent(s: Store, items: seq<RdTorrent>, listing: map<string, seq<RdFile>>, now: Time)
    requires Valid(s) && WellFormed(items) && IdsAgree(s, Candidates(items))
    ensures var r := UpdateTorrentDb(s, items, listing, now);
            UpdateTorrentDb(r, items, listing, now) == r
  {
    var r := UpdateTorrentDb(s, items, listing, now);
    forall c | c in Candidates(items) ensures Settled(r, c) {
      if Storable(c) {
        UpdateTorrentDbStoresHash(s, items, listing, now, c);
      } else {
        UnstorableSettled(s, items, listing, now, c);
      }
    }
    AllSettledNoop(r, items, listing, now);
  }

  /** After a run, the hash of every candidate without a null column is stored. */
  lemma {:induction false} UpdateTorrentDbStoresHash(s: Store, items: seq<RdTorrent>, listing: map<string, seq<RdFile>>, now: Time, c: Candidate)
    requires Valid(s) && WellFormed(items) && IdsAgree(s, Candidates(items))
    requires c in Candidates(items) && Storable(c)
    ensures HashStored(UpdateTorrentDb(s, items, listing, now), c.hash.value)
  {
    var cands := Candidates(items);
    var r := UpdateTorrentDb(s, items, listing, now);
    match TorrentHashes(s)
    case None =>
      ProcessNewStoresHashes(s, cands, listing, now);
    case Some(stored) =>
      var unseen := NewCandidates(cands, stored);
      if c.hash.value in stored {
        TorrentHashesMembership(s, c.hash.value);
        var k :| 0 <= k < |s.torrents| && s.torrents[k].hash == c.hash.value;
        assert r.torrents[k] == s.torrents[k];
      } else {
        assert c in unseen;
        IdsAgreeSub(s, cands, unseen);
        ProcessNewStoresHashes(s, unseen, listing, now);
      }
  }

  /**
    After a run, a candidate with a null column is settled: if its id names
    a stored torrent, that row carries the candidate's hash.
   */
  lemma {:induction false} UnstorableSettled(s: Store, items: seq<RdTorrent>, listing: map<string, seq<RdFile>>, now: Time, c: Candidate)
    requires Valid(s) && WellFormed(items) && IdsAgree(s, Candidates(items))
    requires c in Candidates(items) && !Storable(c)
    ensures Settled(UpdateTorrentDb(s, items, listing, now), c)
  {
    var r := UpdateTorrentDb(s, items, listing, now);
    if c.id.Some? && HasTorrent(r, c.id.value) {
      var k :| 0 <= k < |r.torrents| && r.torrents[k].id == c.id.value;
      StoredRowAgrees(s, items, listing, now, c, k);
    }
  }

  /** A torrent row after a run that has a candidate's id carries its hash. */
  lemma {:induction false} StoredRowAgrees(s: Store, items: seq<RdTorrent>, listing: map<string, seq<RdFile>>, now: Time,
                                           c: Candidate, k: nat)
    requires Valid(s) && WellFormed(items) && IdsAgree(s, Candidates(items))
    requires c in Candidates(items) && c.id.Some?
    requires k < |UpdateTorrentDb(s, items, listing, now).torrents|
    requires UpdateTorrentDb(s, items, listing, now).torrents[k].id == c.id.value
    ensures c.hash == Some(UpdateTorrentDb(s, items, listing, now).torrents[k].hash)
  {
    var cands := Candidates(items);
    var r := UpdateTorrentDb(s, items, listing, now);
    var i :| 0 <= i < |cands| && cands[i] == c;
    if k < |s.torrents| {
      assert r.torrents[k] == s.torrents[k];
      assert cands[i].id == Some(s.torrents[k].id);
    } else {
      UpdateTorrentDbNewRows(s, items, listing, now, k);
      var m :| 0 <= m < |items| && Downloaded(items[m]) && items[m].id == Present(r.torrents[k].id)
               && items[m].hash == Present(r.torrents[k].hash);
      ItemAgrees(s, items, c, m);
    }
  }

  /** A candidate and a downloaded item with the same id agree on the hash. */
  lemma {:induction false} ItemAgrees(s: Store, items: seq<RdTorrent>, c: Candidate, m: nat)
    requires IdsAgree(s, Candidates(items))
    requires c in Candidates(items) && c.id.Some?
    requires m < |items| && Downloaded(items[m]) && items[m].id == Present(c.id.value)
    ensures c.hash == items[m].hash.Read()
  {
    var cands := Candidates(items);
    var i :| 0 <= i < |cands| && cands[i] == c;
    assert Project(items[m]) in cands by { assert 0 <= m < |items| && Downloaded(items[m]); }
    var j :| 0 <= j < |cands| && cands[j] == Project(items[m]);
    assert cands[i].id == cands[j].id;
  }

  /** When every candidate is settled, a run changes nothing. */
  lemma {:induction false} AllSettledNoop(r: Store, items: seq<RdTorrent>, listing: map<string, seq<RdFile>>, now: Time)
    requires Valid(r) && WellFormed(items)
    requires forall c :: c in Candidates(items) ==> Settled(r, c)
    ensures UpdateTorrentDb(r, items, listing, now) == r
  {
    var cands := Candidates(items);
    match TorrentHashes(r)
    case None =>
      forall c | c in cands ensures Inert(r, c) {
        assert |r.torrents| == 0;
      }
      ProcessNewInert(r, cands, listing, now);
    case Some(stored) =>
      var unseen := NewCandidates(cands, stored);
      forall c | c in unseen ensures Inert(r, c) {
        if c.hash.Some? {
          TorrentHashesMembership(r, c.hash.value);
        }
      }
      ProcessNewInert(r, unseen, listing, now);
  }

  /** A candidate with a null column whose id names no stored torrent. */
  predicate Inert(s: Store, c: Candidate) {
    !Storable(c) && (c.id.None? || !HasTorrent(s, c.id.value))
  }

  /** Processing inert candidates changes nothing. */
  lemma {:induction false} ProcessNewInert(s: Store, cs: seq<Candidate>, listing: map<string, seq<RdFile>>, now: Time)
    requires Valid(s)
    requires forall c :: c in cs ==> Inert(s, c)
    ensures ProcessNew(s, cs, listing, now) == s
    decreases |cs|
  {
    if |cs| > 0 {
      assert cs[0] in cs;
      CreateTorrentValid(s, cs[0].hash, cs[0].id, cs[0].filename, now);
      AddFilesEffect(s, cs[0], listing, now);
      assert ProcessOne(s, cs[0], listing, now) == s;
      assert forall c :: c in cs[1..] ==> c in cs;
      ProcessNewInert(s, cs[1..], listing, now);
    }
  }

  lemma {:induction false} IdsAgreeSub(s: Store, cs: seq<Candidate>, sub: seq<Candidate>)
    requires IdsAgree(s, cs)
    requires forall c :: c in sub ==> c in cs
    ensures IdsAgree(s, sub)
  {
    forall i, j | 0 <= i < |sub| && 0 <= j < |sub| && sub[i].id.Some? && sub[i].id == sub[j].id
      ensures sub[i].hash == sub[j].hash
    {
      assert sub[i] in cs && sub[j] in cs;
    }
    forall i, k | 0 <= i < |sub| && 0 <= k < |s.torrents| && sub[i].id == Some(s.torrents[k].id)
      ensures sub[i].hash == Some(s.torrents[k].hash)
    {
      assert sub[i] in cs;
    }
  }

  /** Without candidates, a run changes nothing. */
  lemma {:induction false} EmptyCandidatesNoop(s: Store, items: seq<RdTorrent>, listing: map<string, seq<RdFile>>, now: Time)
    requires Valid(s) && WellFormed(items) && |Candidates(items)| == 0
    ensures UpdateTorrentDb(s, items, listing, now) == s
  {
    if TorrentHashes(s).Some? {
      NoMemberEmpty(NewCandidates(Candidates(items), TorrentHashes(s).value));
    }
  }

  /** A listing with one selected file yields that file's path and size. */
  lemma {:induction false} SingleSelectedFile(id: string, f: RdFile)
    requires f.selected == Present(1) && f.path.Present? && f.bytes.Present?
    ensures SelectedRows(map[id := [f]], id) == Some([FileData(Some(f.path.value), Some(f.bytes.value))])
  {
    var listing := map[id := [f]];
    assert Filter(listing[id], IsSelected) == [f];
    assert AllHaveSelected([f]) && RowKeysPresent([f]);
    var rows := SelectedRows(listing, id).value;
    assert |rows| == 1;
    assert rows[0].path == f.path.Read() && rows[0].bytes == f.bytes.Read();
    assert rows == [FileData(Some(f.path.value), Some(f.bytes.value))];
  }

  /**
    Whether or not the torrent row was new, processing a torrent appends its
    selected files after the stored ones, as long as a row for its id
    exists once the torrent row was tried.
   */
  lemma {:induction false} ProcessOneStoresFiles(s: Store, c: Candidate, listing: map<string, seq<RdFile>>, now: Time)
    requires Valid(s)
    requires c.id.Some? && SelectedRows(listing, c.id.value).Some?
    ensures var r := ProcessOne(s, c, listing, now);
            && (HasTorrent(s, c.id.value) || Storable(c) ==>
                  r.files == s.files + FileRowsAsFiles(c.id.value, StoredRows(SelectedRows(listing, c.id.value).value), s.nextKey, now))
            && (!HasTorrent(s, c.id.value) && !Storable(c) ==> r == s)
            && (HasTorrent(s, c.id.value) || !Storable(c) ==> r.torrents == s.torrents)
            && (Storable(c) && !HasTorrent(s, c.id.value) ==> r.torrents == s.torrents + [RowOf(c, now)])
  {
    var s1 := CreateTorrent(s, c.hash, c.id, c.filename, now);
    CreateTorrentValid(s, c.hash, c.id, c.filename, now);
    assert Storable(c) ==> HasTorrent(s1, c.id.value) by {
      if Storable(c) && !HasTorrent(s, c.id.value) { assert s1.torrents[|s.torrents|].id == c.id.value; }
    }
    assert HasTorrent(s, c.id.value) ==> HasTorrent(s1, c.id.value) && s1 == s;
    AddFilesEffect(s1, c, listing, now);
  }

  /**
    The stored hashes are read once per run, so the same torrent listed
    twice in one response is processed twice: the second torrent row is
    refused by its primary key, but its files are stored a second time
    under the first one.
   */
  lemma {:induction false} DuplicateInResponseDuplicatesFiles(c: Candidate, f: RdFile, now: Time)
    requires Storable(c)
    requires f.selected == Present(1) && f.path.Present? && f.bytes.Present?
    ensures var r := ProcessNew(EmptyStore, [c, c], map[c.id.value := [f]], now);
            |r.torrents| == 1 && |r.files| == 2 && r.files[0].path == r.files[1].path
  {
    var listing := map[c.id.value := [f]];
    EmptyStoreValid();
    ProcessNewTwice(EmptyStore, c, listing, now);
    DuplicateFirstPass(c, f, now);
    DuplicateSecondPass(ProcessOne(EmptyStore, c, listing, now), c, f, now);
  }

  /** The rows stored from one file with a path and a size. */
  lemma {:induction false} StoredSingleRow(p: string, b: int)
    ensures StoredRows([FileData(Some(p), Some(b))]) == [FileRow(p, b)]
  {
    assert [FileData(Some(p), Some(b))][1..] == [];
  }

  /** The first pass over a one-file torrent stores the torrent and its file. */
  lemma {:induction false} DuplicateFirstPass(c: Candidate, f: RdFile, now: Time)
    requires Storable(c)
    requires f.selected == Present(1) && f.path.Present? && f.bytes.Present?
    ensures var s1 := ProcessOne(EmptyStore, c, map[c.id.value := [f]], now);
            && Valid(s1) && |s1.torrents| == 1 && HasTorrent(s1, c.id.value)
            && |s1.files| == 1 && s1.files[0].path == f.path.value
  {
    var listing := map[c.id.value := [f]];
    SingleSelectedFile(c.id.value, f);
    StoredSingleRow(f.path.value, f.bytes.value);
    EmptyStoreValid();
    ProcessOneStoresFiles(EmptyStore, c, listing, now);
    var s1 := ProcessOne(EmptyStore, c, listing, now);
    assert s1.torrents[0].id == c.id.value;
  }

  /** A second pass over a stored torrent adds no row but stores its file again. */
  lemma {:induction false} DuplicateSecondPass(s1: Store, c: Candidate, f: RdFile, now: Time)
    requires c.id.Some?
    requires f.selected == Present(1) && f.path.Present? && f.bytes.Present?
    requires Valid(s1) && HasTorrent(s1, c.id.value)
    ensures var s2 := ProcessOne(s1, c, map[c.id.value := [f]], now);
            && s2.torrents == s1.torrents && |s2.files| == |s1.files| + 1
            && s2.files[..|s1.files|] == s1.files && s2.files[|s1.files|].path == f.path.value
  {
    var listing := map[c.id.value := [f]];
    SingleSelectedFile(c.id.value, f);
    StoredSingleRow(f.path.value, f.bytes.value);
    ProcessOneStoresFiles(s1, c, listing, now);
  }

  /** Processing the same candidate twice is two `ProcessOne` steps. */
  lemma {:induction false} ProcessNewTwice(s: Store, c: Candidate, listing: map<string, seq<RdFile>>, now: Time)
    requires Valid(s)
    ensures ProcessNew(s, [c, c], listing, now) == ProcessOne(ProcessOne(s, c, listing, now), c, listing, now)
  {
    var s1 := ProcessOne(s, c, listing, now);
    assert [c, c][1..] == [c];
    assert [c][1..] == [];
    assert ProcessNew(s, [c, c], listing, now) == ProcessNew(s1, [c], listing, now);
  }
}

=== FILE: wrappers.dfy ===
/** Optional values and results shared by every module of the model. */
module Wrappers {

  /** A nullable value: `None` stands for Python's `None` or a missing key. */
  datatype Option<+T> = None | Some(value: T) {

    /** The value, or a default when absent (Python's `d.get(k, default)`). */
    function GetOr(default: T): T {
      match this
      case Some(v) => v
      case None => default
    }
  }

  /**
    A key of a JSON object: absent, holding `null`, or holding a value.
    Subscripting raises on `Missing`; `.get(key, default)` gives the default.
   */
  datatype Field<+T> = Missing | Null | Present(value: T) {

    /** What `d[key]` gives once the key exists: `null` reads as None. */
    function Read(): Option<T> {
      match this
      case Present(v) => Some(v)
      case _ => None
    }
  }

  /** The outcome of an operation that may fail with an error value. */
  datatype Result<+T, +E> = Ok(value: T) | Err(error: E)

  /** An `HTTPException` raised towards the web layer: a status code and a detail text. */
  datatype HttpError = HttpError(status: nat, detail: string)
}
